=== FILE: README.md ===
# CRM dashboard core, modelled in Dafny

This project models the logic at the heart of a React/Redux CRM dashboard. That
logic keeps deals on a board partitioned by pipeline stage, keeps contact and
campaign lists, and runs two in-memory REST layers over the same kind of data.
It also covers:

- CSV export and import;
- the contact filter, the automation rules and the chat box;
- opportunity health and campaign audiences;
- the import/export settings page;
- three role tables with their permission checks, input sanitising and data masking;
- the validation schemas of the forms;
- the download file name taken from a `content-disposition` header.

JavaScript values are modelled by `Json.Value` (`undefined`, `null`, booleans,
integers and strings). A record is a map from property names to values, read
with `Json.Get`, so a missing property reads as `undefined`.

The deal board is `DealBoard.Board`. It holds the stage lists and the order in
which `Object.keys` lists the stages. That order matters wherever the code scans
stages in turn (`find`, `for...of`, `Object.values(...).flat()`).

Some code changes state in place: the Redux slices with their Immer drafts
and the module-level data of the two REST layers. Each of these is a class
whose methods name what they modify. Each method's postcondition ties the new
state to a pure function of the old one, and lemmas prove what the code
promises about those functions.

Source loops become methods whose `while` loops are proved equal to the
function they compute. Examples are the stage scan of `findDeal`, the header
loop of `fromCSV`, the error loops of `validateAndProcessImport`, the
copy-and-assign loop of `maskSensitiveData` (proved equal to `Masked`, with its
input left as it was) and the stage loop of `deals.delete`. The rest of the
code is written with spreads, `map`, `filter` and `reduce`, and is modelled by
functions.

Where the code throws, the model returns a `Wrappers.Result` with the error
message; a thrown `TypeError` carries the message `Access.TypeError`. Examples
of where one arises:

- reading a property of `undefined`, such as the stage of a dragged deal that
  is not found (`SalesPage.HandleDragEnd`);
- converting `undefined` to an object, as `Object.keys(data[0])` does on an
  empty export (`DataManagement.ToCsv`);
- spreading or filtering the list of a stage that has no key
  (`SalesPage.MoveDealToStage`, `SalesPage.HandleAddDeal`,
  `SalesPage.HandleDeleteDeal`);
- calling `push` on a stage that has no key (`MockApi.MockStore.CreateDeal`),
  or `slice` on a destination stage that has no key
  (`PipelineBoard.HandleDragEnd`);
- calling `push` on an inherited `Object.prototype` member named as a stage
  (`DealsSlice.DealsState.UpdateDeal`);
- calling `includes` on an inherited `Object.prototype` member (the three
  `CheckPermission` functions);
- calling `toLowerCase` on a name or email that is not text
  (`ContactManagement.Matches`);
- calling `replace` on a header that is not text (`DocumentService.Filename`).

String lengths (`length` and the schema library's `min`) count UTF-16 code
units (`Strings.Utf16Length`), so a character beyond U+FFFF counts two.

Timestamps, the email and date format tests, and the outcomes of library and
network calls are parameters. Where the settings page calls the unbound name
`api`, the outcome parameter also covers the ReferenceError that call throws
as written (`DataManagementPage.ExportUnboundApi`).

## Model

| member | source | states |
|---|---|---|
| DealsSlice.Staged | src/store/slices/dealsSlice.js:32 | the rebuilt deal keeps every payload property, with id and stage taken from the payload |
| DealsSlice.Source | src/store/slices/dealsSlice.js:33-35 | the stage found for the id is a non-empty (truthy) key of the board whose list holds the id |
| DealsSlice.FilterSource | src/store/slices/dealsSlice.js:36-39 | filtering the source stage keeps the board well formed and its key order unchanged |
| DealsSlice.Push | src/store/slices/dealsSlice.js:41-44 | creating a missing stage and pushing onto it keeps the board well formed |
| DealsSlice.UpdatedBoard | src/store/slices/dealsSlice.js:31-45 | the board after `updateDeal` is well formed |
| DealsSlice.UpdateDealTarget | src/store/slices/dealsSlice.js:41-44 | the target list is the old list (without the moved deal if it was the source, empty if it was missing) followed by the rebuilt deal, whose stage names the target |
| DealsSlice.UpdateDealSource | src/store/slices/dealsSlice.js:33-39 | a source stage other than the target loses exactly the deals with the id, and the rest keep their order |
| DealsSlice.UpdateDealOthers | src/store/slices/dealsSlice.js:37-44 | every stage other than the source and the target is unchanged; a new key is added, at the end, only when the target was missing |
| DealsSlice.FilterSourceCounts | src/store/slices/dealsSlice.js:37-39 | the filter removes the source stage's copies of the id from the board's deal count and from that id's count |
| DealsSlice.PushCounts | src/store/slices/dealsSlice.js:41-44 | the push adds exactly one deal to the board, counted under its own id |
| DealsSlice.UpdateDealCounts | src/store/slices/dealsSlice.js:33-44 | the board's deal count and every id's count change only by the removed copies and the one appended deal |
| DealsSlice.UpdateDealUnique | src/store/slices/dealsSlice.js:31-45 | with unique ids and no stage named by the empty string, the id ends up once, in the target stage only; ids stay unique; the deal count is kept if the id existed and grows by one otherwise |
| DealsSlice.UpdateDealEmptyStageKey | src/store/slices/dealsSlice.js:33-38 | a deal under the falsy stage key `""` is never filtered out, so moving it leaves its id twice on the board |
| DealsSlice.DealsState.constructor | src/store/slices/dealsSlice.js:16-25 | the initial state: an empty board, not loading, no error, the initial filters |
| DealsSlice.ApplyUpdate | src/store/slices/dealsSlice.js:33-44 | filtering the source stage in place, creating a missing target stage and pushing the rebuilt deal yields exactly `UpdatedBoard` |
| DealsSlice.DealsState.UpdateDeal | src/store/slices/dealsSlice.js:31-45 | the reducer fails with a TypeError, leaving the state unchanged, exactly when the target stage is missing and names an inherited property; otherwise the board becomes `UpdatedBoard`; status and filters are untouched |
| DealsSlice.DealsState.SetFilters | src/store/slices/dealsSlice.js:46-48 | the payload's keys overwrite the filters and the other filters stay; board and status are untouched |
| DealsSlice.DealsState.ResetFilters | src/store/slices/dealsSlice.js:49-51 | the filters become search '', priority 'all' and valueRange 'all' (so a second reset changes nothing); board and status are untouched |
| DealsSlice.DealsState.FetchPending | src/store/slices/dealsSlice.js:55-58 | loading starts and the error is cleared; nothing else changes |
| DealsSlice.DealsState.FetchFulfilled | src/store/slices/dealsSlice.js:59-62 | loading stops, the payload becomes the board, and the error is kept |
| DealsSlice.DealsState.FetchRejected | src/store/slices/dealsSlice.js:63-66 | loading stops and the payload becomes the error; the board is kept |
| FetchStatus.Step | src/store/slices/dealsSlice.js:55-66 | after any reducer, loading is set exactly when the event is pending; pending clears the error, fulfilled keeps it, rejected stores the payload |
| FetchStatus.Run | src/store/slices/contactsSlice.js:45-56 | after a sequence of events, loading is set exactly when the last event is pending |
| FetchStatus.RunError | src/store/slices/marketingSlice.js:53-64 | the error after a sequence of events is decided by the last event that is not a fulfilment |
| FetchStatus.RunFulfilledOnly | src/store/slices/contactsSlice.js:49-52 | fulfilments alone never change the error |
| ContactsSlice.ContactsState.constructor | src/store/slices/contactsSlice.js:16-21 | the initial state: no contacts, not loading, no error, no selection |
| ContactsSlice.ContactsState.SetSelectedContact | src/store/slices/contactsSlice.js:27-29 | only the selection changes |
| ContactsSlice.ContactsState.AddContact | src/store/slices/contactsSlice.js:30-32 | the payload is appended at the end |
| ContactsSlice.ContactsState.UpdateContact | src/store/slices/contactsSlice.js:33-38 | the first contact with the payload's id becomes the payload; the others stay (see Records.ReplaceFirstSpec) |
| ContactsSlice.ContactsState.DeleteContact | src/store/slices/contactsSlice.js:39-41 | every contact with the id is filtered out (see Records.RemoveIdCount) |
| ContactsSlice.ContactsState.FetchPending | src/store/slices/contactsSlice.js:45-48 | loading starts and the error is cleared; list and selection are kept |
| ContactsSlice.ContactsState.FetchFulfilled | src/store/slices/contactsSlice.js:49-52 | loading stops and the payload becomes the list |
| ContactsSlice.ContactsState.FetchRejected | src/store/slices/contactsSlice.js:53-56 | loading stops and the payload becomes the error |
| MarketingSlice.MarketingState.constructor | src/store/slices/marketingSlice.js:16-26 | the initial state: no campaigns, no selection, and sent, opened and clicked totals of 0 |
| MarketingSlice.MarketingState.SetSelectedCampaign | src/store/slices/marketingSlice.js:32-34 | only the selection changes |
| MarketingSlice.MarketingState.AddCampaign | src/store/slices/marketingSlice.js:35-37 | the payload is appended at the end |
| MarketingSlice.MarketingState.UpdateCampaign | src/store/slices/marketingSlice.js:38-43 | the first campaign with the payload's id becomes the payload; the length is kept |
| MarketingSlice.MarketingState.DeleteCampaign | src/store/slices/marketingSlice.js:44-46 | every campaign with the id is filtered out |
| MarketingSlice.MarketingState.UpdateStats | src/store/slices/marketingSlice.js:47-49 | the payload's totals overwrite and the other totals stay |
| MarketingSlice.MarketingState.FetchPending | src/store/slices/marketingSlice.js:53-56 | loading starts and the error is cleared |
| MarketingSlice.MarketingState.FetchFulfilled | src/store/slices/marketingSlice.js:57-60 | loading stops and the payload becomes the campaign list |
| MarketingSlice.MarketingState.FetchRejected | src/store/slices/marketingSlice.js:61-64 | loading stops and the payload becomes the error |
| SalesPage.InitialDeals | src/components/sales/SalesPage.jsx:34-43 | the seeded board is well formed and has no key for the last three of the five stages |
| SalesPage.FoundDeal | src/components/sales/SalesPage.jsx:76-81 | a deal that is found carries the searched id |
| SalesPage.FoundDealInFlat | src/components/sales/SalesPage.jsx:76-81 | nothing is found exactly when no stage holds the id; otherwise the result is the first deal with the id, scanning stages in key order, with `stage` set to that stage's key |
| SalesPage.FindDeal | src/components/sales/SalesPage.jsx:76-81 | the loop with early return computes `FoundDeal` |
| SalesPage.MoveDealToStage | src/components/sales/SalesPage.jsx:83-94 | the move succeeds exactly when both stages have a key (a missing one is spread as `undefined` and throws); the result is well formed with the same key order |
| SalesPage.Relocate | src/components/sales/SalesPage.jsx:88-92 | filtering one stage and appending to another keeps the board well formed |
| SalesPage.RelocateUnique | src/components/sales/SalesPage.jsx:88-92 | with unique ids, relocating a deal that is in the source stage keeps the deal count and unique ids, and leaves the deal in the target |
| SalesPage.MoveDealSpec | src/components/sales/SalesPage.jsx:83-94 | between two different stages, the source loses the id and the target gains the moved deal at the end, with `stage` set to the target; other stages are unchanged |
| SalesPage.MoveDealKeepsCount | src/components/sales/SalesPage.jsx:88-92 | with unique ids, a move between two stages keeps the total number of deals, and the id moves from source to target |
| SalesPage.MoveDealSameStage | src/components/sales/SalesPage.jsx:88-92 | moving onto the deal's own stage appends a second copy, so the count grows by one |
| SalesPage.HandleDragEnd | src/components/sales/SalesPage.jsx:64-74 | no drop target leaves the board unchanged, as does a drop onto the deal's own stage; dropping a deal that is not found throws |
| SalesPage.DragEndMoves | src/components/sales/SalesPage.jsx:64-74 | dropping a deal onto another existing stage moves it there, keeping the count and unique ids |
| SalesPage.NextDealId | src/components/sales/SalesPage.jsx:97-98 | the new id is at least 1 and greater than every id on the board |
| SalesPage.NewDeal | src/components/sales/SalesPage.jsx:97-101 | the new deal keeps the submitted values, takes the allocated id unless the values bring one, and is stamped with the current time |
| SalesPage.HandleAddDeal | src/components/sales/SalesPage.jsx:96-109 | adding succeeds exactly when the deal's stage has a key; the result is well formed with the same key order |
| SalesPage.AddDealFresh | src/components/sales/SalesPage.jsx:96-109 | a deal without an id is appended to its own stage with an id new to the board; other stages are unchanged, the count grows by one, ids stay unique |
| SalesPage.HandleDeleteDeal | src/components/sales/SalesPage.jsx:116-124 | an unconfirmed delete changes nothing; a confirmed one succeeds exactly when the deal's stage has a key |
| SalesPage.DeleteDealSpec | src/components/sales/SalesPage.jsx:118-121 | a confirmed delete removes the id from the deal's own stage only; the count drops by one and the id is gone from the board |
| SalesPage.InitialDealsMissingStages | src/components/sales/SalesPage.jsx:34-43 | on the seeded board, moving or adding a deal into any of the last three stages throws |
| PipelineBoard.InsertAt | src/components/pipeline/PipelineBoard.jsx:83-86 | the deal lands at the drop index, clamped to the list length; the elements before it and after it keep their order |
| PipelineBoard.InsertAtCount | src/components/pipeline/PipelineBoard.jsx:83-86 | the insertion adds exactly the inserted deal to every id's count |
| PipelineBoard.HandleDragEnd | src/components/pipeline/PipelineBoard.jsx:69-87 | with no destination nothing changes; a drop succeeds exactly when the destination stage has a key; the board stays well formed |
| PipelineBoard.DragEndSpec | src/components/pipeline/PipelineBoard.jsx:78-87 | the deal sits at the clamped drop index of the destination and is gone from a different source; a reorder within one stage keeps its length; other stages are unchanged |
| PipelineBoard.DragEndKeepsCount | src/components/pipeline/PipelineBoard.jsx:79-86 | with unique ids, a drop keeps the number of deals and unique ids, and the deal sits in the destination |
| PipelineBoard.StageValue | src/components/pipeline/PipelineBoard.jsx:98-100 | an empty stage is worth 0 |
| PipelineBoard.StageValueNumeric | src/components/pipeline/PipelineBoard.jsx:98-100 | when every deal's value is a number, the stage is worth the sum of those values |
| PipelineBoard.StageValueUnreadable | src/components/pipeline/PipelineBoard.jsx:98-100 | one deal whose value is missing or text leaves the stage without a numeric value |
| PipelineBoard.StageValueAppend | src/components/pipeline/PipelineBoard.jsx:98-100 | the value of two lists together is the sum of their values |
| PipelineBoard.StageProgress | src/components/pipeline/PipelineBoard.jsx:102-106 | with no deals on the board the progress is 0 |
| PipelineBoard.StageProgressBounds | src/components/pipeline/PipelineBoard.jsx:102-106 | a stage's share always lies between 0 and 100 percent |
| StageColumn.TotalValue | src/components/sales/StageColumn.jsx:14 | an empty column totals 0 |
| StageColumn.TotalValueNumeric | src/components/sales/StageColumn.jsx:14 | with numeric or falsy values, the total is the sum of the numeric values, a falsy one counting as 0 |
| StageColumn.AvgDealSize | src/components/sales/StageColumn.jsx:15 | an empty column averages 0; otherwise the average times the count is the total |
| StageColumn.CountCaption | src/components/sales/StageColumn.jsx:25 | the caption is decimal digits that read back as the number of deals, followed by " deals" |
| Strings.NatToStringValue | src/components/sales/StageColumn.jsx:25 | the decimal text of a number reads back as that number |
| StageColumn.SortableIds | src/components/sales/StageColumn.jsx:40 | one sortable id per deal, each the id of the deal at the same position |
| MockApi.Login | src/services/api/mockApi.js:9-16 | login succeeds exactly for admin@example.com with admin123, answering an admin user with that email; otherwise it fails with 'Invalid credentials' |
| MockApi.SeedDeals | src/services/mockData.js:2-16 | the shared seed board is well formed |
| MockApi.CreatedDeal | src/services/api/mockApi.js:42-46 | the created deal is stamped with the creation time |
| MockApi.CreatedDealFresh | src/services/api/mockApi.js:40-49 | a created deal without an id of its own gets an id greater than every id on the board, so ids stay unique |
| MockApi.MockStore.constructor | src/services/mockData.js:1-42 | the store starts with the seed deals, contacts and campaigns |
| MockApi.MockStore.GetDealById | src/services/api/mockApi.js:32-39 | the first deal with the id over all stages in key order, or 'Deal not found' |
| MockApi.MockStore.CreateDeal | src/services/api/mockApi.js:40-49 | the new deal is pushed onto the list of its stage; a stage without a key throws a TypeError and changes nothing |
| MockApi.MockStore.UpdateDeal | src/services/api/mockApi.js:50-58 | the data is merged into the first deal with the id, in place; without one it fails with 'Deal not found' and changes nothing |
| MockApi.FilterStages | src/services/api/mockApi.js:61-63 | filtering each stage in key order leaves every stage without the id and the rest of every stage in order, which is `RemoveEverywhere` |
| MockApi.MockStore.DeleteDeal | src/services/api/mockApi.js:59-65 | the deals become the board with the id filtered out of every stage, and the call reports success even when the id was absent; contacts and campaigns are untouched |
| MockApi.MockStore.GetContactById | src/services/api/mockApi.js:73-78 | the first contact with the id, or 'Contact not found' |
| MockApi.MockStore.CreateContact | src/services/api/mockApi.js:79-87 | a contact with the next id is appended |
| MockApi.MockStore.UpdateContact | src/services/api/mockApi.js:88-94 | the data is merged into the first contact with the id, and the others are kept; without one it fails with 'Contact not found' |
| MockApi.MockStore.DeleteContact | src/services/api/mockApi.js:95-99 | every contact with the id is filtered out; always a success |
| MockApi.MockStore.GetCampaignById | src/services/api/mockApi.js:107-112 | the first campaign with the id, or 'Campaign not found' |
| MockApi.MockStore.CreateCampaign | src/services/api/mockApi.js:113-121 | a campaign with the next id is appended |
| MockApi.MockStore.UpdateCampaign | src/services/api/mockApi.js:122-128 | the data is merged into the first campaign with the id; without one it fails with 'Campaign not found' |
| MockApi.MockStore.DeleteCampaign | src/services/api/mockApi.js:129-133 | every campaign with the id is filtered out; always a success |
| MockApi.MockStore.GetCampaignStats | src/services/api/mockApi.js:134-145 | succeeds exactly when a campaign has the id, answering an object of exactly the keys sent, opened and clicked, each holding the first such campaign's value; otherwise 'Campaign not found' |
| MockApi.DeleteDealFlat | src/services/api/mockApi.js:59-65 | after a delete the board's deals are the old ones minus every deal with the id, in order, and the id is gone |
| MockApi.UpdateDealKeepsIds | src/services/api/mockApi.js:50-58 | an update whose data has no id keeps the count of every id on the board |
| ApiService.SeedDeals | src/services/api.js:5-56 | the seed board is well formed |
| ApiService.ApiStore.constructor | src/services/api.js:5-56 | the store starts with the seed deals, contacts and campaigns |
| ApiService.ApiStore.GetDealById | src/services/api.js:64-71 | the first deal with the id in the flattened board, or 'Deal not found' |
| ApiService.ApiStore.GetCustomerById | src/services/api.js:78-83 | the first contact with the id, or 'Contact not found' |
| ApiService.ApiStore.CreateCustomer | src/services/api.js:84-92 | exactly one contact, with the next id, is appended |
| ApiService.ApiStore.UpdateCustomer | src/services/api.js:93-99 | the length is kept; the data is merged into the first contact with the id and the others are untouched; without one it fails with 'Contact not found' |
| ApiService.ApiStore.DeleteCustomer | src/services/api.js:100-106 | only the first contact with the id is spliced out; without one it fails with 'Contact not found' and changes nothing |
| ApiService.DeleteCustomerCounts | src/services/api.js:100-106 | a successful delete shrinks the list by exactly one and removes one copy of the id |
| ApiService.SpliceIsFilterWhenUnique | src/services/api.js:100-106 | with unique ids, the splice removes the same contacts as a filter would |
| Records.RemoveIdCount | src/store/slices/contactsSlice.js:39-41 | filtering removes every record with the id and keeps every other id's count |
| Records.RemoveIdMembers | src/store/slices/marketingSlice.js:44-46 | filtering keeps exactly the records without the id |
| Records.RemoveIdIdempotent | src/store/slices/contactsSlice.js:39-41 | deleting the same id twice is deleting it once |
| Records.ReplaceFirstSpec | src/store/slices/contactsSlice.js:33-38 | the first record with the id, and only that one, becomes the payload; without one the list is unchanged |
| Records.NextId | src/services/api/mockApi.js:82 | on a non-empty list, the next id is one more than the largest id present |
| Records.WithNextIdFresh | src/services/api/mockApi.js:79-87 | a record without an id of its own gets an id that no record of the list has |
| Records.MergeAtKeepsIds | src/services/api.js:93-99 | merging data without an id keeps the count of every id |
| Records.FindOrFail | src/services/api.js:78-83 | the lookup succeeds exactly when a record has the id, answering the first such record; otherwise the not-found message |
| DealBoard.RemoveEverywhereFlat | src/services/api/mockApi.js:61-63 | filtering every stage filters the concatenation of the stages |
| DealBoard.MergeDealFlat | src/services/api/mockApi.js:52-56 | merging into the first deal of the first stage holding the id is merging into the first match of the flattened board |
| DataManagement.ToCsv | src/services/dataManagement.js:48-55 | export fails with a TypeError exactly when there are no records |
| DataManagement.CsvLines | src/services/dataManagement.js:49-51 | the header line holds the first record's keys, and each record's values fill one line |
| DataManagement.CsvLineCount | src/services/dataManagement.js:48-55 | renderable records give exactly one line for the header and one per record |
| DataManagement.CsvRoundTrip | src/services/dataManagement.js:48-98 | parsing the CSV text of records with the first record's keys and plain text values gives those records back |
| DataManagement.RecordRoundTrip | src/services/dataManagement.js:89-97 | one line of plain values parses back to its record |
| DataManagement.Cell | src/services/dataManagement.js:95 | a cell is the trimmed value at the header's position, or `undefined` past the end of the line |
| DataManagement.RowObjectCell | src/services/dataManagement.js:93-97 | every property of a parsed record is the cell at some position of its header |
| DataManagement.RowObjectLastWins | src/services/dataManagement.js:93-97 | a header that does not occur again names the cell at its own position |
| DataManagement.BuildRow | src/services/dataManagement.js:92-97 | the per-header assignment loop builds the record of the trimmed headers and the line's cells |
| DataManagement.ParseCsv | src/services/dataManagement.js:87-98 | there is one record per line after the first, including one for a trailing empty line |
| DataManagement.ParseCsvRows | src/services/dataManagement.js:89-98 | the mapping over the lines computes `ParseCsv` |
| DataManagement.TrailingLineBreak | src/services/dataManagement.js:89-91 | a text ending in a line break gives one more record, whose cells other than the first are `undefined` |
| DataManagement.RequiredFields | src/services/dataManagement.js:134-143 | contacts require name and email, deals require name, value and stage, any other type requires nothing |
| DataManagement.RowComplete | src/services/dataManagement.js:107-116 | a record whose required fields are all truthy raises no message |
| DataManagement.RowMissingReported | src/services/dataManagement.js:107-116 | a falsy required field of a record is reported |
| DataManagement.NoneMissing | src/services/dataManagement.js:107-120 | records whose required fields are all truthy raise no message |
| DataManagement.MissingReported | src/services/dataManagement.js:107-116 | each falsy required field is reported as 'Row i+1: Missing field' for record i |
| DataManagement.CollectErrors | src/services/dataManagement.js:107-116 | the nested loops push exactly the messages of `Errors`, in record-then-field order |
| DataManagement.Dedup | src/services/dataManagement.js:123-128 | the kept records form an ordered sub-list of the data that holds every copy of each record clashing with no record on file (by email or by phone) and no copy of any other |
| DataManagement.MissingPhonesClash | src/services/dataManagement.js:125-126 | two records without a phone clash, whatever their emails |
| DataManagement.ProcessImport | src/services/dataManagement.js:105-131 | the import fails exactly when some required field is falsy, with 'Validation failed:' followed by the messages one per line; otherwise it answers the deduplicated records |
| DataManagement.ValidateAndProcessImport | src/services/dataManagement.js:105-131 | the method computes `ProcessImport` |
| DataManagement.ImportAccepts | src/services/dataManagement.js:107-120 | an import goes through exactly when every record has every required field truthy |
| DataManagement.TrailingLineBreakFailsImport | src/services/dataManagement.js:89-120 | a contacts or deals file ending in a line break is always rejected |
| DataManagementPage.Extension | src/components/settings/DataManagement.jsx:78 | the extension never holds a dot |
| DataManagementPage.ExtensionWithoutDot | src/components/settings/DataManagement.jsx:78 | a name without a dot is its own extension, lower-cased |
| DataManagementPage.ExtensionAfterLastDot | src/components/settings/DataManagement.jsx:78 | the extension is the lower-cased text after the last dot |
| DataManagementPage.ImporterFor | src/components/settings/DataManagement.jsx:81-87 | 'xlsx' and 'xls' select the Excel importer and 'csv' the CSV importer; anything else fails with 'Unsupported file format' |
| DataManagementPage.ProgressStep | src/components/settings/DataManagement.jsx:91-97 | a tick keeps the reading only when the bar is full; below 100 it moves the bar forward by at most 10; from 100 or beyond it returns 100; a reading on the tens of [0, 100] stays on them and never goes back |
| DataManagementPage.ProgressFromZero | src/components/settings/DataManagement.jsx:90-98 | from 0 the bar reads 10n until it reaches 100, and it never leaves [0, 100] |
| DataManagementPage.HandleImport | src/components/settings/DataManagement.jsx:69-109 | an unsupported extension is reported as 'Import failed: Unsupported file format'; a failure keeps the previous success line; a CSV import that passes validation and uploads reports the number of records imported |
| DataManagementPage.CsvImportInvalid | src/components/settings/DataManagement.jsx:81-105 | a CSV file with a falsy required field shows an error and keeps the previous success line |
| DataManagementPage.ExporterFor | src/components/settings/DataManagement.jsx:51-61 | 'excel', 'csv' and 'pdf' select their exporters, and no other format does |
| DataManagementPage.HandleExport | src/components/settings/DataManagement.jsx:46-67 | a failed fetch is reported as 'Export failed: ' with its message; after a successful fetch an unmatched format exports nothing yet reports success, and a CSV export fails exactly when there are no records; a failure keeps the previous success line |
| DataManagementPage.ExportUnboundApi | src/components/settings/DataManagement.jsx:49 | with `api` unbound, every export reports 'Export failed: api is not defined' |
| ContactManagement.SetType | src/components/contacts/ContactManagement.jsx:187 | the Type select changes only the type filter |
| ContactManagement.SetStatus | src/components/contacts/ContactManagement.jsx:200 | the Status select changes only the status filter |
| ContactManagement.Matches | src/components/contacts/ContactManagement.jsx:127-134 | a contact is shown exactly when its name or email holds the term, ignoring case, and it passes the type and status filters; a non-text name, or a non-text email read after a name miss, throws |
| ContactManagement.FilterContacts | src/components/contacts/ContactManagement.jsx:127-134 | the shown contacts are an ordered sub-list of the contacts that holds every copy of each matching contact and no copy of any other; it fails exactly when some contact cannot be read |
| ContactManagement.ShowAll | src/components/contacts/ContactManagement.jsx:128-131 | with no term and both filters at 'all', every contact is shown |
| ContactManagement.Narrowing | src/components/contacts/ContactManagement.jsx:133 | a stricter test shows a sub-list of what a looser one shows |
| ContactManagement.NarrowType | src/components/contacts/ContactManagement.jsx:130 | choosing a type never shows more contacts than 'All Types' |
| ContactManagement.NarrowStatus | src/components/contacts/ContactManagement.jsx:131 | choosing a status never shows more contacts than 'All Status' |
| ContactManagement.TypeFilterIsCaseSensitive | src/components/contacts/ContactManagement.jsx:130 | a contact of type 'Customer' is hidden by the 'customer' choice |
| AutomationRules.Toggled | src/components/automation/AutomationRules.jsx:86 | the toggled rule's switch is the negation of the old one, and every other property is kept |
| AutomationRules.ToggleRule | src/components/automation/AutomationRules.jsx:84-88 | rules with the id flip their switch and keep their other properties; every other rule is unchanged |
| AutomationRules.ToggleTwice | src/components/automation/AutomationRules.jsx:86 | toggling the same rule twice restores the list, for boolean switches |
| AutomationRules.ToggleTwiceAddsSwitch | src/components/automation/AutomationRules.jsx:86 | a rule without a switch comes back from two toggles with `active: false` added |
| AutomationRules.ActiveCount | src/components/automation/AutomationRules.jsx:141 | the count is 0 exactly when no rule is active and the list length exactly when all are |
| AutomationRules.ToggleActiveCount | src/components/automation/AutomationRules.jsx:84-88 | a toggle switches off every active rule with the id and switches on every inactive one |
| AutomationRules.ToggleOneRule | src/components/automation/AutomationRules.jsx:141 | with unique ids, a toggle moves the 'Active Rules' figure by exactly one |
| AutomationRules.SaveRule | src/components/automation/AutomationRules.jsx:75-82 | in edit mode every rule with the selected id is replaced and the length is kept; in add mode the rule is appended with id length + 1 |
| AutomationRules.NumberingKept | src/components/automation/AutomationRules.jsx:29-88 | the initial list, toggles, adds and id-keeping edits keep the ids numbered 1..n, so a new rule's id is one no rule has |
| CollaborationHub.SendMessage | src/components/collaboration/CollaborationHub.jsx:75-89 | a blank box changes nothing; otherwise one message, from 'Current User' with the box's text and id n+1, is appended after the unchanged earlier messages, and the box is cleared |
| CollaborationHub.KeyPress | src/components/collaboration/CollaborationHub.jsx:91-96 | a key press keeps the messages as a prefix and adds at most one; it adds one exactly on Enter without Shift with a box holding more than white space, and that message is the box's text from the current user with id n+1, the box then cleared; otherwise the chat is unchanged |
| CollaborationHub.InitialNumbered | src/components/collaboration/CollaborationHub.jsx:34-58 | the opening conversation is numbered 1..n |
| CollaborationHub.SendKeepsNumbering | src/components/collaboration/CollaborationHub.jsx:77-87 | a send keeps the ids numbered, so a sent message's id is new |
| CollaborationHub.SecondSendIgnored | src/components/collaboration/CollaborationHub.jsx:76-88 | a second send finds the box empty and does nothing |
| OpportunityManagement.AddActivity | src/components/sales/OpportunityManagement.jsx:73-83 | the activity is appended to every opportunity with the id; everything else is unchanged |
| OpportunityManagement.WholeDays | src/components/sales/OpportunityManagement.jsx:87-89 | the day count is the floor of the span over 86 400 000 ms |
| OpportunityManagement.HealthOfDays | src/components/sales/OpportunityManagement.jsx:91-93 | more than 14 days is at-risk, 8 to 14 is warning, 7 or fewer is healthy |
| OpportunityManagement.CalculateHealth | src/components/sales/OpportunityManagement.jsx:85-94 | with no activity the label is healthy; otherwise at-risk exactly from 15 days after the first activity and healthy exactly before 8 |
| OpportunityManagement.HealthMonotone | src/components/sales/OpportunityManagement.jsx:91-93 | more days never give a better label |
| OpportunityManagement.HealthWorsensOverTime | src/components/sales/OpportunityManagement.jsx:85-94 | as time passes an opportunity's label never improves |
| OpportunityManagement.AddActivityKeepsHealth | src/components/sales/OpportunityManagement.jsx:80-88 | logging an activity on an opportunity that already has one leaves its label as it was |
| EmailCampaignForm.RemoveAll | src/components/marketing/EmailCampaignForm.jsx:63 | every copy of the segment is removed; every copy of each other segment stays, in order |
| EmailCampaignForm.ToggleAudience | src/components/marketing/EmailCampaignForm.jsx:60-66 | a chosen segment is removed with all its copies and one not chosen is appended; the segment's membership flips and no other changes |
| EmailCampaignForm.ToggleTwice | src/components/marketing/EmailCampaignForm.jsx:62-64 | toggling a segment that was not chosen twice restores the list |
| EmailCampaignForm.Errors | src/components/marketing/EmailCampaignForm.jsx:20-25 | subject, template and audience are reported exactly when empty |
| EmailCampaignForm.ValidIff | src/components/marketing/EmailCampaignForm.jsx:20-25 | a form passes exactly when it has a subject, a template and an audience |
| EmailCampaignForm.DefaultFails | src/components/marketing/EmailCampaignForm.jsx:24-52 | the blank form fails the audience rule, and choosing a segment satisfies it |
| Access.Lookup | src/utils/rbac.js:9 | a role key reads its own entry if the table has one, an inherited member if it names one, and nothing otherwise |
| Rbac.CheckPermission | src/utils/rbac.js:7-10 | a falsy or unknown role is denied; a listed role is granted exactly its listed permissions; a role naming an inherited member throws |
| Rbac.RoleTable | src/utils/rbac.js:1-5 | admin holds read, write, delete and manage_users; manager read and write; user read; guest nothing |
| Rbac.RolesNested | src/utils/rbac.js:1-5 | user's permissions lie within manager's, and manager's within admin's |
| Rbac.InheritedRoleThrows | src/utils/rbac.js:9 | the role 'constructor' makes the check throw instead of denying |
| SecurityConfig.CheckPermission | src/utils/security/SecurityConfig.jsx:23-26 | a falsy or unknown role is denied; otherwise the answer is list membership |
| SecurityConfig.RolesNested | src/utils/security/SecurityConfig.jsx:15-20 | guest within user within manager within admin |
| SecurityConfig.TablesDisagree | src/utils/security/SecurityConfig.jsx:15-20 | unlike the route guard's table, this one lets a manager delete and a guest read |
| SecurityConfig.SanitizeInput | src/utils/security/SecurityConfig.jsx:29-34 | non-text passes unchanged; for text, the bracket-free text keeps every other character, each copy, in order, and the result is the slice of it between its leading and its trailing white space, so the result has no angle bracket and no white space at its ends, keeps the inner white space, and clean trimmed text is returned unchanged (the security service's `sanitizeInput`, src/services/security/securityService.js:131-136, is the same code) |
| Strings.RemoveChars | src/utils/security/SecurityConfig.jsx:32 | the result is an ordered sub-list of the text that holds every copy of each character outside the removed set and none inside it |
| SecurityConfig.SanitizeIdempotent | src/utils/security/SecurityConfig.jsx:29-34 | sanitising twice is sanitising once |
| SecurityConfig.SanitizeClean | src/utils/security/SecurityConfig.jsx:29-34 | text without angle brackets and without white space at its ends is its own sanitised form |
| Strings.TrimKeepsInner | src/utils/security/SecurityConfig.jsx:33 | `trim` removes white space only: every other character of the text is kept |
| Strings.TrimIsTrimOf | src/utils/security/SecurityConfig.jsx:33 | `trim` gives the slice of the text between its leading and trailing white space, with none at its own ends |
| Strings.TrimOfUnique | src/utils/security/SecurityConfig.jsx:33 | that description fixes the text: any slice meeting it is the trim |
| SecurityConfig.ValidatePasswordIff | src/utils/security/SecurityConfig.jsx:66-80 | a password passes exactly when it has at least 8 UTF-16 code units and an upper-case letter, a lower-case letter, a digit and a listed symbol |
| SecurityConfig.AstralPasswordPasses | src/utils/security/SecurityConfig.jsx:74 | a password of 7 characters, three of them beyond U+FFFF, has 10 code units and passes |
| Strings.Utf16Length | src/utils/security/SecurityConfig.jsx:74 | `length` counts at least one and at most two code units per character |
| Strings.Utf16LengthBasic | src/utils/security/SecurityConfig.jsx:74 | a text of characters up to U+FFFF has as many code units as characters |
| Strings.Utf16LengthAstral | src/utils/security/SecurityConfig.jsx:74 | the code units outnumber the characters only when some character lies beyond U+FFFF |
| SecurityConfig.UnlistedSymbolRejected | src/utils/security/SecurityConfig.jsx:71 | a password whose only symbols are outside the list is rejected |
| SecurityConfig.PasswordExamples | src/utils/security/SecurityConfig.jsx:66-80 | 'Password1!' passes and 'Password1_' does not |
| SecurityService.CheckPermission | src/services/security/securityService.js:37-40 | an unknown role is denied; a listed role gets list membership; a role naming an inherited member throws |
| SecurityService.RoleNamesKnown | src/services/security/securityService.js:23-35 | the role constants map ADMIN, MANAGER, USER and GUEST to four different roles of the table |
| SecurityService.RolesNested | src/services/security/securityService.js:30-35 | guest within user within manager within admin |
| SecurityService.SameAsConfig | src/services/security/securityService.js:37-40 | without the falsy-role test the check still answers as the security configuration's |
| SecurityService.Masked | src/services/security/securityService.js:143-151 | listed truthy properties become '****'; falsy and unlisted properties keep their values; a listed inherited member other than `__proto__` is added as '****' |
| SecurityService.MaskSensitiveData | src/services/security/securityService.js:143-151 | the copy-and-assign loop computes `Masked` and leaves its input as it was |
| SecurityService.MaskInheritedNames | src/services/security/securityService.js:146-148 | listing 'toString' adds a masked property; listing '__proto__' changes nothing |
| SecurityService.MaskIdempotent | src/services/security/securityService.js:143-151 | masking twice is masking once |
| ValidationSchemas.ContactErrors | src/utils/validationSchemas.js:3-18 | name needs 2 UTF-16 code units; email is required and well formed; a present phone is phone characters, at least 10 of them; company is required; type is exactly 'lead', 'customer' or 'partner' |
| ValidationSchemas.SeedContactsMistyped | src/utils/validationSchemas.js:15-17 | the service layer's seeded contacts, typed 'Customer' and 'Lead', fail the type rule |
| ValidationSchemas.PhoneOptional | src/utils/validationSchemas.js:10-12 | an absent phone passes and an empty one does not |
| LoginPage.LoginErrors | src/components/auth/LoginPage.jsx:22-49 | email and password are checked on both tabs, the password by its UTF-16 length; the confirmation (present and equal) and the name (at least 2 code units) only on the sign-up tab |
| LoginPage.NameCountsCodeUnits | src/components/auth/LoginPage.jsx:42-48 | on the sign-up tab a name of one character beyond U+FFFF passes the length rule and a one-letter name fails it |
| LoginPage.SignInIgnoresSignUpFields | src/components/auth/LoginPage.jsx:35-48 | on the sign-in tab the confirmation and the name never matter |
| LoginPage.ConfigPasswordPasses | src/components/auth/LoginPage.jsx:22-28 | every password the security configuration accepts passes this rule |
| LoginPage.WiderSymbolRule | src/components/auth/LoginPage.jsx:28 | this rule counts '_' as a symbol and the security configuration does not |
| DealForm.DealErrors | src/components/sales/DealForm.jsx:19-27 | name, company, stage and priority are required; value must be a number of at least 0 |
| DealForm.DefaultDealErrors | src/components/sales/DealForm.jsx:38-45 | the untouched form fails on name, company and value alone |
| DealForm.DealRules | src/components/sales/DealForm.jsx:22-34 | a value of 0 passes and -1 does not; any non-empty stage or priority passes, listed or not |
| OpportunityForm.OpportunityErrors | src/components/opportunities/OpportunityForm.jsx:19-32 | name, company, stage and next action are required; value at least 0; probability between 0 and 100; the next action date is a required date |
| OpportunityForm.DefaultOpportunityErrors | src/components/opportunities/OpportunityForm.jsx:36-45 | the untouched form fails on name, company, value and next action; stage 'new' and probability 0 pass |
| OpportunityForm.OpportunityRules | src/components/opportunities/OpportunityForm.jsx:25-29 | a probability fails exactly outside [0, 100]; any non-empty stage passes, on the menu or not |
| DocumentService.SecondPiece | src/services/documents/documentService.js:61 | no second piece exists exactly when the header lacks 'filename='; otherwise it is the text after the first marker, up to the next marker or, without one, to the end |
| DocumentService.Filename | src/services/documents/documentService.js:59-68 | no header gives 'document'; otherwise the second piece with every '"' removed and every other character kept in order, so it never holds a '"'; a header without the marker throws a TypeError |
| DocumentService.FilenameAfterMarker | src/services/documents/documentService.js:61 | with one marker the name is everything after it, quotes removed |
| DocumentService.QuotedFilename | src/services/documents/documentService.js:59-62 | `attachment; filename="name"` yields the name |

## Left out

- The `delay` timers of both REST layers: every call is modelled as one atomic step. The reducers' thunk bodies, including `rejectWithValue`, are network calls; only the reducers they trigger are modelled.
- `new Date()` and `Date.now()` become parameters (`now`, `today`). The campaign form's rule that the schedule lies in the future reads the clock and is left out.
- EmailCampaignForm.Errors: does not model the `scheduledFor` rule, because it compares against the clock.
- The mock layer's `auth.logout`, `getCurrentUser` and every `getAll` answer constants or the whole store unchanged; they are not modelled.
- PipelineBoard.HandleDragEnd: models the optimistic local move only. The remote `updateDealStage` call, the reload on failure and `loadPipelineData` are network calls.
- PipelineBoard.HandleDragEnd: requires the source stage to exist and to hold the dragged id, which the drag library guarantees.
- PipelineBoard.StageProgress: a stage id naming an inherited member reads a function's `length` in the source, while the model reads an empty stage. The percentage is real arithmetic, not floating point.
- StageColumn.AvgDealSize: the average is a real number, not a floating-point one.
- `toLocaleString` formatting of values and all rendering are left out.
- The Excel reader and writer, the PDF writer, `saveAs`, `Blob` and `file.text()` are library I/O. Their outcomes are parameters of `HandleImport` and `HandleExport`.
- DataManagement.ProcessImport: the source calls `validateAndProcessImport` and `getRequiredFields` unqualified (src/services/dataManagement.js:83,100,108) and `api.get` (line 123), which the service layer does not define. The model assumes the names resolve to the module's own helpers and takes the records on file as a parameter.
- `import.fromCSV` and `import.fromExcel` end by passing their records to `validateAndProcessImport`. The model keeps the reading (`ParseCsv`) and the checking (`ProcessImport`) apart and composes them in `HandleImport`.
- DataManagementPage.HandleImport: an empty file chooser returns before any change and is not modelled; the `uploading` flag is not modelled. The page uses `api` without importing it (src/components/settings/DataManagement.jsx:49,101). The bulk upload's outcome is a parameter.
- DataManagementPage.HandleExport: the fetch's outcome is a parameter. As written, `api` is unbound and the fetch always throws (`ExportUnboundApi`); the other cases describe the page once `api` resolves. The Excel and PDF writers' outcomes are parameters; only the CSV writer is modelled.
- DataManagement.RowObject: a `__proto__` header is stored as an ordinary key, whereas the source's property setter ignores it.
- The email test of Yup and the date test of the opportunity form are parameters (`isEmail`, `isDate`).
- Yup.RequiredText: Yup's casting between numbers and numeric text is not modelled, so a number where text is expected is reported as failing.
- Numbers are integers only: fractions, `NaN` and `Infinity` are not values of `Json.Value`, so arithmetic that would produce them is excluded by a precondition (the lines below), yields `None` (`PipelineBoard.StageValue`), or is done in exact reals (`StageColumn.AvgDealSize`, `PipelineBoard.StageProgress`).
- Yup.NumberAtLeast: Yup's casting of numeric text to a number is not modelled, so only integers pass.
- Yup.NumberBetween: as for `NumberAtLeast`, only integers pass.
- ValidationSchemas.ContactErrors: a `null` phone is treated as present.
- `toLowerCase` is modelled on ASCII letters only (`Strings.Lower`).
- AutomationRules.SaveRule: the dialog's Save button has no handler (src/components/automation/AutomationRules.jsx:206-208), so nothing in the page calls `handleSaveRule`. The model states what it would do.
- A rule's `actions` array and `conditions` object are kept only as other properties of the rule; they are not primitive values.
- `Object.keys` lists integer-like keys first in ascending order. The model keeps stages in insertion order.
- DealsSlice.UpdateDealUnique: assumes no stage is named by the empty string; `UpdateDealEmptyStageKey` shows what happens otherwise.
- MockApi.MockStore.CreateDeal: requires a non-empty board with numeric ids, because `Math.max()` over no ids is `-Infinity` and over other ids is `NaN`.
- MockApi.MockStore.CreateContact: requires a non-empty list with numeric ids, for the same reason.
- MockApi.MockStore.CreateCampaign: requires a non-empty list with numeric ids, for the same reason.
- ApiService.ApiStore.CreateCustomer: requires a non-empty list with numeric ids, for the same reason.
- SalesPage.HandleAddDeal: requires numeric ids, since `Math.max` over other ids is `NaN`.
- `preventDefault` in the key handler is a browser call.
- Encryption, tokens, request headers, session settings, `withPermission` and `validateData` are left out: they are foreign library calls or rendering.
- The rest of the repository is not part of this model.

=== FILE: access.dfy ===
/** Role tables as the access checks read them: an object from role names to
    permission arrays, indexed by whatever value names the role. */
module Access {
  import opened Json
  import opened Wrappers

  type Table = map<string, seq<string>>

  /** The message of the error thrown when a value is used as something it is not:
      a property read on `undefined`, a method called on a non-function. */
  const TypeError := "TypeError"

  /** The properties every plain object inherits from `Object.prototype`. Each
      holds a function (or, for `__proto__`, the prototype object), which is
      truthy and has no `includes` method. */
  const InheritedNames: set<string> := {
    "constructor", "toString", "toLocaleString", "valueOf", "hasOwnProperty", "isPrototypeOf",
    "propertyIsEnumerable", "__proto__", "__defineGetter__", "__defineSetter__",
    "__lookupGetter__", "__lookupSetter__"}

  /** What `table[role]` reads. */
  datatype Entry = Own(permissions: seq<string>) | Inherited | Absent

  function Lookup(table: Table, role: Value): (r: Entry)
    ensures r.Own? <==> PropertyKey(role) in table
    ensures r.Own? ==> r.permissions == table[PropertyKey(role)]
    ensures r.Inherited? <==> PropertyKey(role) !in table && PropertyKey(role) in InheritedNames
  {
    var key := PropertyKey(role);
    if key in table then Own(table[key])
    else if key in InheritedNames then Inherited
    else Absent
  }

  /** `list.includes(permission)` on an array of strings. */
  predicate Includes(list: seq<string>, permission: Value) {
    permission.Str? && permission.s in list
  }

  /** `table[role].includes(permission)`, with a missing entry read as no
      permission; an inherited entry has no `includes`, and calling it throws. */
  function Granted(table: Table, role: Value, permission: Value): Result<bool> {
    match Lookup(table, role)
    case Own(ps) => Ok(Includes(ps, permission))
    case Inherited => Err(TypeError)
    case Absent => Ok(false)
  }
}

=== FILE: api_service.dfy ===
/** The second in-memory REST layer (`apiService`): deals by stage, customers
    and campaigns, read and mutated in place. Unlike the mock layer, deleting
    a customer splices out only the first match and fails when there is none.
    The artificial delays are left out; each call is one atomic step. */
module ApiService {
  import opened Json
  import opened Wrappers
  import opened Records
  import opened DealBoard

  /** `{ success: true }`, the reply of a delete. */
  const Success: Obj := map["success" := Bool(true)]

  function SeedDeal(id: int, name: string, value: int, company: string, stage: string, priority: string, now: Value): Obj {
    map["id" := Num(id), "name" := Str(name), "value" := Num(value), "company" := Str(company),
        "stage" := Str(stage), "priority" := Str(priority), "createdAt" := now]
  }

  /** The seed board: two stages, three deals. */
  function SeedDeals(now: Value): (b: Board)
    ensures WellFormed(b)
  {
    Board(["Lead", "Meeting Scheduled"], map[
      "Lead" := [SeedDeal(1, "Software License Deal", 15000, "Tech Corp", "Lead", "high", now),
                 SeedDeal(2, "Consulting Project", 8000, "Innovation Inc", "Lead", "medium", now)],
      "Meeting Scheduled" := [SeedDeal(3, "Enterprise Package", 45000, "Big Corp", "Meeting Scheduled", "high", now)]])
  }

  function SeedContact(id: int, name: string, email: string, phone: string, company: string, status: string, kind: string): Obj {
    map["id" := Num(id), "name" := Str(name), "email" := Str(email), "phone" := Str(phone),
        "company" := Str(company), "status" := Str(status), "type" := Str(kind)]
  }

  const SeedContacts: seq<Obj> := [
    SeedContact(1, "John Doe", "john.doe@example.com", "+1 234 567 890", "Tech Corp", "Active", "Customer"),
    SeedContact(2, "Jane Smith", "jane.smith@example.com", "+1 234 567 891", "Innovation Inc", "Active", "Lead"),
    SeedContact(3, "Bob Johnson", "bob.johnson@example.com", "+1 234 567 892", "Growth Ltd", "Inactive", "Customer")]

  function SeedCampaigns(now: Value): seq<Obj> {
    [map["id" := Num(1), "name" := Str("Summer Sale Newsletter"), "status" := Str("Active"), "progress" := Num(75),
      "sent" := Num(1500), "opened" := Num(720), "clicked" := Num(250), "scheduledFor" := now]]
  }

  class ApiStore {
    var deals: Board
    var contacts: seq<Obj>
    var campaigns: seq<Obj>

    predicate Valid()
      reads this`deals
    {
      WellFormed(deals)
    }

    /** The store as the module loads it; `now` is the load time. */
    constructor (now: Value)
      ensures Valid() && deals == SeedDeals(now) && contacts == SeedContacts && campaigns == SeedCampaigns(now)
    {
      deals := SeedDeals(now);
      contacts := SeedContacts;
      campaigns := SeedCampaigns(now);
    }

    /** `deals.getById(id)`: the first match in the flattened board. */
    method GetDealById(id: Value) returns (r: Result<Obj>)
      requires Valid()
      ensures r == FindOrFail(Flat(deals), id, "Deal not found")
    {
      r := FindOrFail(Flat(deals), id, "Deal not found");
    }

    /** `customers.getById(id)`. */
    method GetCustomerById(id: Value) returns (r: Result<Obj>)
      ensures r == FindOrFail(contacts, id, "Contact not found")
    {
      r := FindOrFail(contacts, id, "Contact not found");
    }

    /** `customers.create(data)`: one contact with the next id pushed at the
        end. `Math.max()` of no ids is `-Infinity`, which is not an integer,
        so there must be a contact. */
    method CreateCustomer(data: Obj) returns (r: Obj)
      requires |contacts| > 0 && NumericIds(contacts)
      modifies this
      ensures r == WithId(NextId(old(contacts)), data) && contacts == old(contacts) + [r]
      ensures deals == old(deals) && campaigns == old(campaigns)
    {
      r := WithId(NextId(contacts), data);
      contacts := contacts + [r];
    }

    /** `customers.update(id, data)`: the data merged into the first contact
        with the id, every other contact untouched. */
    method UpdateCustomer(id: Value, data: Obj) returns (r: Result<Obj>)
      modifies this
      ensures r.Ok? <==> ListHas(old(contacts), id)
      ensures r.Err? ==> r.error == "Contact not found" && contacts == old(contacts)
      ensures r.Ok? ==> var i := FindIndex(old(contacts), id).value;
        contacts == MergeAt(old(contacts), i, data) && r.value == contacts[i]
      ensures deals == old(deals) && campaigns == old(campaigns)
    {
      var index := FindIndex(contacts, id);
      if index.None? {
        return Err("Contact not found");
      }
      contacts := contacts[index.value := Spread(contacts[index.value], data)];
      r := Ok(contacts[index.value]);
    }

    /** `customers.delete(id)`: `splice(index, 1)` at the first match; a
        missing id throws. */
    method DeleteCustomer(id: Value) returns (r: Result<Obj>)
      modifies this
      ensures r.Ok? <==> ListHas(old(contacts), id)
      ensures r.Err? ==> r.error == "Contact not found" && contacts == old(contacts)
      ensures r.Ok? ==> r.value == Success && contacts == RemoveAt(old(contacts), FindIndex(old(contacts), id).value)
      ensures deals == old(deals) && campaigns == old(campaigns)
    {
      var index := FindIndex(contacts, id);
      if index.None? {
        return Err("Contact not found");
      }
      contacts := contacts[..index.value] + contacts[index.value + 1..];
      r := Ok(Success);
    }

    /** `campaigns.getById(id)`. */
    method GetCampaignById(id: Value) returns (r: Result<Obj>)
      ensures r == FindOrFail(campaigns, id, "Campaign not found")
    {
      r := FindOrFail(campaigns, id, "Campaign not found");
    }
  }

  /** A successful `customers.delete` takes away exactly one contact with the
      id and leaves every other id's count as it was. */
  lemma DeleteCustomerCounts(s: seq<Obj>, id: Value, x: Value)
    requires ListHas(s, id)
    ensures var r := RemoveAt(s, FindIndex(s, id).value);
      |r| == |s| - 1 && CountId(r, x) == CountId(s, x) - (if x == id then 1 else 0)
  {
    RemoveAtCount(s, FindIndex(s, id).value, x);
  }

  /** On a list whose ids are unique, splicing out the first match is the same
      as the mock layer's filter of every match. */
  lemma {:induction false} SpliceIsFilterWhenUnique(s: seq<Obj>, id: Value)
    requires UniqueList(s) && ListHas(s, id)
    ensures RemoveAt(s, FindIndex(s, id).value) == RemoveId(s, id)
  {
    var i := FindIndex(s, id).value;
    var a, b := s[..i], s[i + 1..];
    assert CountId(s, id) <= 1;
    CountIdSplit(s, i, id);
    CountIdPositive(a, id);
    CountIdPositive(b, id);
    assert s == a + [s[i]] + b;
    RemoveIdOnly(a, s[i], b, id);
  }

  /** Filtering out the id of the only record carrying it removes just that record. */
  lemma RemoveIdOnly(a: seq<Obj>, x: Obj, b: seq<Obj>, id: Value)
    requires !ListHas(a, id) && HasId(x, id) && !ListHas(b, id)
    ensures RemoveId(a + [x] + b, id) == a + b
  {
    RemoveIdAbsent(a, id);
    RemoveIdAbsent(b, id);
    RemoveIdAppend(a + [x], b, id);
    RemoveIdAppend(a, [x], id);
    assert RemoveId([x], id) == [];
  }
}

=== FILE: automation_rules.dfy ===
/** The automation rules page: the rule list, switching a rule on or off,
    saving a rule from the dialog, and the 'Active Rules' figure. A rule's
    `actions` array and `conditions` object are not primitive values and are
    carried only by the rule's other properties (see README, "Left out"). */
module AutomationRules {
  import opened Json
  import opened Wrappers
  import opened Records

  function Rule(id: int, name: string, trigger: string, active: bool): Obj {
    map["id" := Num(id), "name" := Str(name), "trigger" := Str(trigger), "active" := Bool(active)]
  }

  /** The list the page starts with. */
  const InitialRules: seq<Obj> := [
    Rule(1, "New Lead Follow-up", "new_lead", true),
    Rule(2, "Deal Stage Update", "deal_stage_change", true)]

  /** Whether the switch of a rule is on: `rule.active` read for truth. */
  predicate Active(rule: Obj) {
    Truthy(Get(rule, "active"))
  }

  /** `{ ...rule, active: !rule.active }` */
  function Toggled(rule: Obj): (r: Obj)
    ensures r.Keys == rule.Keys + {"active"}
    ensures Get(r, "active") == Bool(!Active(rule))
    ensures forall k :: k in rule && k != "active" ==> r[k] == rule[k]
  {
    rule["active" := Bool(!Truthy(Get(rule, "active")))]
  }

  /** `handleToggleRule(ruleId)`: every rule with the id flips its switch and
      keeps its other properties; every other rule is untouched. */
  function ToggleRule(rules: seq<Obj>, id: Value): (r: seq<Obj>)
    ensures |r| == |rules|
    ensures forall i :: 0 <= i < |rules| && !HasId(rules[i], id) ==> r[i] == rules[i]
    ensures forall i :: 0 <= i < |rules| && HasId(rules[i], id) ==>
      (Active(r[i]) <==> !Active(rules[i])) && HasId(r[i], id) &&
      forall k :: k != "active" ==> Get(r[i], k) == Get(rules[i], k)
  {
    seq(|rules|, i requires 0 <= i < |rules| => if HasId(rules[i], id) then Toggled(rules[i]) else rules[i])
  }

  /** Every rule with the id has a boolean `active`, as every rule the page creates does. */
  predicate BooleanSwitch(rules: seq<Obj>, id: Value) {
    forall i :: 0 <= i < |rules| && HasId(rules[i], id) ==> Get(rules[i], "active").Bool?
  }

  /** Flipping a boolean switch twice gives the rule back. */
  lemma ToggledTwice(rule: Obj)
    requires Get(rule, "active").Bool?
    ensures Toggled(Toggled(rule)) == rule
  {
    assert Toggled(Toggled(rule)).Keys == rule.Keys;
  }

  /** Toggling the same rule twice restores the list. */
  lemma {:induction false} ToggleTwice(rules: seq<Obj>, id: Value)
    requires BooleanSwitch(rules, id)
    ensures ToggleRule(ToggleRule(rules, id), id) == rules
  {
    var once := ToggleRule(rules, id);
    var twice := ToggleRule(once, id);
    forall i | 0 <= i < |rules| ensures twice[i] == rules[i] {
      if HasId(rules[i], id) {
        ToggledTwice(rules[i]);
        assert once[i] == Toggled(rules[i]);
      }
    }
  }

  /** A rule without an `active` property comes back from two toggles switched
      off, with `active: false` added. */
  lemma ToggleTwiceAddsSwitch(rule: Obj)
    requires "active" !in rule && "id" in rule
    ensures var twice := ToggleRule(ToggleRule([rule], rule["id"]), rule["id"]);
      twice != [rule] && Get(twice[0], "active") == Bool(false)
  {
    var twice := ToggleRule(ToggleRule([rule], rule["id"]), rule["id"]);
    assert "active" in twice[0];
  }

  /** `rules.filter(r => r.active).length` */
  function ActiveCount(rules: seq<Obj>): (r: nat)
    ensures r <= |rules|
    ensures r == 0 <==> forall i :: 0 <= i < |rules| ==> !Active(rules[i])
    ensures r == |rules| <==> forall i :: 0 <= i < |rules| ==> Active(rules[i])
  {
    if rules == [] then 0
    else
      assert forall i :: 1 <= i < |rules| ==> rules[i] == rules[1..][i - 1];
      (if Active(rules[0]) then 1 else 0) + ActiveCount(rules[1..])
  }

  /** How many rules carry the id and are switched on. */
  function ActiveWithId(rules: seq<Obj>, id: Value): nat {
    if rules == [] then 0 else (if HasId(rules[0], id) && Active(rules[0]) then 1 else 0) + ActiveWithId(rules[1..], id)
  }

  /** A toggle switches off every active rule with the id and switches on every
      inactive one; the rest keep their state. */
  lemma {:induction false} ToggleActiveCount(rules: seq<Obj>, id: Value)
    ensures ActiveCount(ToggleRule(rules, id)) == ActiveCount(rules) + CountId(rules, id) - 2 * ActiveWithId(rules, id)
  {
    if rules != [] {
      ToggleActiveCount(rules[1..], id);
      assert ToggleRule(rules, id)[1..] == ToggleRule(rules[1..], id);
    }
  }

  /** With unique ids, a toggle moves the 'Active Rules' figure by exactly one. */
  lemma ToggleOneRule(rules: seq<Obj>, i: nat)
    requires i < |rules| && UniqueList(rules)
    ensures var after := ActiveCount(ToggleRule(rules, Get(rules[i], "id")));
      after == if Active(rules[i]) then ActiveCount(rules) - 1 else ActiveCount(rules) + 1
  {
    var id := Get(rules[i], "id");
    ToggleActiveCount(rules, id);
    assert CountId(rules, id) == 1 by {
      CountIdSplit(rules, i, id);
    }
    OnlyMatch(rules, i, id);
  }

  /** When the rule at `i` is the only one with the id, it alone decides `ActiveWithId`. */
  lemma {:induction false} OnlyMatch(rules: seq<Obj>, i: nat, id: Value)
    requires i < |rules| && HasId(rules[i], id) && CountId(rules, id) == 1
    ensures ActiveWithId(rules, id) == if Active(rules[i]) then 1 else 0
  {
    if i == 0 {
      CountIdPositive(rules[1..], id);
      NoMatch(rules[1..], id);
    } else {
      assert HasId(rules[1..][i - 1], id);
      CountIdPositive(rules[1..], id);
      OnlyMatch(rules[1..], i - 1, id);
    }
  }

  lemma {:induction false} NoMatch(rules: seq<Obj>, id: Value)
    requires CountId(rules, id) == 0
    ensures ActiveWithId(rules, id) == 0
  {
    if rules != [] {
      NoMatch(rules[1..], id);
    }
  }

  /** `handleSaveRule(rule)`: with a rule selected for editing, every rule
      carrying the selected rule's id is replaced by the submitted one; with none
      selected, the submitted rule is appended with id `rules.length + 1`, which
      overrides any id it brings. */
  function SaveRule(rules: seq<Obj>, selected: Option<Obj>, rule: Obj): (r: seq<Obj>)
    ensures selected.Some? ==>
      (|r| == |rules| &&
       forall i :: 0 <= i < |rules| ==>
         r[i] == if HasId(rules[i], Get(selected.value, "id")) then rule else rules[i])
    ensures selected.None? ==>
      (|r| == |rules| + 1 && r[..|rules|] == rules &&
       Get(r[|rules|], "id") == Num(|rules| + 1) && r[|rules|].Keys == rule.Keys + {"id"} &&
       forall k :: k in rule && k != "id" ==> r[|rules|][k] == rule[k])
  {
    match selected
    case Some(s) =>
      seq(|rules|, i requires 0 <= i < |rules| => if HasId(rules[i], Get(s, "id")) then rule else rules[i])
    case None => rules + [Spread(rule, map["id" := Num(|rules| + 1)])]
  }

  /** The ids are 1, 2, ..., n in list order. */
  predicate Numbered(rules: seq<Obj>) {
    forall i :: 0 <= i < |rules| ==> Get(rules[i], "id") == Num(i + 1)
  }

  /** The page's own steps keep the ids numbered from 1: the initial list,
      every toggle, every add, and every edit whose submitted rule keeps the
      selected rule's id. While they are, the id a new rule gets is one no rule has. */
  lemma NumberingKept(rules: seq<Obj>, selected: Option<Obj>, rule: Obj, id: Value)
    requires Numbered(rules)
    requires selected.Some? ==> Get(rule, "id") == Get(selected.value, "id")
    ensures Numbered(InitialRules)
    ensures !ListHas(rules, Num(|rules| + 1))
    ensures Numbered(ToggleRule(rules, id))
    ensures Numbered(SaveRule(rules, selected, rule))
  {
    var toggled := ToggleRule(rules, id);
    forall i | 0 <= i < |rules| ensures Get(toggled[i], "id") == Num(i + 1) {
      if HasId(rules[i], id) {
        assert Get(toggled[i], "id") == Get(rules[i], "id");
      }
    }
  }
}

=== FILE: board.dfy ===
/** The stage-partitioned deal board: an object from stage name to the ordered
    list of deals in that stage. The object's key order (insertion order, as
    `Object.keys`, `Object.values` and `Object.entries` report it) is kept
    beside the map, because lookups scan the stages in that order. */
module DealBoard {
  import opened Json
  import opened Wrappers
  import opened Records

  datatype Board = Board(order: seq<string>, lists: map<string, seq<Obj>>)

  predicate Distinct(order: seq<string>) {
    forall i, j :: 0 <= i < j < |order| ==> order[i] != order[j]
  }

  /** The key order lists each key of the map exactly once. */
  predicate WellFormed(b: Board) {
    Distinct(b.order) && b.lists.Keys == set k | k in b.order
  }

  /** `{ ...b, [k]: v }` or `b[k] = v`: an existing key keeps its place, a new key goes last. */
  function Assign(b: Board, k: string, v: seq<Obj>): (r: Board)
    requires WellFormed(b)
    ensures WellFormed(r)
    ensures r.lists == b.lists[k := v]
    ensures r.order == if k in b.lists then b.order else b.order + [k]
  {
    if k in b.lists then Board(b.order, b.lists[k := v]) else Board(b.order + [k], b.lists[k := v])
  }

  /** The lists concatenated in key order: `Object.values(b).flat()`. */
  function FlatOf(order: seq<string>, lists: map<string, seq<Obj>>): seq<Obj>
    requires forall k :: k in order ==> k in lists
  {
    if order == [] then [] else lists[order[0]] + FlatOf(order[1..], lists)
  }

  function Flat(b: Board): seq<Obj>
    requires WellFormed(b)
  {
    FlatOf(b.order, b.lists)
  }

  /** No id is carried by two deals anywhere on the board. */
  ghost predicate UniqueIds(b: Board)
    requires WellFormed(b)
  {
    UniqueList(Flat(b))
  }

  /** `Object.keys(b).find(s => b[s].some(d => d.id === id))`: the first stage holding the id. */
  function FirstStageWith(order: seq<string>, lists: map<string, seq<Obj>>, id: Value): (r: Option<string>)
    requires forall k :: k in order ==> k in lists
    ensures r.Some? ==> r.value in order && ListHas(lists[r.value], id)
    ensures r.None? <==> forall k :: k in order ==> !ListHas(lists[k], id)
  {
    if order == [] then None
    else if ListHas(lists[order[0]], id) then Some(order[0])
    else FirstStageWith(order[1..], lists, id)
  }

  lemma {:induction false} FlatOfAppend(o1: seq<string>, o2: seq<string>, lists: map<string, seq<Obj>>)
    requires forall k :: k in o1 + o2 ==> k in lists
    ensures FlatOf(o1 + o2, lists) == FlatOf(o1, lists) + FlatOf(o2, lists)
  {
    if o1 != [] {
      assert (o1 + o2)[1..] == o1[1..] + o2;
      FlatOfAppend(o1[1..], o2, lists);
    } else {
      assert o1 + o2 == o2;
    }
  }

  /** Rewriting a key outside the order does not change the concatenation. */
  lemma {:induction false} FlatOfOther(order: seq<string>, lists: map<string, seq<Obj>>, k: string, v: seq<Obj>)
    requires forall j :: j in order ==> j in lists
    requires k !in order
    ensures FlatOf(order, lists[k := v]) == FlatOf(order, lists)
  {
    if order != [] {
      FlatOfOther(order[1..], lists, k, v);
    }
  }

  /** The concatenation around the list at position `i` of the key order. */
  lemma FlatOfSplit(order: seq<string>, lists: map<string, seq<Obj>>, i: nat)
    requires forall j :: j in order ==> j in lists
    requires i < |order|
    ensures FlatOf(order, lists) == FlatOf(order[..i], lists) + lists[order[i]] + FlatOf(order[i + 1..], lists)
  {
    assert order == order[..i] + ([order[i]] + order[i + 1..]);
    FlatOfAppend(order[..i], [order[i]] + order[i + 1..], lists);
    assert ([order[i]] + order[i + 1..])[1..] == order[i + 1..];
  }

  /** Replacing the list of an existing stage swaps its share of the whole board. */
  lemma FlatAssignExisting(b: Board, k: string, v: seq<Obj>, id: Value)
    requires WellFormed(b) && k in b.lists
    ensures |Flat(Assign(b, k, v))| == |Flat(b)| - |b.lists[k]| + |v|
    ensures CountId(Flat(Assign(b, k, v)), id) == CountId(Flat(b), id) - CountId(b.lists[k], id) + CountId(v, id)
  {
    var i :| 0 <= i < |b.order| && b.order[i] == k;
    var lists' := b.lists[k := v];
    var pre, post := b.order[..i], b.order[i + 1..];
    assert k !in pre && k !in post by {
      assert forall j :: 0 <= j < |pre| ==> pre[j] == b.order[j];
      assert forall j :: 0 <= j < |post| ==> post[j] == b.order[i + 1 + j];
    }
    FlatOfSplit(b.order, b.lists, i);
    FlatOfSplit(b.order, lists', i);
    FlatOfOther(pre, b.lists, k, v);
    FlatOfOther(post, b.lists, k, v);
    var p, q := FlatOf(pre, b.lists), FlatOf(post, b.lists);
    CountIdAppend(p + b.lists[k], q, id);
    CountIdAppend(p, b.lists[k], id);
    CountIdAppend(p + v, q, id);
    CountIdAppend(p, v, id);
  }

  /** Adding a new stage puts its list after all the others. */
  lemma FlatAssignNew(b: Board, k: string, v: seq<Obj>)
    requires WellFormed(b) && k !in b.lists
    ensures Flat(Assign(b, k, v)) == Flat(b) + v
  {
    var lists' := b.lists[k := v];
    FlatOfAppend(b.order, [k], lists');
    FlatOfOther(b.order, b.lists, k, v);
  }

  /** One stage's deals are part of the board's deals. */
  lemma {:induction false} StageWithinFlat(order: seq<string>, lists: map<string, seq<Obj>>, k: string, id: Value)
    requires forall j :: j in order ==> j in lists
    requires k in order
    ensures |lists[k]| <= |FlatOf(order, lists)|
    ensures CountId(lists[k], id) <= CountId(FlatOf(order, lists), id)
  {
    CountIdAppend(lists[order[0]], FlatOf(order[1..], lists), id);
    if order[0] != k {
      StageWithinFlat(order[1..], lists, k, id);
    }
  }

  /** Two different stages' deals are disjoint parts of the board's deals. */
  lemma TwoStagesWithinFlat(b: Board, k1: string, k2: string, id: Value)
    requires WellFormed(b) && k1 in b.lists && k2 in b.lists && k1 != k2
    ensures CountId(b.lists[k1], id) + CountId(b.lists[k2], id) <= CountId(Flat(b), id)
  {
    var i :| 0 <= i < |b.order| && b.order[i] == k1;
    var pre, post := b.order[..i], b.order[i + 1..];
    assert b.order == pre + [k1] + post;
    FlatOfSplit(b.order, b.lists, i);
    var p, q := FlatOf(pre, b.lists), FlatOf(post, b.lists);
    CountIdAppend(p + b.lists[k1], q, id);
    CountIdAppend(p, b.lists[k1], id);
    if k2 in pre {
      StageWithinFlat(pre, b.lists, k2, id);
    } else {
      assert k2 in post;
      StageWithinFlat(post, b.lists, k2, id);
    }
  }

  /** An id that no stage holds is nowhere on the board. */
  lemma {:induction false} AbsentFromFlat(order: seq<string>, lists: map<string, seq<Obj>>, id: Value)
    requires forall j :: j in order ==> j in lists
    requires forall k :: k in order ==> !ListHas(lists[k], id)
    ensures CountId(FlatOf(order, lists), id) == 0
  {
    if order != [] {
      CountIdPositive(lists[order[0]], id);
      CountIdAppend(lists[order[0]], FlatOf(order[1..], lists), id);
      AbsentFromFlat(order[1..], lists, id);
    }
  }

  /** Searching the concatenation finds the first match of the first stage holding the id. */
  lemma {:induction false} FindInFlat(order: seq<string>, lists: map<string, seq<Obj>>, id: Value)
    requires forall j :: j in order ==> j in lists
    ensures Find(FlatOf(order, lists), id) ==
      match FirstStageWith(order, lists, id)
      case None => None
      case Some(k) => Find(lists[k], id)
  {
    if order != [] {
      FindInFlat(order[1..], lists, id);
      FindAppend(lists[order[0]], FlatOf(order[1..], lists), id);
    }
  }

  /** The position of the first stage holding the id; no earlier stage holds it. */
  lemma {:induction false} FirstStageIndex(order: seq<string>, lists: map<string, seq<Obj>>, id: Value) returns (j: nat)
    requires forall k :: k in order ==> k in lists
    requires FirstStageWith(order, lists, id).Some?
    ensures j < |order| && order[j] == FirstStageWith(order, lists, id).value
    ensures forall m :: 0 <= m < j ==> !ListHas(lists[order[m]], id)
  {
    if ListHas(lists[order[0]], id) {
      j := 0;
    } else {
      var j' := FirstStageIndex(order[1..], lists, id);
      j := j' + 1;
      assert forall m :: 1 <= m < j ==> order[m] == order[1..][m - 1];
    }
  }

  /** Rewriting the list of the stage at position `j` rewrites that slice of the concatenation. */
  lemma FlatAssignAt(b: Board, j: nat, v: seq<Obj>)
    requires WellFormed(b) && j < |b.order|
    ensures Flat(Assign(b, b.order[j], v)) == FlatOf(b.order[..j], b.lists) + v + FlatOf(b.order[j + 1..], b.lists)
  {
    var k := b.order[j];
    var pre, post := b.order[..j], b.order[j + 1..];
    assert k !in pre && k !in post by {
      assert forall m :: 0 <= m < |pre| ==> pre[m] == b.order[m];
      assert forall m :: 0 <= m < |post| ==> post[m] == b.order[j + 1 + m];
    }
    FlatOfSplit(b.order, b.lists[k := v], j);
    FlatOfOther(pre, b.lists, k, v);
    FlatOfOther(post, b.lists, k, v);
  }

  /** Appending a deal with an id new to the board keeps ids unique and adds one deal. */
  lemma AppendFreshDeal(b: Board, k: string, d: Obj)
    requires WellFormed(b) && UniqueIds(b) && k in b.lists && !ListHas(Flat(b), Get(d, "id"))
    ensures var r := Assign(b, k, b.lists[k] + [d]);
      |Flat(r)| == |Flat(b)| + 1 && UniqueIds(r) && CountId(Flat(r), Get(d, "id")) == 1
  {
    var r := Assign(b, k, b.lists[k] + [d]);
    CountIdPositive(Flat(b), Get(d, "id"));
    assert [d][1..] == [];
    forall x ensures CountId(Flat(r), x) <= 1 {
      FlatAssignExisting(b, k, b.lists[k] + [d], x);
      CountIdAppend(b.lists[k], [d], x);
    }
    FlatAssignExisting(b, k, b.lists[k] + [d], Get(d, "id"));
    CountIdAppend(b.lists[k], [d], Get(d, "id"));
  }

  /** `Object.assign(deal, data)` on the first deal with the id, found by
      scanning the stages in key order: the deal is updated where it sits. */
  function MergeDeal(b: Board, id: Value, data: Obj): (r: Board)
    requires WellFormed(b) && FirstStageWith(b.order, b.lists, id).Some?
    ensures WellFormed(r) && r.order == b.order
  {
    var k := FirstStageWith(b.order, b.lists, id).value;
    Assign(b, k, MergeAt(b.lists[k], FindIndex(b.lists[k], id).value, data))
  }

  /** Seen through the concatenated stages, the update merges the data into
      the first deal with the id and changes nothing else. */
  lemma MergeDealFlat(b: Board, id: Value, data: Obj)
    requires WellFormed(b) && FirstStageWith(b.order, b.lists, id).Some?
    ensures FindIndex(Flat(b), id).Some?
    ensures Flat(MergeDeal(b, id, data)) == MergeAt(Flat(b), FindIndex(Flat(b), id).value, data)
  {
    var k := FirstStageWith(b.order, b.lists, id).value;
    var j := FirstStageIndex(b.order, b.lists, id);
    var l := b.lists[k];
    var i := FindIndex(l, id).value;
    var p, q := FlatOf(b.order[..j], b.lists), FlatOf(b.order[j + 1..], b.lists);
    FlatOfSplit(b.order, b.lists, j);
    FlatAssignAt(b, j, MergeAt(l, i, data));
    FlatIndexOfFirst(b, id, j);
    MergeAtShift(p, l, q, i, data);
  }

  /** The first deal with the id, in the concatenation, is the first one of the first stage holding it. */
  lemma FlatIndexOfFirst(b: Board, id: Value, j: nat)
    requires WellFormed(b) && j < |b.order| && ListHas(b.lists[b.order[j]], id)
    requires forall m :: 0 <= m < j ==> !ListHas(b.lists[b.order[m]], id)
    ensures var p, l, q := FlatOf(b.order[..j], b.lists), b.lists[b.order[j]], FlatOf(b.order[j + 1..], b.lists);
      FindIndex(p + l + q, id).Some? && FindIndex(p + l + q, id).value == |p| + FindIndex(l, id).value
  {
    var p, l, q := FlatOf(b.order[..j], b.lists), b.lists[b.order[j]], FlatOf(b.order[j + 1..], b.lists);
    assert CountId(p, id) == 0 by {
      var pre := b.order[..j];
      assert forall m :: 0 <= m < |pre| ==> pre[m] == b.order[m];
      AbsentFromFlat(pre, b.lists, id);
    }
    CountIdPositive(p, id);
    assert forall m :: 0 <= m < |p| ==> !HasId(p[m], id);
    FindIndexAppendFirst(l, q, id);
    FindIndexShift(p, l + q, id);
    assert p + l + q == p + (l + q);
  }


  /** Every stage filtered: `Object.keys(b).forEach(s => b[s] = b[s].filter(d => d.id !== id))`. */
  function RemoveEverywhere(b: Board, id: Value): (r: Board)
    requires WellFormed(b)
    ensures WellFormed(r) && r.order == b.order && r.lists.Keys == b.lists.Keys
    ensures forall k :: k in b.lists ==> r.lists[k] == RemoveId(b.lists[k], id)
  {
    Board(b.order, map k | k in b.lists :: RemoveId(b.lists[k], id))
  }

  /** Stage lists that each drop the deal, one for every stage of the board, make up `RemoveEverywhere`. */
  lemma EveryStageRemoved(b: Board, lists: map<string, seq<Obj>>, id: Value)
    requires WellFormed(b) && lists.Keys == b.lists.Keys
    requires forall j :: 0 <= j < |b.order| ==> lists[b.order[j]] == RemoveId(b.lists[b.order[j]], id)
    ensures Board(b.order, lists) == RemoveEverywhere(b, id)
  {
    forall k | k in lists ensures lists[k] == RemoveId(b.lists[k], id) {
      var j :| 0 <= j < |b.order| && b.order[j] == k;
    }
  }

  /** Filtering every stage filters the concatenation, so the id is gone from
      the board and every other deal stays, in order. */
  lemma {:induction false} RemoveEverywhereFlat(order: seq<string>, lists: map<string, seq<Obj>>, lists': map<string, seq<Obj>>, id: Value)
    requires forall k :: k in order ==> k in lists && k in lists' && lists'[k] == RemoveId(lists[k], id)
    ensures FlatOf(order, lists') == RemoveId(FlatOf(order, lists), id)
  {
    if order != [] {
      RemoveEverywhereFlat(order[1..], lists, lists', id);
      RemoveIdAppend(lists[order[0]], FlatOf(order[1..], lists), id);
    }
  }
}

=== FILE: collaboration_hub.dfy ===
/** The team chat of the collaboration hub: sending the text in the message
    box and the Enter key that sends it. The clock that stamps a message is a
    parameter. */
module CollaborationHub {
  import opened Wrappers
  import opened Strings

  /** A chat message; `attachments` is `None` where the record has no such property. */
  datatype Message = Message(id: int, sender: string, content: string, timestamp: int, kind: string,
                             attachments: Option<seq<string>>)

  /** The messages shown and the text in the message box. */
  datatype Chat = Chat(messages: seq<Message>, input: string)

  /** The conversation the hub opens with; `t1`..`t3` are its timestamps. */
  function InitialChat(t1: int, t2: int, t3: int): Chat {
    Chat([Message(1, "John Doe", "Just updated the sales report for Q1", t1, "message", Some([])),
          Message(2, "Sarah Wilson", "Great work! I'll review it this afternoon", t2, "message", Some([])),
          Message(3, "System", "New deal created: Enterprise Package - Big Corp", t3, "notification", None)], "")
  }

  /** `handleSendMessage` at time `now`: a box holding only white space is
      ignored; otherwise the text, untrimmed, is appended as a message from
      'Current User' with id `messages.length + 1`, and the box is cleared. */
  function SendMessage(c: Chat, now: int): (r: Chat)
    ensures (forall i :: 0 <= i < |c.input| ==> IsSpace(c.input[i])) ==> r == c
    ensures (exists i :: 0 <= i < |c.input| && !IsSpace(c.input[i])) ==>
      (r.input == "" && |r.messages| == |c.messages| + 1 && r.messages[..|c.messages|] == c.messages &&
       r.messages[|c.messages|] == Message(|c.messages| + 1, "Current User", c.input, now, "message", Some([])))
  {
    TrimBlank(c.input);
    if Trim(c.input) == [] then c
    else
      var m := Message(|c.messages| + 1, "Current User", c.input, now, "message", Some([]));
      assert (c.messages + [m])[..|c.messages|] == c.messages;
      Chat(c.messages + [m], "")
  }

  /** `handleKeyPress`: Enter without Shift sends; any other key, or
      Shift+Enter, leaves the chat as it is. A key press adds at most one
      message, at the end: exactly when Enter without Shift meets a box holding
      more than white space, and then it is the box's text from the current
      user and the box is cleared; otherwise nothing changes. */
  function KeyPress(c: Chat, key: string, shift: bool, now: int): (r: Chat)
    ensures |c.messages| <= |r.messages| <= |c.messages| + 1 && r.messages[..|c.messages|] == c.messages
    ensures |r.messages| == |c.messages| + 1 <==>
      key == "Enter" && !shift && exists i :: 0 <= i < |c.input| && !IsSpace(c.input[i])
    ensures |r.messages| == |c.messages| ==> r == c
    ensures |r.messages| == |c.messages| + 1 ==>
      r.input == "" && r.messages[|c.messages|].content == c.input &&
      r.messages[|c.messages|].sender == "Current User" && r.messages[|c.messages|].id == |c.messages| + 1
  {
    if key == "Enter" && !shift then SendMessage(c, now) else c
  }

  /** The ids are 1, 2, ..., n in list order. */
  predicate Numbered(ms: seq<Message>) {
    forall i :: 0 <= i < |ms| ==> ms[i].id == i + 1
  }

  /** The chat starts numbered. */
  lemma InitialNumbered(t1: int, t2: int, t3: int)
    ensures Numbered(InitialChat(t1, t2, t3).messages)
  {
    var ms := InitialChat(t1, t2, t3).messages;
    assert ms[0].id == 1 && ms[1].id == 2 && ms[2].id == 3;
  }

  /** A send keeps the chat numbered, and a sent message's id is carried by no earlier message. */
  lemma {:induction false} SendKeepsNumbering(c: Chat, now: int)
    requires Numbered(c.messages)
    ensures Numbered(SendMessage(c, now).messages)
    ensures forall i :: 0 <= i < |c.messages| ==> c.messages[i].id != |c.messages| + 1
  {
    TrimBlank(c.input);
    var r := SendMessage(c, now).messages;
    if r != c.messages {
      forall i | 0 <= i < |r| ensures r[i].id == i + 1 {
        if i < |c.messages| {
          assert r[i] == r[..|c.messages|][i];
        }
      }
    }
  }

  /** Two sends of the same text in a row: the second finds the box empty and does nothing. */
  lemma {:induction false} SecondSendIgnored(c: Chat, now: int, later: int)
    ensures SendMessage(SendMessage(c, now), later) == SendMessage(c, now)
  {
    TrimBlank(c.input);
    TrimBlank(SendMessage(c, now).input);
  }
}

=== FILE: contact_management.dfy ===
/** The contact list page's search and filters: which contacts the table
    shows for a search term and the Type and Status selections. */
module ContactManagement {
  import opened Json
  import opened Wrappers
  import opened Strings
  import opened Records
  import Access
  import opened Sequences


  /** The page's `filters` state; `kind` is the `type` key. */
  datatype Filters = Filters(kind: string, status: string, tags: seq<string>)

  const InitialFilters := Filters("all", "all", [])

  /** The Type select: `setFilters({ ...filters, type })`. */
  function SetType(f: Filters, kind: string): (r: Filters)
    ensures r.kind == kind && r.status == f.status && r.tags == f.tags
  {
    f.(kind := kind)
  }

  /** The Status select: `setFilters({ ...filters, status })`. */
  function SetStatus(f: Filters, status: string): (r: Filters)
    ensures r.status == status && r.kind == f.kind && r.tags == f.tags
  {
    f.(status := status)
  }

  /** `s.toLowerCase().includes(term.toLowerCase())` for a text property. */
  predicate TextHit(v: Value, term: string) {
    v.Str? && Contains(Lower(v.s), Lower(term))
  }

  /** The name or the email holds the term, ignoring case. */
  predicate SearchHit(c: Obj, term: string) {
    TextHit(Get(c, "name"), term) || TextHit(Get(c, "email"), term)
  }

  predicate TypeHit(c: Obj, f: Filters) {
    f.kind == "all" || Get(c, "type") == Str(f.kind)
  }

  predicate StatusHit(c: Obj, f: Filters) {
    f.status == "all" || Get(c, "status") == Str(f.status)
  }

  /** The contact is shown. */
  predicate Shown(c: Obj, term: string, f: Filters) {
    SearchHit(c, term) && TypeHit(c, f) && StatusHit(c, f)
  }

  /** The filter callback for one contact. `toLowerCase` of a name that is not
      text throws, and so does that of the email when the name does not match
      (`||` reads the email only then). */
  function Matches(c: Obj, term: string, f: Filters): (r: Result<bool>)
    ensures r.Err? <==> !Get(c, "name").Str? || (!TextHit(Get(c, "name"), term) && !Get(c, "email").Str?)
    ensures r.Err? ==> r.error == Access.TypeError
    ensures r.Ok? ==> (r.value <==> Shown(c, term, f))
  {
    var name, email := Get(c, "name"), Get(c, "email");
    if !name.Str? then Err(Access.TypeError)
    else if Contains(Lower(name.s), Lower(term)) then Ok(TypeHit(c, f) && StatusHit(c, f))
    else if !email.Str? then Err(Access.TypeError)
    else Ok(Contains(Lower(email.s), Lower(term)) && TypeHit(c, f) && StatusHit(c, f))
  }

  /** `filteredContacts`: the contacts shown, in list order, or the error the first unreadable contact raises. */
  function FilterContacts(cs: seq<Obj>, term: string, f: Filters): (r: Result<seq<Obj>>)
    ensures r.Ok? <==> forall i :: 0 <= i < |cs| ==> Matches(cs[i], term, f).Ok?
    ensures r.Err? ==> r.error == Access.TypeError
    ensures r.Ok? ==> Subsequence(r.value, cs)
    ensures r.Ok? ==> forall c :: c in r.value <==> c in cs && Shown(c, term, f)
    ensures r.Ok? ==> forall c :: multiset(r.value)[c] == if Shown(c, term, f) then multiset(cs)[c] else 0
  {
    if cs == [] then Ok([])
    else
      var m := Matches(cs[0], term, f);
      var rest := FilterContacts(cs[1..], term, f);
      ReadableStep(cs, term, f);
      if m.Err? then Err(m.error)
      else if rest.Err? then Err(rest.error)
      else
        var r := if m.value then [cs[0]] + rest.value else rest.value;
        FilterStep(cs, rest.value, r, term, f);
        Ok(r)
  }

  /** Every contact of `cs` can be matched just when its head and every contact of its tail can. */
  lemma ReadableStep(cs: seq<Obj>, term: string, f: Filters)
    requires cs != []
    ensures (forall i :: 0 <= i < |cs| ==> Matches(cs[i], term, f).Ok?) <==>
      Matches(cs[0], term, f).Ok? && forall i :: 0 <= i < |cs[1..]| ==> Matches(cs[1..][i], term, f).Ok?
  {
    assert forall i :: 1 <= i < |cs| ==> cs[i] == cs[1..][i - 1];
  }

  /** Putting the head of `cs` in front of the filtered tail when it is shown,
      and leaving it out otherwise, filters all of `cs`. */
  lemma FilterStep(cs: seq<Obj>, rv: seq<Obj>, r: seq<Obj>, term: string, f: Filters)
    requires cs != []
    requires r == if Shown(cs[0], term, f) then [cs[0]] + rv else rv
    requires Subsequence(rv, cs[1..])
    requires forall c :: multiset(rv)[c] == if Shown(c, term, f) then multiset(cs[1..])[c] else 0
    ensures Subsequence(r, cs)
    ensures forall c :: c in r <==> c in cs && Shown(c, term, f)
    ensures forall c :: multiset(r)[c] == if Shown(c, term, f) then multiset(cs)[c] else 0
  {
    assert cs == [cs[0]] + cs[1..];
    assert multiset(cs) == multiset{cs[0]} + multiset(cs[1..]);
    if Shown(cs[0], term, f) {
      assert r[1..] == rv;
      assert multiset(r) == multiset{cs[0]} + multiset(rv);
    }
    forall c ensures c in r <==> c in cs && Shown(c, term, f) {
      assert c in r <==> multiset(r)[c] > 0;
      assert c in cs <==> multiset(cs)[c] > 0;
    }
  }

  /** Every contact has text for a name. */
  predicate NamedContacts(cs: seq<Obj>) {
    forall i :: 0 <= i < |cs| ==> Get(cs[i], "name").Str?
  }

  /** The empty string occurs in every text. */
  lemma {:induction false} ContainsEmpty(s: string)
    ensures Contains(s, "")
  {
  }

  /** With no search term and both filters at 'all', every contact is shown. */
  lemma {:induction false} ShowAll(cs: seq<Obj>, tags: seq<string>)
    requires NamedContacts(cs)
    ensures FilterContacts(cs, "", Filters("all", "all", tags)) == Ok(cs)
  {
    if cs != [] {
      ContainsEmpty(Lower(Get(cs[0], "name").s));
      assert NamedContacts(cs[1..]) by {
        forall i | 0 <= i < |cs[1..]| ensures Get(cs[1..][i], "name").Str? {
          assert cs[1..][i] == cs[i + 1];
        }
      }
      ShowAll(cs[1..], tags);
      assert [cs[0]] + cs[1..] == cs;
    }
  }

  /** A sub-list stays one when the bigger list grows at the front. */
  lemma SubsequenceCons<T>(a: seq<T>, b: seq<T>, x: T)
    requires Subsequence(a, b)
    ensures Subsequence(a, [x] + b) && Subsequence([x] + a, [x] + b)
  {
    assert ([x] + b)[1..] == b;
    assert ([x] + a)[1..] == a;
  }

  /** A stricter test keeps a sub-list of what a looser one keeps: both see
      the same unreadable contacts, and every contact the stricter test shows
      the looser one shows as well. */
  lemma {:induction false} Narrowing(cs: seq<Obj>, term: string, strict: Filters, loose: Filters)
    requires forall c :: Shown(c, term, strict) ==> Shown(c, term, loose)
    ensures FilterContacts(cs, term, strict).Ok? == FilterContacts(cs, term, loose).Ok?
    ensures FilterContacts(cs, term, strict).Ok? ==>
      Subsequence(FilterContacts(cs, term, strict).value, FilterContacts(cs, term, loose).value)
  {
    if cs != [] {
      Narrowing(cs[1..], term, strict, loose);
      var s, l := FilterContacts(cs[1..], term, strict), FilterContacts(cs[1..], term, loose);
      if s.Ok? && Matches(cs[0], term, strict).Ok? {
        SubsequenceCons(s.value, l.value, cs[0]);
      }
    }
  }

  /** Choosing a type never shows more contacts than 'All Types'. */
  lemma NarrowType(cs: seq<Obj>, term: string, f: Filters, kind: string)
    ensures var narrow, wide := FilterContacts(cs, term, SetType(f, kind)), FilterContacts(cs, term, SetType(f, "all"));
      narrow.Ok? == wide.Ok? && (narrow.Ok? ==> Subsequence(narrow.value, wide.value))
  {
    Narrowing(cs, term, SetType(f, kind), SetType(f, "all"));
  }

  /** Choosing a status never shows more contacts than 'All Status'. */
  lemma NarrowStatus(cs: seq<Obj>, term: string, f: Filters, status: string)
    ensures var narrow, wide := FilterContacts(cs, term, SetStatus(f, status)), FilterContacts(cs, term, SetStatus(f, "all"));
      narrow.Ok? == wide.Ok? && (narrow.Ok? ==> Subsequence(narrow.value, wide.value))
  {
    Narrowing(cs, term, SetStatus(f, status), SetStatus(f, "all"));
  }

  /** The menu offers lower-case types, and the comparison is exact: a
      contact of type 'Customer' is hidden by the 'customer' choice. */
  lemma TypeFilterIsCaseSensitive(c: Obj)
    requires Get(c, "type") == Str("Customer")
    ensures !Shown(c, "", SetType(InitialFilters, "customer"))
  {
  }
}

=== FILE: contacts_slice.dfy ===
/** The contacts slice of the Redux store: the contact list, the fetch status
    and the selected contact, updated in place by Immer reducers. */
module ContactsSlice {
  import opened Json
  import opened Wrappers
  import opened Records
  import FetchStatus

  class ContactsState {
    var contacts: seq<Obj>
    var loading: bool
    var error: Value
    /** `selectedContact`, with `None` for `null`. */
    var selectedContact: Option<Obj>

    function Status(): FetchStatus.Status
      reads this`loading, this`error
    {
      FetchStatus.Status(loading, error)
    }

    /** `initialState`: no contacts, not loading, no error, no selection. */
    constructor ()
      ensures contacts == [] && Status() == FetchStatus.Idle && selectedContact == None
    {
      contacts := [];
      loading := false;
      error := Null;
      selectedContact := None;
    }

    /** `setSelectedContact`: only the selection changes. */
    method SetSelectedContact(payload: Option<Obj>)
      modifies this
      ensures selectedContact == payload
      ensures contacts == old(contacts) && Status() == old(Status())
    {
      selectedContact := payload;
    }

    /** `addContact`: the payload goes at the end. */
    method AddContact(payload: Obj)
      modifies this
      ensures contacts == old(contacts) + [payload]
      ensures selectedContact == old(selectedContact) && Status() == old(Status())
    {
      contacts := contacts + [payload];
    }

    /** `updateContact`: the first contact with the payload's id becomes the payload. */
    method UpdateContact(payload: Obj)
      modifies this
      ensures contacts == ReplaceFirst(old(contacts), payload)
      ensures selectedContact == old(selectedContact) && Status() == old(Status())
    {
      var index := FindIndex(contacts, Get(payload, "id"));
      if index.Some? {
        contacts := contacts[index.value := payload];
      }
    }

    /** `deleteContact`: every contact with the id is filtered out. */
    method DeleteContact(id: Value)
      modifies this
      ensures contacts == RemoveId(old(contacts), id)
      ensures selectedContact == old(selectedContact) && Status() == old(Status())
    {
      contacts := RemoveId(contacts, id);
    }

    /** `fetchContacts.pending`. */
    method FetchPending()
      modifies this
      ensures Status() == FetchStatus.Step(old(Status()), FetchStatus.Pending)
      ensures contacts == old(contacts) && selectedContact == old(selectedContact)
    {
      loading := true;
      error := Null;
    }

    /** `fetchContacts.fulfilled`: the payload becomes the list; the error is kept. */
    method FetchFulfilled(payload: seq<Obj>)
      modifies this
      ensures Status() == FetchStatus.Step(old(Status()), FetchStatus.Fulfilled)
      ensures contacts == payload && selectedContact == old(selectedContact)
    {
      loading := false;
      contacts := payload;
    }

    /** `fetchContacts.rejected`. */
    method FetchRejected(payload: Value)
      modifies this
      ensures Status() == FetchStatus.Step(old(Status()), FetchStatus.Rejected(payload))
      ensures contacts == old(contacts) && selectedContact == old(selectedContact)
    {
      loading := false;
      error := payload;
    }
  }
}

=== FILE: data_management.dfy ===
/** CSV export and import of records, the required-field check that every
    import runs, and the removal of rows that duplicate an existing record.
    File reading and writing (Blob, `saveAs`, `file.text()`) and the Excel
    and PDF paths are left out; the records already on file are a parameter. */
module DataManagement {
  import opened Json
  import opened Wrappers
  import opened Strings
  import opened Records
  import Access
  import opened Sequences


  /** An object's own properties in the order `Object.keys` lists them. */
  type Fields = seq<(string, Value)>

  function KeysOf(f: Fields): (r: seq<string>)
    ensures |r| == |f| && forall j :: 0 <= j < |f| ==> r[j] == f[j].0
  {
    seq(|f|, j requires 0 <= j < |f| => f[j].0)
  }

  /** `Object.values(item)` as `join` writes each of them. */
  function ValuesText(f: Fields): (r: seq<string>)
    ensures |r| == |f| && forall j :: 0 <= j < |f| ==> r[j] == JoinText(f[j].1)
  {
    seq(|f|, j requires 0 <= j < |f| => JoinText(f[j].1))
  }

  /** The object a property list denotes; a later property overrides an earlier one of the same name. */
  function ToObj(f: Fields): (r: Obj)
    ensures forall j :: 0 <= j < |f| ==> f[j].0 in r
  {
    if f == [] then map[] else ToObj(f[..|f| - 1])[f[|f| - 1].0 := f[|f| - 1].1]
  }

  /** The lines of the CSV text: the first record's keys, then one line of values per record. */
  function CsvLines(data: seq<Fields>): (r: seq<string>)
    requires data != []
    ensures |r| == |data| + 1
    ensures r[0] == Join(KeysOf(data[0]), ",")
    ensures forall i :: 0 <= i < |data| ==> r[i + 1] == Join(ValuesText(data[i]), ",")
  {
    [Join(KeysOf(data[0]), ",")] + seq(|data|, i requires 0 <= i < |data| => Join(ValuesText(data[i]), ","))
  }

  /** `export.toCSV(data)`: the lines joined by line breaks, without any
      quoting. An empty list has no `data[0]` and throws. */
  function ToCsv(data: seq<Fields>): (r: Result<string>)
    ensures r.Err? <==> data == []
    ensures r.Err? ==> r.error == Access.TypeError
  {
    if data == [] then Err(Access.TypeError) else Ok(Join(CsvLines(data), "\n"))
  }

  /** `values[index]?.trim()`: the trimmed value, or `undefined` past the end. */
  function Cell(values: seq<string>, j: nat): (v: Value)
    ensures j < |values| ==> v == Str(Trim(values[j]))
    ensures j >= |values| ==> v == Undefined
  {
    if j < |values| then Str(Trim(values[j])) else Undefined
  }

  /** `header.trim()` for every header. */
  function TrimAll(headers: seq<string>): (r: seq<string>)
    ensures |r| == |headers|
  {
    seq(|headers|, j requires 0 <= j < |headers| => Trim(headers[j]))
  }

  /** The cells of the first `n` positions of a line. */
  function Cells(values: seq<string>, n: nat): (r: seq<Value>)
    ensures |r| == n && forall j :: 0 <= j < n ==> r[j] == Cell(values, j)
  {
    seq(n, j requires 0 <= j < n => Cell(values, j))
  }

  /** The object `fromCSV` builds for one line: the key at each position names
      the cell there, and a key that repeats keeps its last cell. */
  function RowObject(keys: seq<string>, values: seq<string>): Obj {
    Assign(keys, Cells(values, |keys|), |keys|)
  }

  /** The object once the first `n` keys have been assigned their cells, in order. */
  function Assign(keys: seq<string>, cells: seq<Value>, n: nat): Obj
    requires n <= |keys| && n <= |cells|
  {
    if n == 0 then map[] else Assign(keys, cells, n - 1)[keys[n - 1] := cells[n - 1]]
  }

  /** Every property of a row object is the cell at some position of its key. */
  lemma RowObjectCell(keys: seq<string>, values: seq<string>, k: string)
    requires k in RowObject(keys, values)
    ensures exists j :: 0 <= j < |keys| && keys[j] == k && RowObject(keys, values)[k] == Cell(values, j)
  {
    var cells := Cells(values, |keys|);
    AssignCell(keys, cells, |keys|, k);
    var j :| 0 <= j < |keys| && keys[j] == k && Assign(keys, cells, |keys|)[k] == cells[j];
  }

  lemma {:induction false} AssignCell(keys: seq<string>, cells: seq<Value>, n: nat, k: string)
    requires n <= |keys| && n <= |cells| && k in Assign(keys, cells, n)
    ensures exists j :: 0 <= j < n && keys[j] == k && Assign(keys, cells, n)[k] == cells[j]
  {
    if keys[n - 1] != k {
      AssignCell(keys, cells, n - 1, k);
    }
  }

  /** A key that does not occur later names the cell at its own position. */
  lemma RowObjectLastWins(keys: seq<string>, values: seq<string>, j: nat)
    requires j < |keys|
    requires forall m :: j < m < |keys| ==> keys[m] != keys[j]
    ensures keys[j] in RowObject(keys, values) && RowObject(keys, values)[keys[j]] == Cell(values, j)
  {
    AssignLastWins(keys, Cells(values, |keys|), |keys|, j);
  }

  lemma {:induction false} AssignLastWins(keys: seq<string>, cells: seq<Value>, n: nat, j: nat)
    requires j < n <= |keys| && n <= |cells|
    requires forall m :: j < m < n ==> keys[m] != keys[j]
    ensures keys[j] in Assign(keys, cells, n) && Assign(keys, cells, n)[keys[j]] == cells[j]
  {
    if j < n - 1 {
      AssignLastWins(keys, cells, n - 1, j);
    }
  }

  /** The `headers.forEach` loop of `fromCSV`, one property assigned per header. */
  method BuildRow(headers: seq<string>, values: seq<string>) returns (row: Obj)
    ensures row == RowObject(TrimAll(headers), values)
  {
    row := map[];
    var i := 0;
    while i < |headers|
      invariant i <= |headers| && row == Assign(TrimAll(headers), Cells(values, |headers|), i)
    {
      AssignHeader(headers, values, i);
      row := row[Trim(headers[i]) := Cell(values, i)];
      i := i + 1;
    }
  }

  /** Assigning the next header's cell extends the row by one key. */
  lemma AssignHeader(headers: seq<string>, values: seq<string>, i: nat)
    requires i < |headers|
    ensures var keys, cells := TrimAll(headers), Cells(values, |headers|);
      Assign(keys, cells, i + 1) == Assign(keys, cells, i)[Trim(headers[i]) := Cell(values, i)]
  {
  }

  /** One record per line: the keys paired with that line's cells. */
  function Rows(keys: seq<string>, lines: seq<string>): (r: seq<Obj>)
    ensures |r| == |lines|
    ensures forall i :: 0 <= i < |lines| ==> r[i] == RowObject(keys, Split(lines[i], ','))
  {
    seq(|lines|, i requires 0 <= i < |lines| => RowObject(keys, Split(lines[i], ',')))
  }

  /** The header names `fromCSV` reads from the first line. */
  function HeaderKeys(lines: seq<string>): seq<string>
    requires |lines| >= 1
  {
    TrimAll(Split(lines[0], ','))
  }

  /** The records `import.fromCSV` reads out of a file's text: one per line
      after the first, an empty last line included. */
  function ParseCsv(text: string): (r: seq<Obj>)
    ensures |r| == |Split(text, '\n')| - 1
  {
    var lines := Split(text, '\n');
    Rows(HeaderKeys(lines), lines[1..])
  }

  /** The `rows.slice(1).map(...)` of `fromCSV`. */
  method ParseCsvRows(text: string) returns (data: seq<Obj>)
    ensures data == ParseCsv(text)
  {
    var lines := Split(text, '\n');
    var headers := Split(lines[0], ',');
    ghost var keys := HeaderKeys(lines);
    assert keys == TrimAll(headers);
    data := [];
    var i := 1;
    while i < |lines|
      invariant 1 <= i <= |lines| && |data| == i - 1
      invariant forall m :: 0 <= m < i - 1 ==> data[m] == RowObject(keys, Split(lines[m + 1], ','))
    {
      var row := BuildRow(headers, Split(lines[i], ','));
      assert row == RowObject(keys, Split(lines[i], ','));
      data := data + [row];
      i := i + 1;
    }
    RowsOfLines(keys, lines, data);
  }

  lemma RowsOfLines(keys: seq<string>, lines: seq<string>, data: seq<Obj>)
    requires |lines| >= 1 && |data| == |lines| - 1
    requires forall m :: 0 <= m < |data| ==> data[m] == RowObject(keys, Split(lines[m + 1], ','))
    ensures data == Rows(keys, lines[1..])
  {
    var r := Rows(keys, lines[1..]);
    forall m | 0 <= m < |data| ensures data[m] == r[m] {
      assert lines[1..][m] == lines[m + 1];
    }
  }

  /** Text that passes through a CSV line unchanged: no separator, no line
      break, no white space at either end. */
  predicate PlainCell(s: string) {
    ',' !in s && '\n' !in s && IsTrimmed(s)
  }

  /** Records that CSV renders without loss: all have the first record's keys
      in the same order, at least one, and every key and every value is plain text. */
  predicate Renderable(data: seq<Fields>) {
    && data != []
    && |data[0]| >= 1
    && (forall i :: 0 <= i < |data| ==> KeysOf(data[i]) == KeysOf(data[0]))
    && (forall j :: 0 <= j < |data[0]| ==> PlainCell(data[0][j].0))
    && (forall i, j :: 0 <= i < |data| && 0 <= j < |data[i]| ==> data[i][j].1.Str? && PlainCell(data[i][j].1.s))
  }

  /** The rendered text has exactly one line for the header and one per record. */
  lemma CsvLineCount(data: seq<Fields>)
    requires Renderable(data)
    ensures ToCsv(data).Ok? && Split(ToCsv(data).value, '\n') == CsvLines(data)
    ensures |Split(ToCsv(data).value, '\n')| == |data| + 1
  {
    var lines := CsvLines(data);
    forall i | 0 <= i < |lines| ensures '\n' !in lines[i] {
      if i == 0 {
        JoinExcludes(KeysOf(data[0]), ",", '\n');
      } else {
        ValuesLineUnbroken(data[i - 1]);
      }
    }
    SplitJoin(lines, '\n');
  }

  /** The line of a record of plain values holds no line break. */
  lemma ValuesLineUnbroken(f: Fields)
    requires forall j :: 0 <= j < |f| ==> f[j].1.Str? && PlainCell(f[j].1.s)
    ensures '\n' !in Join(ValuesText(f), ",")
  {
    forall j | 0 <= j < |f| ensures '\n' !in ValuesText(f)[j] {
      assert ValuesText(f)[j] == f[j].1.s;
    }
    JoinExcludes(ValuesText(f), ",", '\n');
  }

  /** Keys that name the properties in order, and cells equal to their values,
      build the object the properties denote. */
  lemma RowMatches(keys: seq<string>, values: seq<string>, f: Fields)
    requires |keys| == |f|
    requires forall j :: 0 <= j < |f| ==> keys[j] == f[j].0 && Cell(values, j) == f[j].1
    ensures RowObject(keys, values) == ToObj(f)
  {
    AssignMatches(keys, Cells(values, |keys|), f, |f|);
    assert f[..|f|] == f;
  }

  lemma {:induction false} AssignMatches(keys: seq<string>, cells: seq<Value>, f: Fields, n: nat)
    requires n <= |keys| == |cells| == |f|
    requires forall j :: 0 <= j < |f| ==> keys[j] == f[j].0 && cells[j] == f[j].1
    ensures Assign(keys, cells, n) == ToObj(f[..n])
  {
    if n > 0 {
      AssignMatches(keys, cells, f, n - 1);
      assert f[..n][..n - 1] == f[..n - 1];
    }
  }

  /** A plain text value is its own cell. */
  lemma PlainCellText(f: Fields, i: nat)
    requires i < |f| && f[i].1.Str? && PlainCell(f[i].1.s)
    ensures Cell(ValuesText(f), i) == f[i].1
  {
    TrimOfTrimmed(f[i].1.s);
  }

  /** Trimming plain keys changes none of them. */
  lemma TrimAllPlain(keys: seq<string>)
    requires forall j :: 0 <= j < |keys| ==> PlainCell(keys[j])
    ensures TrimAll(keys) == keys
  {
    forall j | 0 <= j < |keys| ensures TrimAll(keys)[j] == keys[j] {
      TrimOfTrimmed(keys[j]);
    }
  }

  /** The values of one renderable record split back into their texts. */
  lemma ValuesSplit(f: Fields)
    requires |f| >= 1
    requires forall j :: 0 <= j < |f| ==> f[j].1.Str? && PlainCell(f[j].1.s)
    ensures Split(Join(ValuesText(f), ","), ',') == ValuesText(f)
  {
    forall j | 0 <= j < |f| ensures ',' !in ValuesText(f)[j] {
      assert ValuesText(f)[j] == f[j].1.s;
    }
    SplitJoin(ValuesText(f), ',');
  }

  /** A record of plain text values is the row object of its keys and values. */
  lemma RecordRowObject(f: Fields)
    requires forall j :: 0 <= j < |f| ==> f[j].1.Str? && PlainCell(f[j].1.s)
    ensures RowObject(KeysOf(f), ValuesText(f)) == ToObj(f)
  {
    forall j | 0 <= j < |f| ensures Cell(ValuesText(f), j) == f[j].1 {
      PlainCellText(f, j);
    }
    RowMatches(KeysOf(f), ValuesText(f), f);
  }

  /** One line of values parses back to its record. */
  lemma RecordRoundTrip(f: Fields)
    requires |f| >= 1
    requires forall j :: 0 <= j < |f| ==> f[j].1.Str? && PlainCell(f[j].1.s)
    ensures RowObject(KeysOf(f), Split(Join(ValuesText(f), ","), ',')) == ToObj(f)
  {
    ValuesSplit(f);
    RecordRowObject(f);
  }

  /** Parsing the CSV text of renderable records gives those records back. */
  lemma CsvRoundTrip(data: seq<Fields>)
    requires Renderable(data)
    ensures ToCsv(data).Ok?
    ensures var r := ParseCsv(ToCsv(data).value);
      |r| == |data| && forall i :: 0 <= i < |data| ==> r[i] == ToObj(data[i])
  {
    CsvLineCount(data);
    var lines := CsvLines(data);
    var keys := KeysOf(data[0]);
    SplitJoin(keys, ',');
    TrimAllPlain(keys);
    assert HeaderKeys(lines) == keys;
    var r := ParseCsv(ToCsv(data).value);
    assert r == Rows(keys, lines[1..]);
    forall i | 0 <= i < |data| ensures r[i] == ToObj(data[i]) {
      assert lines[1..][i] == Join(ValuesText(data[i]), ",");
      assert KeysOf(data[i]) == keys;
      RecordRoundTrip(data[i]);
    }
  }

  /** A file that ends in a line break yields one more record, made from an
      empty line: its first column is `''` and every other column `undefined`. */
  lemma TrailingLineBreak(text: string)
    ensures var before, after := ParseCsv(text), ParseCsv(text + "\n");
      |after| == |before| + 1 &&
      after[..|before|] == before &&
      after[|before|] == RowObject(HeaderKeys(Split(text, '\n')), [""])
  {
    SplitTrailing(text, '\n');
    assert text + "\n" == text + ['\n'];
    var lines := Split(text, '\n');
    var lines' := Split(text + "\n", '\n');
    assert lines' == lines + [""];
    assert lines'[0] == lines[0];
    assert lines'[|lines|] == "";
    assert Split("", ',') == [""];
  }

  /** `getRequiredFields(type)`. */
  function RequiredFields(kind: string): (r: seq<string>)
    ensures kind == "contacts" ==> r == ["name", "email"]
    ensures kind == "deals" ==> r == ["name", "value", "stage"]
    ensures kind != "contacts" && kind != "deals" ==> r == []
  {
    match kind
    case "contacts" => ["name", "email"]
    case "deals" => ["name", "value", "stage"]
    case _ => []
  }

  /** `Row ${index + 1}: Missing ${field}` */
  function Message(row: nat, field: string): string {
    "Row " + NatToString(row) + ": Missing " + field
  }

  /** The messages for one record, in field order: one for each required field whose value is falsy. */
  function RowErrors(item: Obj, row: nat, fields: seq<string>): seq<string> {
    if fields == [] then []
    else
      var n := |fields| - 1;
      RowErrors(item, row, fields[..n]) + (if Truthy(Get(item, fields[n])) then [] else [Message(row, fields[n])])
  }

  /** All messages, record by record; record `i` is reported as row `i + 1`. */
  function Errors(data: seq<Obj>, fields: seq<string>): seq<string> {
    if data == [] then []
    else
      var n := |data| - 1;
      Errors(data[..n], fields) + RowErrors(data[n], n + 1, fields)
  }

  /** A record with every required field truthy has no message. */
  lemma {:induction false} RowComplete(item: Obj, row: nat, fields: seq<string>)
    requires forall j :: 0 <= j < |fields| ==> Truthy(Get(item, fields[j]))
    ensures RowErrors(item, row, fields) == []
  {
    if fields != [] {
      RowComplete(item, row, fields[..|fields| - 1]);
    }
  }

  /** A falsy required field is reported for its record. */
  lemma {:induction false} RowMissingReported(item: Obj, row: nat, fields: seq<string>, j: nat)
    requires j < |fields| && !Truthy(Get(item, fields[j]))
    ensures Message(row, fields[j]) in RowErrors(item, row, fields)
  {
    var n := |fields| - 1;
    if j < n {
      RowMissingReported(item, row, fields[..n], j);
    }
  }

  /** Records whose required fields are all truthy raise no message. */
  lemma {:induction false} NoneMissing(data: seq<Obj>, fields: seq<string>)
    requires forall i, j :: 0 <= i < |data| && 0 <= j < |fields| ==> Truthy(Get(data[i], fields[j]))
    ensures Errors(data, fields) == []
  {
    if data != [] {
      var n := |data| - 1;
      NoneMissing(data[..n], fields);
      RowComplete(data[n], n + 1, fields);
    }
  }

  /** Each falsy required field is reported, under its record's row number. */
  lemma {:induction false} MissingReported(data: seq<Obj>, fields: seq<string>, i: nat, j: nat)
    requires i < |data| && j < |fields| && !Truthy(Get(data[i], fields[j]))
    ensures Message(i + 1, fields[j]) in Errors(data, fields)
  {
    var n := |data| - 1;
    if i < n {
      MissingReported(data[..n], fields, i, j);
    } else {
      RowMissingReported(data[n], n + 1, fields, j);
    }
  }

  /** The two `forEach` loops of `validateAndProcessImport` pushing onto `validationErrors`. */
  method CollectErrors(data: seq<Obj>, fields: seq<string>) returns (errors: seq<string>)
    ensures errors == Errors(data, fields)
  {
    errors := [];
    var i := 0;
    while i < |data|
      invariant i <= |data| && errors == Errors(data[..i], fields)
    {
      var j := 0;
      while j < |fields|
        invariant j <= |fields| && errors == Errors(data[..i], fields) + RowErrors(data[i], i + 1, fields[..j])
      {
        if !Truthy(Get(data[i], fields[j])) {
          errors := errors + [Message(i + 1, fields[j])];
        }
        j := j + 1;
        assert fields[..j][..j - 1] == fields[..j - 1];
      }
      assert fields[..j] == fields;
      i := i + 1;
      assert data[..i][..i - 1] == data[..i - 1];
    }
    assert data[..i] == data;
  }

  /** `existing.email === item.email || existing.phone === item.phone` for some
      existing record; a property missing on both sides is `undefined === undefined`. */
  predicate Clashes(item: Obj, existing: seq<Obj>) {
    exists e :: e in existing && (Get(e, "email") == Get(item, "email") || Get(e, "phone") == Get(item, "phone"))
  }

  /** The deduplicating `filter`: the records that clash with nothing on file, in their order. */
  function Dedup(data: seq<Obj>, existing: seq<Obj>): (r: seq<Obj>)
    ensures Subsequence(r, data)
    ensures forall d :: d in r <==> d in data && !Clashes(d, existing)
    ensures forall d :: multiset(r)[d] == if Clashes(d, existing) then 0 else multiset(data)[d]
  {
    if data == [] then []
    else
      assert data == [data[0]] + data[1..];
      if Clashes(data[0], existing) then Dedup(data[1..], existing)
      else
        var rest := Dedup(data[1..], existing);
        assert ([data[0]] + rest)[1..] == rest;
        [data[0]] + rest
  }

  /** Two records without a phone clash, whatever their emails. */
  lemma MissingPhonesClash(item: Obj, e: Obj)
    requires "phone" !in item && "phone" !in e
    ensures Clashes(item, [e])
  {
    assert e in [e];
  }

  /** `validateAndProcessImport(data, type)` with the records on file given. */
  function ProcessImport(data: seq<Obj>, kind: string, existing: seq<Obj>): (r: Result<seq<Obj>>)
    ensures r.Err? <==> Errors(data, RequiredFields(kind)) != []
    ensures r.Err? ==> r.error == "Validation failed:\n" + Join(Errors(data, RequiredFields(kind)), "\n")
    ensures r.Ok? ==> r.value == Dedup(data, existing)
  {
    var errors := Errors(data, RequiredFields(kind));
    if errors != [] then Err("Validation failed:\n" + Join(errors, "\n")) else Ok(Dedup(data, existing))
  }

  method ValidateAndProcessImport(data: seq<Obj>, kind: string, existing: seq<Obj>) returns (r: Result<seq<Obj>>)
    ensures r == ProcessImport(data, kind, existing)
  {
    var errors := CollectErrors(data, RequiredFields(kind));
    if |errors| > 0 {
      return Err("Validation failed:\n" + Join(errors, "\n"));
    }
    r := Ok(Dedup(data, existing));
  }

  /** An import goes through exactly when every record has every required
      field, and then keeps only records that have them all and clash with
      nothing on file. */
  lemma ImportAccepts(data: seq<Obj>, kind: string, existing: seq<Obj>)
    ensures var fields := RequiredFields(kind);
      ProcessImport(data, kind, existing).Ok? <==>
        forall i, j :: 0 <= i < |data| && 0 <= j < |fields| ==> Truthy(Get(data[i], fields[j]))
    ensures var r := ProcessImport(data, kind, existing);
      r.Ok? ==>
        (forall d :: d in r.value ==> !Clashes(d, existing)) &&
        (forall d, f :: d in r.value && f in RequiredFields(kind) ==> Truthy(Get(d, f)))
  {
    var fields := RequiredFields(kind);
    if forall i, j :: 0 <= i < |data| && 0 <= j < |fields| ==> Truthy(Get(data[i], fields[j])) {
      NoneMissing(data, fields);
      forall d, f | d in Dedup(data, existing) && f in fields ensures Truthy(Get(d, f)) {
        var i :| 0 <= i < |data| && data[i] == d;
        var j :| 0 <= j < |fields| && fields[j] == f;
      }
    } else {
      var i, j :| 0 <= i < |data| && 0 <= j < |fields| && !Truthy(Get(data[i], fields[j]));
      MissingReported(data, fields, i, j);
    }
  }

  /** Importing contacts or deals from a file that ends in a line break always
      fails: the record made from the empty last line lacks the first required field. */
  lemma TrailingLineBreakFailsImport(text: string, kind: string, existing: seq<Obj>)
    requires kind == "contacts" || kind == "deals"
    ensures ProcessImport(ParseCsv(text + "\n"), kind, existing).Err?
  {
    TrailingLineBreak(text);
    var data := ParseCsv(text + "\n");
    var last := |data| - 1;
    var keys := HeaderKeys(Split(text, '\n'));
    assert data[last] == RowObject(keys, [""]);
    var fields := RequiredFields(kind);
    EmptyLineFalsy(keys, fields[0]);
    MissingReported(data, fields, last, 0);
  }

  /** Every property of the record made from an empty line is falsy. */
  lemma EmptyLineFalsy(keys: seq<string>, f: string)
    ensures !Truthy(Get(RowObject(keys, [""]), f))
  {
    TrimOfTrimmed("");
    if f in RowObject(keys, [""]) {
      RowObjectCell(keys, [""], f);
    }
  }
}

=== FILE: data_management_page.dfy ===
/** The settings page that imports and exports records: which importer a file
    name selects, the simulated progress bar, which exporter a format selects,
    and the error and success notices the page shows afterwards. The Excel
    reader, the Excel and PDF writers and the bulk upload are library or
    network calls whose outcome is a parameter. */
module DataManagementPage {
  import opened Json
  import opened Wrappers
  import opened Strings
  import DataManagement

  /** `file.name.split('.').pop().toLowerCase()` */
  function Extension(name: string): (r: string)
    ensures '.' !in r
  {
    var last := LastPiece(name, '.');
    SplitExcludes(name, '.');
    assert '.' !in last;
    Lower(last)
  }

  /** A name without a dot is its own extension, lower-cased. */
  lemma ExtensionWithoutDot(name: string)
    requires '.' !in name
    ensures Extension(name) == Lower(name)
  {
    SplitNoSeparator(name, '.');
  }

  /** The extension is what follows the last dot, lower-cased. */
  lemma ExtensionAfterLastDot(base: string, ext: string)
    requires '.' !in ext
    ensures Extension(base + "." + ext) == Lower(ext)
  {
    assert base + "." + ext == base + ['.'] + ext;
    SplitLast(base, '.', ext);
  }

  datatype Importer = ExcelImporter | CsvImporter

  /** The `if`/`else` chain of `handleImport` on the extension. */
  function ImporterFor(ext: string): (r: Result<Importer>)
    ensures r == Ok(ExcelImporter) <==> ext == "xlsx" || ext == "xls"
    ensures r == Ok(CsvImporter) <==> ext == "csv"
    ensures r.Err? <==> ext != "xlsx" && ext != "xls" && ext != "csv"
    ensures r.Err? ==> r.error == "Unsupported file format"
  {
    if ext == "xlsx" || ext == "xls" then Ok(ExcelImporter)
    else if ext == "csv" then Ok(CsvImporter)
    else Err("Unsupported file format")
  }

  /** A reading the bar can show when it starts from 0: a multiple of 10 in [0, 100]. */
  predicate OnTens(p: int) {
    0 <= p <= 100 && p % 10 == 0
  }

  /** One tick of the progress timer: at 100 or more it stays at 100, otherwise it adds 10.
      A full bar is the only reading a tick keeps, and a tick keeps the bar on
      the tens of [0, 100] without ever moving it back. */
  function ProgressStep(p: int): (r: int)
    ensures r == p <==> p == 100
    ensures p < 100 ==> p < r <= p + 10
    ensures p >= 100 ==> r == 100
    ensures OnTens(p) ==> OnTens(r) && p <= r
  {
    if p >= 100 then 100 else p + 10
  }

  /** The progress after `n` ticks from `p`. */
  function Progress(p: int, n: nat): int {
    if n == 0 then p else ProgressStep(Progress(p, n - 1))
  }

  /** From 0 the bar reads `10 n` until it reaches 100, and never leaves [0, 100]. */
  lemma {:induction false} ProgressFromZero(n: nat)
    ensures Progress(0, n) == if 10 * n >= 100 then 100 else 10 * n
    ensures 0 <= Progress(0, n) <= 100
  {
    if n > 0 {
      ProgressFromZero(n - 1);
    }
  }

  /** What the page shows: an error line and a success line, each possibly absent. */
  datatype Notice = Notice(error: Option<string>, success: Option<string>)

  /** `handleImport` for a file called `name`. The records come from the
      Excel reader (`excel`) or from the CSV reader over `text`; `upload` is the
      bulk upload's failure message, if it fails. The success line is not
      cleared when the import starts, so a failed import keeps the previous one. */
  function HandleImport(prior: Notice, name: string, kind: string, text: string, excel: Result<seq<Obj>>,
                        existing: seq<Obj>, upload: Option<string>): (r: Notice)
    ensures r.error.None? ==> r.success.Some?
    ensures r.error.Some? ==> r.success == prior.success && "Import failed: " <= r.error.value
    ensures ImporterFor(Extension(name)).Err? ==> r.error == Some("Import failed: Unsupported file format")
    ensures var csv := DataManagement.ProcessImport(DataManagement.ParseCsv(text), kind, existing);
      Extension(name) == "csv" && csv.Ok? && upload.None? ==>
        r == Notice(None, Some("Successfully imported " + NatToString(|csv.value|) + " records"))
  {
    assert "Import failed: " + "Unsupported file format" == "Import failed: Unsupported file format";
    Report(prior, Imported(Extension(name), kind, text, excel, existing), upload)
  }

  /** The records the importer chosen by the extension reads, or why it failed. */
  function Imported(ext: string, kind: string, text: string, excel: Result<seq<Obj>>, existing: seq<Obj>): (r: Result<seq<Obj>>)
    ensures ImporterFor(ext).Err? ==> r == Err("Unsupported file format")
    ensures ImporterFor(ext) == Ok(ExcelImporter) ==> r == excel
    ensures ext == "csv" ==> r == DataManagement.ProcessImport(DataManagement.ParseCsv(text), kind, existing)
  {
    match ImporterFor(ext)
    case Err(m) => Err(m)
    case Ok(ExcelImporter) => excel
    case Ok(CsvImporter) => DataManagement.ProcessImport(DataManagement.ParseCsv(text), kind, existing)
  }

  /** The notices after an import: the count of records on success, otherwise
      the failure, with the previous success line kept. */
  function Report(prior: Notice, imported: Result<seq<Obj>>, upload: Option<string>): (r: Notice)
    ensures r.error.None? <==> imported.Ok? && upload.None?
    ensures r.error.None? ==> r.success == Some("Successfully imported " + NatToString(|imported.value|) + " records")
    ensures r.error.Some? ==> r.success == prior.success && "Import failed: " <= r.error.value
    ensures imported.Err? ==> r.error == Some("Import failed: " + imported.error)
  {
    if imported.Err? then Notice(Some("Import failed: " + imported.error), prior.success)
    else if upload.Some? then Notice(Some("Import failed: " + upload.value), prior.success)
    else Notice(None, Some("Successfully imported " + NatToString(|imported.value|) + " records"))
  }

  /** A CSV import whose records lack a required field shows the validation failure. */
  lemma CsvImportInvalid(prior: Notice, name: string, kind: string, text: string, excel: Result<seq<Obj>>,
                         existing: seq<Obj>, upload: Option<string>)
    requires Extension(name) == "csv"
    requires var data := DataManagement.ParseCsv(text);
      exists i, j :: 0 <= i < |data| && 0 <= j < |DataManagement.RequiredFields(kind)| &&
        !Truthy(Get(data[i], DataManagement.RequiredFields(kind)[j]))
    ensures var r := HandleImport(prior, name, kind, text, excel, existing, upload);
      r.error.Some? && r.success == prior.success
  {
    DataManagement.ImportAccepts(DataManagement.ParseCsv(text), kind, existing);
  }

  /** The message of the ReferenceError that reading the unbound name `api` throws. */
  const UnboundApi := "api is not defined"

  datatype Exporter = ExcelExporter | CsvExporter | PdfExporter

  /** The `switch (exportFormat)` of `handleExport`; an unmatched format has no case. */
  function ExporterFor(format: string): (r: Option<Exporter>)
    ensures r == Some(ExcelExporter) <==> format == "excel"
    ensures r == Some(CsvExporter) <==> format == "csv"
    ensures r == Some(PdfExporter) <==> format == "pdf"
  {
    match format
    case "excel" => Some(ExcelExporter)
    case "csv" => Some(CsvExporter)
    case "pdf" => Some(PdfExporter)
    case _ => None
  }

  /** `handleExport` in `format`. `fetched` is the outcome of the `api.get` that
      reads the records (their `data`, or the message it threw); `library` is the
      failure message of the Excel or PDF writer, if it fails. The CSV writer is modelled. */
  function HandleExport(prior: Notice, format: string, fetched: Result<seq<DataManagement.Fields>>,
                        library: Option<string>): (r: Notice)
    ensures r.error.None? ==> r.success == Some("Export completed successfully")
    ensures r.error.Some? ==> r.success == prior.success && "Export failed: " <= r.error.value
    ensures fetched.Err? ==> r == Notice(Some("Export failed: " + fetched.error), prior.success)
    ensures fetched.Ok? && ExporterFor(format).None? ==> r.error.None?
    ensures fetched.Ok? && format == "csv" ==> (r.error.Some? <==> fetched.value == [])
  {
    var failure :=
      match fetched
      case Err(m) => Some(m)
      case Ok(data) =>
        match ExporterFor(format)
        case None => None
        case Some(CsvExporter) => (var c := DataManagement.ToCsv(data); if c.Err? then Some(c.error) else None)
        case Some(_) => library;
    if failure.Some? then Notice(Some("Export failed: " + failure.value), prior.success)
    else Notice(None, Some("Export completed successfully"))
  }

  /** The page calls `api.get` without importing `api`, so the fetch throws a
      ReferenceError and every export, whatever its format, reports that failure. */
  lemma ExportUnboundApi(prior: Notice, format: string, library: Option<string>)
    ensures var r := HandleExport(prior, format, Err(UnboundApi), library);
      r.error == Some("Export failed: api is not defined") && r.success == prior.success
  {
    assert "Export failed: " + UnboundApi == "Export failed: api is not defined";
  }

}

=== FILE: deal_form.dfy ===
/** The deal dialog's validation schema and blank form. */
module DealForm {
  import opened Json
  import opened Yup

  const DealFields: set<string> := {"name", "company", "value", "stage", "priority"}

  /** Whether `field` of a deal passes the schema. */
  predicate DealFieldOk(field: string, v: Value) {
    if field == "value" then NumberAtLeast(v, 0) else RequiredText(v)
  }

  /** The fields the schema rejects: name, company, stage and priority must be
      non-empty text, and value a number of at least 0. */
  function DealErrors(d: Obj): (r: set<string>)
    ensures forall f :: f in {"name", "company", "stage", "priority"} ==> (f in r <==> !RequiredText(Get(d, f)))
    ensures "value" in r <==> !(Get(d, "value").Num? && Get(d, "value").n >= 0)
    ensures r <= DealFields
  {
    Failing(d, DealFields, DealFieldOk)
  }

  /** The form opened without a deal. */
  const DefaultDeal: Obj := map["name" := Str(""), "company" := Str(""), "value" := Str(""),
                                "stage" := Str("Lead"), "priority" := Str("medium"), "notes" := Str("")]

  /** Untouched, the form fails on name, company and value alone. */
  lemma DefaultDealErrors()
    ensures DealErrors(DefaultDeal) == {"name", "company", "value"}
  {
  }

  /** A value of 0 passes, a negative one does not, and any non-empty stage or
      priority passes, whether or not the menus offer it. */
  lemma DealRules(d: Obj, stage: string, priority: string)
    requires stage != "" && priority != ""
    ensures "value" !in DealErrors(d["value" := Num(0)])
    ensures "value" in DealErrors(d["value" := Num(-1)])
    ensures var e := DealErrors(d["stage" := Str(stage)]["priority" := Str(priority)]);
      "stage" !in e && "priority" !in e
  {
  }
}

=== FILE: deals_slice.dfy ===
/** The deals slice of the Redux store: the board of deals by stage, the
    fetch status and the list filters, updated in place by Immer reducers. */
module DealsSlice {
  import opened Json
  import opened Wrappers
  import opened Records
  import opened DealBoard
  import FetchStatus
  import Access

  /** `{ id, stage, ...deal }` rebuilt from the payload: the payload's fields,
      with `id` and `stage` present even when the payload lacks them. */
  function Staged(payload: Obj): (r: Obj)
    ensures Get(r, "id") == Get(payload, "id") && Get(r, "stage") == Get(payload, "stage")
    ensures forall k :: k in payload ==> k in r && r[k] == payload[k]
    ensures forall k :: k in r ==> k in payload || k == "id" || k == "stage"
  {
    payload["id" := Get(payload, "id")]["stage" := Get(payload, "stage")]
  }

  /** The stage key the payload's `stage` names when it indexes the board. */
  function TargetKey(payload: Obj): string {
    PropertyKey(Get(payload, "stage"))
  }

  /** The stage `updateDeal` filters, if any: the first stage (in key order)
      holding the id, unless that key is the falsy empty string. */
  function Source(b: Board, id: Value): (r: Option<string>)
    requires WellFormed(b)
    ensures r.Some? ==> r.value in b.lists && r.value != "" && ListHas(b.lists[r.value], id)
  {
    var f := FirstStageWith(b.order, b.lists, id);
    if f.Some? && f.value != "" then f else None
  }

  /** `if (oldStage) b[oldStage] = b[oldStage].filter(d => d.id !== id)`. */
  function FilterSource(b: Board, id: Value): (r: Board)
    requires WellFormed(b)
    ensures WellFormed(r) && r.order == b.order
  {
    var src := Source(b, id);
    if src.Some? then Assign(b, src.value, RemoveId(b.lists[src.value], id)) else b
  }

  /** `if (!b[key]) b[key] = []; b[key].push(d)`. */
  function Push(b: Board, key: string, d: Obj): (r: Board)
    requires WellFormed(b)
    ensures WellFormed(r)
  {
    var b2 := if key in b.lists then b else Assign(b, key, []);
    Assign(b2, key, b2.lists[key] + [d])
  }

  /** The board after `updateDeal(payload)`: the deal is filtered out of the
      source stage, the target stage is created empty if missing, and the
      rebuilt deal is pushed onto the target stage. */
  function UpdatedBoard(b: Board, payload: Obj): (r: Board)
    requires WellFormed(b)
    ensures WellFormed(r)
  {
    Push(FilterSource(b, Get(payload, "id")), TargetKey(payload), Staged(payload))
  }

  /** How many deals `updateDeal` filters out of the source stage. */
  function Removed(b: Board, id: Value): nat
    requires WellFormed(b)
  {
    var src := Source(b, id);
    if src.Some? then CountId(b.lists[src.value], id) else 0
  }

  /** The target stage holds what it held before (minus the moved deal when it
      is also the source, and empty when it did not exist), followed by the
      rebuilt deal, whose `stage` names the target. */
  lemma UpdateDealTarget(b: Board, payload: Obj)
    requires WellFormed(b)
    ensures var r := UpdatedBoard(b, payload);
      var key := TargetKey(payload);
      var id := Get(payload, "id");
      key in r.lists &&
      r.lists[key] ==
        (if key !in b.lists then []
         else if Source(b, id) == Some(key) then RemoveId(b.lists[key], id)
         else b.lists[key]) + [Staged(payload)] &&
      PropertyKey(Get(Staged(payload), "stage")) == key &&
      HasId(Staged(payload), id)
  {
  }

  /** The source stage, when it is not the target, keeps its other deals in order. */
  lemma UpdateDealSource(b: Board, payload: Obj)
    requires WellFormed(b)
    requires Source(b, Get(payload, "id")).Some?
    requires Source(b, Get(payload, "id")).value != TargetKey(payload)
    ensures var s := Source(b, Get(payload, "id")).value;
      UpdatedBoard(b, payload).lists[s] == RemoveId(b.lists[s], Get(payload, "id"))
  {
  }

  /** Stages other than the source and the target are untouched, and a new
      key appears only when the target stage was missing. */
  lemma UpdateDealOthers(b: Board, payload: Obj)
    requires WellFormed(b)
    ensures var r := UpdatedBoard(b, payload);
      var key := TargetKey(payload);
      (forall k :: k in b.lists && k != key && Source(b, Get(payload, "id")) != Some(k) ==>
        k in r.lists && r.lists[k] == b.lists[k]) &&
      r.order == if key in b.lists then b.order else b.order + [key]
  {
  }

  lemma FilterSourceCounts(b: Board, id: Value, x: Value)
    requires WellFormed(b)
    ensures var r := FilterSource(b, id);
      |Flat(r)| == |Flat(b)| - Removed(b, id) &&
      CountId(Flat(r), x) == if x == id then CountId(Flat(b), x) - Removed(b, id) else CountId(Flat(b), x)
  {
    var src := Source(b, id);
    if src.Some? {
      FlatAssignExisting(b, src.value, RemoveId(b.lists[src.value], id), x);
      RemoveIdCount(b.lists[src.value], id, x);
    }
  }

  lemma PushCounts(b: Board, key: string, d: Obj, x: Value)
    requires WellFormed(b)
    ensures |Flat(Push(b, key, d))| == |Flat(b)| + 1
    ensures CountId(Flat(Push(b, key, d)), x) == CountId(Flat(b), x) + if HasId(d, x) then 1 else 0
  {
    var b2 := if key in b.lists then b else Assign(b, key, []);
    if key !in b.lists {
      FlatAssignNew(b, key, []);
      assert Flat(b2) == Flat(b);
    }
    FlatAssignExisting(b2, key, b2.lists[key] + [d], x);
    CountIdAppend(b2.lists[key], [d], x);
    assert [d][1..] == [];
  }

  /** The board's deal count and the count of every id across stages. */
  lemma UpdateDealCounts(b: Board, payload: Obj, x: Value)
    requires WellFormed(b)
    ensures var r := UpdatedBoard(b, payload);
      var id := Get(payload, "id");
      |Flat(r)| == |Flat(b)| - Removed(b, id) + 1 &&
      CountId(Flat(r), x) == if x == id then CountId(Flat(b), x) - Removed(b, id) + 1 else CountId(Flat(b), x)
  {
    var id := Get(payload, "id");
    FilterSourceCounts(b, id, x);
    PushCounts(FilterSource(b, id), TargetKey(payload), Staged(payload), x);
  }

  /** With unique ids beforehand, `updateDeal` leaves the id in the target
      stage only, exactly once, and keeps all ids unique. No stage may be
      named by the empty string: that key is falsy and is never cleaned up
      (see `UpdateDealEmptyStageKey`). */
  lemma UpdateDealUnique(b: Board, payload: Obj)
    requires WellFormed(b) && UniqueIds(b)
    requires "" !in b.lists
    ensures var r := UpdatedBoard(b, payload);
      var id := Get(payload, "id");
      UniqueIds(r) && CountId(Flat(r), id) == 1 &&
      (forall k :: k in r.lists && k != TargetKey(payload) ==> !ListHas(r.lists[k], id)) &&
      |Flat(r)| == if ListHas(Flat(b), id) then |Flat(b)| else |Flat(b)| + 1
  {
    var r := UpdatedBoard(b, payload);
    var id := Get(payload, "id");
    var key := TargetKey(payload);
    var f := FirstStageWith(b.order, b.lists, id);
    if f.None? {
      AbsentFromFlat(b.order, b.lists, id);
    } else {
      CountIdPositive(b.lists[f.value], id);
      StageWithinFlat(b.order, b.lists, f.value, id);
    }
    UpdateDealCounts(b, payload, id);
    CountIdPositive(Flat(b), id);
    forall x ensures CountId(Flat(r), x) <= 1 {
      UpdateDealCounts(b, payload, x);
    }
    UpdateDealTarget(b, payload);
    OnlyInStage(r, key, id);
  }

  /** When the only copy of the id on the board ends a stage, no other stage holds the id. */
  lemma OnlyInStage(r: Board, key: string, id: Value)
    requires WellFormed(r) && key in r.lists && CountId(Flat(r), id) == 1
    requires |r.lists[key]| > 0 && HasId(r.lists[key][|r.lists[key]| - 1], id)
    ensures forall k :: k in r.lists && k != key ==> !ListHas(r.lists[k], id)
  {
    var t := r.lists[key];
    CountIdAppend(t[..|t| - 1], [t[|t| - 1]], id);
    assert t[..|t| - 1] + [t[|t| - 1]] == t;
    forall k | k in r.lists && k != key ensures !ListHas(r.lists[k], id) {
      TwoStagesWithinFlat(r, key, k, id);
      CountIdPositive(r.lists[k], id);
    }
  }

  /** A deal sitting under the falsy key `""` is not filtered out, so moving it
      leaves two deals with the same id. */
  lemma UpdateDealEmptyStageKey()
    ensures var d := map["id" := Num(1)];
      var b := Board([""], map["" := [d]]);
      var r := UpdatedBoard(b, map["id" := Num(1), "stage" := Str("Lead")]);
      WellFormed(b) && UniqueIds(b) && CountId(Flat(r), Num(1)) == 2
  {
    var d: Obj := map["id" := Num(1)];
    var b := Board([""], map["" := [d]]);
    var payload: Obj := map["id" := Num(1), "stage" := Str("Lead")];
    assert FlatOf(b.order[1..], b.lists) == [];
    assert Flat(b) == [d];
    forall x ensures CountId(Flat(b), x) <= 1 {
      assert [d][1..] == [];
    }
    assert HasId(d, Num(1));
    assert ListHas(b.lists[b.order[0]], Num(1)) by {
      assert b.lists[b.order[0]][0] == d;
    }
    assert FirstStageWith(b.order, b.lists, Num(1)) == Some("");
    assert Removed(b, Num(1)) == 0;
    UpdateDealCounts(b, payload, Num(1));
    assert CountId([d], Num(1)) == 1 by {
      assert [d][1..] == [];
    }
  }


  /** Whether `updateDeal(payload)` throws: its target stage is an inherited
      property name the board has no list under. */
  predicate UpdateThrows(b: Board, payload: Obj) {
    TargetKey(payload) !in b.lists && TargetKey(payload) in Access.InheritedNames
  }

  /** `initialState.filters`. */
  const InitialFilters: Obj := map["search" := Str(""), "priority" := Str("all"), "valueRange" := Str("all")]

  /** The steps of `updateDeal` on the board: filter the source stage, create
      the target stage if missing, push the rebuilt deal. */
  method ApplyUpdate(deals: Board, payload: Obj) returns (b: Board)
    requires WellFormed(deals)
    ensures b == UpdatedBoard(deals, payload)
  {
    var id := Get(payload, "id");
    var stage := TargetKey(payload);
    b := deals;
    var oldStage := FirstStageWith(b.order, b.lists, id);
    if oldStage.Some? && oldStage.value != "" {
      b := Assign(b, oldStage.value, RemoveId(b.lists[oldStage.value], id));
    }
    assert b == FilterSource(deals, id);
    if stage !in b.lists {
      b := Assign(b, stage, []);
    }
    b := Assign(b, stage, b.lists[stage] + [Staged(payload)]);
  }

  class DealsState {
    var deals: Board
    var loading: bool
    var error: Value
    var filters: Obj

    predicate Valid()
      reads this`deals
    {
      WellFormed(deals)
    }

    function Status(): FetchStatus.Status
      reads this`loading, this`error
    {
      FetchStatus.Status(loading, error)
    }

    /** `initialState`: no deals, not loading, no error, the initial filters. */
    constructor ()
      ensures Valid()
      ensures deals == Board([], map[]) && Status() == FetchStatus.Idle && filters == InitialFilters
    {
      deals := Board([], map[]);
      loading := false;
      error := Null;
      filters := InitialFilters;
    }

    /** The `updateDeal` reducer. A target naming an inherited property the
        board does not own (`constructor`, say) reads as a truthy function,
        so no list is created and `push` is not a function: the reducer
        throws and the store keeps its state. */
    method UpdateDeal(payload: Obj) returns (r: Result<()>)
      requires Valid()
      modifies this`deals
      ensures Valid()
      ensures r.Err? <==> UpdateThrows(old(deals), payload)
      ensures r.Err? ==> r.error == Access.TypeError && deals == old(deals)
      ensures r.Ok? ==> deals == UpdatedBoard(old(deals), payload)
      ensures Status() == old(Status()) && filters == old(filters)
    {
      var stage := TargetKey(payload);
      if stage !in deals.lists && stage in Access.InheritedNames {
        return Err(Access.TypeError);
      }
      deals := ApplyUpdate(deals, payload);
      r := Ok(());
    }

    /** The `setFilters` reducer: the payload's keys overwrite, the rest stay. */
    method SetFilters(payload: Obj)
      modifies this
      ensures filters == Spread(old(filters), payload)
      ensures deals == old(deals) && Status() == old(Status())
    {
      filters := Spread(filters, payload);
    }

    /** The `resetFilters` reducer. */
    method ResetFilters()
      modifies this
      ensures filters == InitialFilters
      ensures deals == old(deals) && Status() == old(Status())
    {
      filters := InitialFilters;
    }

    /** `fetchDeals.pending`. */
    method FetchPending()
      modifies this
      ensures Status() == FetchStatus.Step(old(Status()), FetchStatus.Pending)
      ensures deals == old(deals) && filters == old(filters)
    {
      loading := true;
      error := Null;
    }

    /** `fetchDeals.fulfilled`: the payload becomes the board; the error is kept. */
    method FetchFulfilled(payload: Board)
      requires WellFormed(payload)
      modifies this
      ensures Valid()
      ensures Status() == FetchStatus.Step(old(Status()), FetchStatus.Fulfilled)
      ensures deals == payload && filters == old(filters)
    {
      loading := false;
      deals := payload;
    }

    /** `fetchDeals.rejected`. */
    method FetchRejected(payload: Value)
      modifies this
      ensures Status() == FetchStatus.Step(old(Status()), FetchStatus.Rejected(payload))
      ensures deals == old(deals) && filters == old(filters)
    {
      loading := false;
      error := payload;
    }
  }
}

=== FILE: document_service.dfy ===
/** The name a downloaded document is saved under, read from the response's
    `content-disposition` header. */
module DocumentService {
  import opened Json
  import opened Wrappers
  import opened Strings
  import Access


  const Marker := "filename="

  const Quote: set<char> := {'"'}

  /** `s.split('filename=')[1]`: the text after the first marker, up to the
      next marker or the end; `None` when there is no marker. */
  function SecondPiece(s: string): (r: Option<string>)
    ensures r.None? <==> IndexOf(s, Marker).None?
    ensures r.Some? ==> var i := IndexOf(s, Marker).value;
      i + |Marker| <= |s| && r.value <= s[i + |Marker|..] &&
      (IndexOf(s[i + |Marker|..], Marker).None? ==> r.value == s[i + |Marker|..])
    ensures r.Some? ==> var after := s[IndexOf(s, Marker).value + |Marker|..];
      IndexOf(after, Marker).Some? ==> r.value == after[..IndexOf(after, Marker).value]
  {
    match IndexOf(s, Marker)
    case None => None
    case Some(i) =>
      var after := s[i + |Marker|..];
      match IndexOf(after, Marker)
      case None => Some(after)
      case Some(j) => Some(after[..j])
  }

  /** The file name of `download`: 'document' without a header (or with an
      empty one); otherwise the second piece with every '"' removed. A header
      without the marker leaves `undefined` to call `replace` on, which throws. */
  function Filename(header: Value): (r: Result<string>)
    ensures !Truthy(header) ==> r == Ok("document")
    ensures header.Str? && Truthy(header) ==>
      (r.Err? <==> IndexOf(header.s, Marker).None?)
    ensures header.Str? && Truthy(header) && r.Ok? ==>
      r.value == RemoveChars(SecondPiece(header.s).value, Quote)
    ensures r.Ok? ==> '"' !in r.value
    ensures r.Err? ==> r.error == Access.TypeError
  {
    if !Truthy(header) then Ok("document")
    else if !header.Str? then Err(Access.TypeError)
    else match SecondPiece(header.s)
      case None => Err(Access.TypeError)
      case Some(piece) => Ok(RemoveChars(piece, Quote))
  }

  /** For a header whose only marker follows `pre`, the name is everything
      after the marker, quotes removed. */
  lemma FilenameAfterMarker(pre: string, v: string)
    requires IndexOf(pre + Marker + v, Marker) == Some(|pre|)
    requires IndexOf(v, Marker).None?
    ensures Filename(Str(pre + Marker + v)) == Ok(RemoveChars(v, Quote))
  {
    var s := pre + Marker + v;
    assert s[|pre| + |Marker|..] == v;
    SecondPieceAt(s, |pre|, v);
  }

  /** The second piece of a header whose first marker sits at `i`, with no marker after it. */
  lemma SecondPieceAt(s: string, i: nat, v: string)
    requires IndexOf(s, Marker) == Some(i) && i + |Marker| <= |s| && s[i + |Marker|..] == v
    requires IndexOf(v, Marker).None?
    ensures SecondPiece(s) == Some(v) && Truthy(Str(s))
  {
  }

  /** The usual header: `attachment; filename="<name>"` yields the name, when
      the name holds neither a quote nor the marker. */
  lemma QuotedFilename(name: string)
    requires '"' !in name
    requires IndexOf(name + "\"", Marker).None?
    ensures Filename(Str("attachment; filename=\"" + name + "\"")) == Ok(name)
  {
    var pre := "attachment; ";
    var s := pre + Marker + ("\"" + name + "\"");
    assert "attachment; filename=\"" + name + "\"" == s;
    forall j | 0 <= j < |pre| ensures !(Marker <= s[j..]) {
      assert s[j] == pre[j];
      assert pre[j] != 'f';
    }
    assert Marker <= s[|pre|..];
    NoMarkerInQuoted(name);
    FilenameAfterMarker(pre, "\"" + name + "\"");
    RemoveCharsAbsent(name, Quote);
    QuotesDropped(name);
  }

  /** A marker in `"` + name + `"` would have to lie in name + `"`. */
  lemma NoMarkerInQuoted(name: string)
    requires IndexOf(name + "\"", Marker).None?
    ensures IndexOf("\"" + name + "\"", Marker).None?
  {
    var t := name + "\"";
    var q := "\"" + t;
    assert q == "\"" + name + "\"";
    forall j | 0 <= j <= |q| ensures !(Marker <= q[j..]) {
      if j >= 1 {
        assert q[j..] == t[j - 1..];
        assert !(Marker <= t[j - 1..]);
      } else {
        assert q[0] != Marker[0];
      }
    }
  }

  /** Removing quotes from a quoted name leaves the name. */
  lemma QuotesDropped(name: string)
    requires RemoveChars(name, Quote) == name
    ensures RemoveChars("\"" + name + "\"", Quote) == name
  {
    var q := "\"" + name + "\"";
    assert q[1..] == name + "\"";
    RemoveCharsTrailingQuote(name);
  }

  lemma {:induction false} RemoveCharsTrailingQuote(s: string)
    ensures RemoveChars(s + "\"", Quote) == RemoveChars(s, Quote)
  {
    if s == [] {
      assert RemoveChars("\""[1..], Quote) == [];
    } else {
      assert (s + "\"")[1..] == s[1..] + "\"";
      RemoveCharsTrailingQuote(s[1..]);
    }
  }
}

=== FILE: email_campaign_form.dfy ===
/** The campaign scheduling dialog: choosing audience segments and the form's
    validation rules. The rule that the schedule lies in the future reads the
    clock and is not part of this model. */
module EmailCampaignForm {
  import opened Records
  import opened Sequences

  datatype CampaignForm = CampaignForm(subject: string, template: string, content: string,
                                       scheduledFor: int, sendNow: bool, targetAudience: seq<string>)

  /** The blank form, opened without initial values at time `now`. */
  function DefaultForm(now: int): CampaignForm {
    CampaignForm("", "", "", now, false, [])
  }

  const Audiences: seq<string> := ["All Customers", "New Customers", "Active Users", "Inactive Users", "Premium Customers"]

  /** `s.filter(a => a !== x)` */
  function RemoveAll(s: seq<string>, x: string): (r: seq<string>)
    ensures x !in r
    ensures forall y :: y != x ==> (y in r <==> y in s)
    ensures x !in s ==> r == s
    ensures Subsequence(r, s)
    ensures forall y :: multiset(r)[y] == if y == x then 0 else multiset(s)[y]
  {
    if s == [] then []
    else
      var rest := RemoveAll(s[1..], x);
      assert s == [s[0]] + s[1..];
      if s[0] == x then rest
      else
        assert ([s[0]] + rest)[1..] == rest;
        [s[0]] + rest
  }

  /** `handleAudienceToggle(audience)`: a chosen segment is dropped, every copy
      of it; a segment not chosen is added at the end. */
  function ToggleAudience(current: seq<string>, audience: string): (r: seq<string>)
    ensures audience in current ==> r == RemoveAll(current, audience)
    ensures audience !in current ==> r == current + [audience]
    ensures audience in r <==> audience !in current
    ensures forall a :: a != audience ==> (a in r <==> a in current)
  {
    if audience in current then RemoveAll(current, audience) else current + [audience]
  }

  /** Choosing a segment and then dropping it gives the list back. */
  lemma ToggleTwice(current: seq<string>, audience: string)
    requires audience !in current
    ensures ToggleAudience(ToggleAudience(current, audience), audience) == current
  {
    RemoveAllAppend(current, audience);
  }

  /** Dropping the only copy of `x` from `s + [x]` leaves `s`. */
  lemma {:induction false} RemoveAllAppend(s: seq<string>, x: string)
    requires x !in s
    ensures RemoveAll(s + [x], x) == s
  {
    if s == [] {
      assert [x][1..] == [];
    } else {
      RemoveAllAppend(s[1..], x);
      assert (s + [x])[1..] == s[1..] + [x];
      assert [s[0]] + s[1..] == s;
    }
  }

  /** The form's messages, keyed by field, under its validation schema: a
      subject and a template are required (an empty text is missing), and at
      least one audience segment must be chosen. */
  function Errors(v: CampaignForm): (r: map<string, string>)
    ensures "subject" in r <==> v.subject == ""
    ensures "template" in r <==> v.template == ""
    ensures "targetAudience" in r <==> v.targetAudience == []
    ensures r.Keys <= {"subject", "template", "targetAudience"}
  {
    (if v.subject == "" then map["subject" := "Subject is required"] else map[])
    + (if v.template == "" then map["template" := "Template is required"] else map[])
    + (if v.targetAudience == [] then map["targetAudience" := "Select at least one audience segment"] else map[])
  }

  predicate Valid(v: CampaignForm) {
    Errors(v) == map[]
  }

  /** A form passes exactly when it has a subject, a template and an audience. */
  lemma ValidIff(v: CampaignForm)
    ensures Valid(v) <==> v.subject != "" && v.template != "" && v.targetAudience != []
  {
    if !Valid(v) {
      var k :| k in Errors(v);
    }
  }

  /** The blank form fails, the audience rule among others; choosing a segment
      satisfies that rule. */
  lemma DefaultFails(now: int, audience: string)
    ensures !Valid(DefaultForm(now)) && "targetAudience" in Errors(DefaultForm(now))
    ensures var f := DefaultForm(now);
      "targetAudience" !in Errors(f.(targetAudience := ToggleAudience(f.targetAudience, audience)))
  {
  }
}

=== FILE: fetch_status.dfy ===
/** The `pending`, `fulfilled` and `rejected` reducers each slice attaches to
    its fetch thunk, seen as a machine over the slice's `loading` and `error`
    fields. The fulfilled payload replaces the slice's data; that part belongs
    to each slice. */
module FetchStatus {
  import opened Json

  datatype Status = Status(loading: bool, error: Value)

  /** `loading: false, error: null`, the initial state of every slice. */
  const Idle := Status(false, Null)

  datatype Event = Pending | Fulfilled | Rejected(payload: Value)

  /** One reducer: pending starts loading and clears the error, fulfilled stops
      loading and leaves the error alone, rejected stops loading and records
      the rejection payload. */
  function Step(s: Status, e: Event): (r: Status)
    ensures r.loading <==> e.Pending?
    ensures e.Pending? ==> r.error == Null
    ensures e.Fulfilled? ==> r.error == s.error
    ensures e.Rejected? ==> r.error == e.payload
  {
    match e
    case Pending => Status(true, Null)
    case Fulfilled => Status(false, s.error)
    case Rejected(p) => Status(false, p)
  }

  /** The reducers applied to a sequence of events, oldest first. */
  function Run(s: Status, evs: seq<Event>): (r: Status)
    ensures evs == [] ==> r == s
    ensures evs != [] ==> (r.loading <==> evs[|evs| - 1].Pending?)
  {
    if evs == [] then s else Step(Run(s, evs[..|evs| - 1]), evs[|evs| - 1])
  }

  /** The error after a run is decided by the last event that is not a
      fulfilment: null after a pending, the payload after a rejection. */
  lemma {:induction false} RunError(s: Status, evs: seq<Event>, i: nat)
    requires i < |evs| && !evs[i].Fulfilled?
    requires forall j :: i < j < |evs| ==> evs[j].Fulfilled?
    ensures Run(s, evs).error == if evs[i].Pending? then Null else evs[i].payload
  {
    if i < |evs| - 1 {
      var front := evs[..|evs| - 1];
      assert forall j :: i < j < |front| ==> front[j] == evs[j];
      RunError(s, front, i);
    }
  }

  /** Fulfilments alone never change the error. */
  lemma {:induction false} RunFulfilledOnly(s: Status, evs: seq<Event>)
    requires forall j :: 0 <= j < |evs| ==> evs[j].Fulfilled?
    ensures Run(s, evs).error == s.error
  {
    if evs != [] {
      var front := evs[..|evs| - 1];
      assert forall j :: 0 <= j < |front| ==> front[j] == evs[j];
      RunFulfilledOnly(s, front);
    }
  }
}

=== FILE: json.dfy ===
/** The JavaScript values the dashboard's records are made of. A record is a
    plain object from property names to primitive values; numbers are
    integers here (see README, "Left out"). */
module Json {
  import Strings
  import opened Wrappers

  datatype Value = Undefined | Null | Bool(b: bool) | Num(n: int) | Str(s: string)

  /** A plain object whose key order no modelled code observes. */
  type Obj = map<string, Value>

  /** `o[k]`: a missing property reads as `undefined`. */
  function Get(o: Obj, k: string): (v: Value)
    ensures k !in o ==> v == Undefined
    ensures k in o ==> v == o[k]
  {
    if k in o then o[k] else Undefined
  }

  /** JavaScript truthiness: `undefined`, `null`, `false`, `0` and `''` are falsy. */
  predicate Truthy(v: Value) {
    match v
    case Undefined => false
    case Null => false
    case Bool(b) => b
    case Num(n) => n != 0
    case Str(s) => s != ""
  }

  /** `{ ...a, ...b }` (also `Object.assign(a, b)` on the values): every key of
      `b` takes `b`'s value, every other key of `a` keeps its value. */
  function Spread(a: Obj, b: Obj): (r: Obj)
    ensures r.Keys == a.Keys + b.Keys
    ensures forall k :: k in b ==> r[k] == b[k]
    ensures forall k :: k in a && k !in b ==> r[k] == a[k]
  {
    a + b
  }

  /** `String(v)`, the property key a value names when it indexes an object. */
  function PropertyKey(v: Value): string {
    match v
    case Undefined => "undefined"
    case Null => "null"
    case Bool(b) => if b then "true" else "false"
    case Num(n) => Strings.IntToString(n)
    case Str(s) => s
  }

  /** The text `Array.prototype.join` writes for an element: nothing for
      `undefined` and `null`, `String(v)` otherwise. */
  function JoinText(v: Value): string {
    match v
    case Undefined => ""
    case Null => ""
    case _ => PropertyKey(v)
  }

  /** What `n + v` adds to a number `n`: `null` and `false` add 0, `true` adds
      1, a number adds itself; `undefined` yields NaN and a string turns the sum
      into text, and both of those are `None`. */
  function Addend(v: Value): (r: Option<int>)
    ensures v.Num? ==> r == Some(v.n)
    ensures v.Undefined? || v.Str? ==> r.None?
  {
    match v
    case Undefined => None
    case Null => Some(0)
    case Bool(b) => Some(if b then 1 else 0)
    case Num(n) => Some(n)
    case Str(_) => None
  }
}

=== FILE: login_page.dfy ===
/** The sign-in and sign-up form's validation schema. Tab 0 signs in and
    tab 1 signs up; the email format test is a parameter `isEmail`. */
module LoginPage {
  import SecurityConfig
  import opened Strings

  datatype LoginValues = LoginValues(email: string, password: string, confirmPassword: string, name: string, tab: int)

  /** The form as it opens. */
  const InitialValues := LoginValues("", "", "", "", 0)

  predicate IsAlphanumeric(c: char) {
    SecurityConfig.IsUpper(c) || SecurityConfig.IsLower(c) || SecurityConfig.IsDigit(c)
  }

  /** `[^A-Za-z0-9]` */
  predicate IsSymbol(c: char) {
    !IsAlphanumeric(c)
  }

  /** `passwordValidation`: present, at least 8 UTF-16 code units, with an upper-case
      letter, a lower-case letter, a digit, and a character that is none of these. */
  predicate PasswordOk(p: string) {
    p != "" && Utf16Length(p) >= 8
    && SecurityConfig.Any(p, SecurityConfig.IsUpper) && SecurityConfig.Any(p, SecurityConfig.IsLower)
    && SecurityConfig.Any(p, SecurityConfig.IsDigit) && SecurityConfig.Any(p, IsSymbol)
  }

  /** The fields the schema rejects. Confirmation and name are checked only
      on the sign-up tab. */
  function LoginErrors(v: LoginValues, isEmail: string -> bool): (r: set<string>)
    ensures "email" in r <==> v.email == "" || !isEmail(v.email)
    ensures "password" in r <==> !PasswordOk(v.password)
    ensures "confirmPassword" in r <==> v.tab == 1 && (v.confirmPassword == "" || v.confirmPassword != v.password)
    ensures "name" in r <==> v.tab == 1 && Utf16Length(v.name) < 2
    ensures r <= {"email", "password", "confirmPassword", "name"}
  {
    (if v.email != "" && isEmail(v.email) then {} else {"email"})
    + (if PasswordOk(v.password) then {} else {"password"})
    + (if v.tab == 1 && (v.confirmPassword == "" || v.confirmPassword != v.password) then {"confirmPassword"} else {})
    + (if v.tab == 1 && Utf16Length(v.name) < 2 then {"name"} else {})
  }

  /** On the sign-in tab the confirmation and the name never matter. */
  lemma SignInIgnoresSignUpFields(v: LoginValues, confirm: string, name: string, isEmail: string -> bool)
    requires v.tab == 0
    ensures LoginErrors(v.(confirmPassword := confirm, name := name), isEmail) == LoginErrors(v, isEmail)
  {
  }

  /** `min` counts UTF-16 code units: a sign-up name of one character beyond
      U+FFFF has two of them and passes, one of a single letter fails. */
  lemma NameCountsCodeUnits(v: LoginValues, isEmail: string -> bool)
    requires v.tab == 1
    ensures v.name == "\U{1F600}" ==> "name" !in LoginErrors(v, isEmail)
    ensures v.name == "A" ==> "name" in LoginErrors(v, isEmail)
  {
  }

  /** Every password the security configuration accepts passes this schema:
      each of its listed symbols is neither letter nor digit. */
  lemma ConfigPasswordPasses(p: string)
    requires SecurityConfig.ValidatePassword(p)
    ensures PasswordOk(p)
  {
    SecurityConfig.ValidatePasswordIff(p);
    var i :| 0 <= i < |p| && p[i] in SecurityConfig.SpecialChars;
    assert IsSymbol(p[i]);
    SecurityConfig.AnyIff(p, IsSymbol);
  }

  /** The converse fails: this schema counts '_' as a symbol and the
      security configuration does not. */
  lemma WiderSymbolRule()
    ensures PasswordOk("Password1_") && !SecurityConfig.ValidatePassword("Password1_")
  {
    var p := "Password1_";
    assert SecurityConfig.IsUpper(p[0]) && SecurityConfig.IsLower(p[1]) && SecurityConfig.IsDigit(p[8]) && IsSymbol(p[9]);
    SecurityConfig.AnyIff(p, SecurityConfig.IsUpper);
    SecurityConfig.AnyIff(p, SecurityConfig.IsLower);
    SecurityConfig.AnyIff(p, SecurityConfig.IsDigit);
    SecurityConfig.AnyIff(p, IsSymbol);
    SecurityConfig.PasswordExamples();
  }
}

=== FILE: marketing_slice.dfy ===
/** The marketing slice of the Redux store: the campaign list, the fetch
    status, the selected campaign and the aggregate e-mail statistics. */
module MarketingSlice {
  import opened Json
  import opened Wrappers
  import opened Records
  import FetchStatus

  /** `initialState.stats`: every total starts at zero. */
  const InitialStats: Obj := map["totalSent" := Num(0), "totalOpened" := Num(0), "totalClicked" := Num(0)]

  class MarketingState {
    var campaigns: seq<Obj>
    var loading: bool
    var error: Value
    /** `selectedCampaign`, with `None` for `null`. */
    var selectedCampaign: Option<Obj>
    var stats: Obj

    function Status(): FetchStatus.Status
      reads this`loading, this`error
    {
      FetchStatus.Status(loading, error)
    }

    /** `initialState`. */
    constructor ()
      ensures campaigns == [] && Status() == FetchStatus.Idle && selectedCampaign == None
      ensures stats == InitialStats
    {
      campaigns := [];
      loading := false;
      error := Null;
      selectedCampaign := None;
      stats := InitialStats;
    }

    /** `setSelectedCampaign`: only the selection changes. */
    method SetSelectedCampaign(payload: Option<Obj>)
      modifies this
      ensures selectedCampaign == payload
      ensures campaigns == old(campaigns) && stats == old(stats) && Status() == old(Status())
    {
      selectedCampaign := payload;
    }

    /** `addCampaign`: the payload goes at the end. */
    method AddCampaign(payload: Obj)
      modifies this
      ensures campaigns == old(campaigns) + [payload]
      ensures selectedCampaign == old(selectedCampaign) && stats == old(stats) && Status() == old(Status())
    {
      campaigns := campaigns + [payload];
    }

    /** `updateCampaign`: the first campaign with the payload's id becomes the payload. */
    method UpdateCampaign(payload: Obj)
      modifies this
      ensures campaigns == ReplaceFirst(old(campaigns), payload)
      ensures selectedCampaign == old(selectedCampaign) && stats == old(stats) && Status() == old(Status())
    {
      var index := FindIndex(campaigns, Get(payload, "id"));
      if index.Some? {
        campaigns := campaigns[index.value := payload];
      }
    }

    /** `deleteCampaign`: every campaign with the id is filtered out. */
    method DeleteCampaign(id: Value)
      modifies this
      ensures campaigns == RemoveId(old(campaigns), id)
      ensures selectedCampaign == old(selectedCampaign) && stats == old(stats) && Status() == old(Status())
    {
      campaigns := RemoveId(campaigns, id);
    }

    /** `updateStats`: the payload's keys overwrite, the other totals stay. */
    method UpdateStats(payload: Obj)
      modifies this
      ensures stats == Spread(old(stats), payload)
      ensures campaigns == old(campaigns) && selectedCampaign == old(selectedCampaign) && Status() == old(Status())
    {
      stats := Spread(stats, payload);
    }

    /** `fetchCampaigns.pending`. */
    method FetchPending()
      modifies this
      ensures Status() == FetchStatus.Step(old(Status()), FetchStatus.Pending)
      ensures campaigns == old(campaigns) && selectedCampaign == old(selectedCampaign) && stats == old(stats)
    {
      loading := true;
      error := Null;
    }

    /** `fetchCampaigns.fulfilled`: the payload becomes the list; the error is kept. */
    method FetchFulfilled(payload: seq<Obj>)
      modifies this
      ensures Status() == FetchStatus.Step(old(Status()), FetchStatus.Fulfilled)
      ensures campaigns == payload && selectedCampaign == old(selectedCampaign) && stats == old(stats)
    {
      loading := false;
      campaigns := payload;
    }

    /** `fetchCampaigns.rejected`. */
    method FetchRejected(payload: Value)
      modifies this
      ensures Status() == FetchStatus.Step(old(Status()), FetchStatus.Rejected(payload))
      ensures campaigns == old(campaigns) && selectedCampaign == old(selectedCampaign) && stats == old(stats)
    {
      loading := false;
      error := payload;
    }
  }
}

=== FILE: mock_api.dfy ===
/** The in-memory mock REST layer: a module-level store of deals (by stage),
    contacts and campaigns that every call reads and mutates in place. The
    artificial delays are left out; each call is one atomic step. */
module MockApi {
  import opened Json
  import opened Wrappers
  import opened Records
  import opened DealBoard
  import Access


  /** `{ success: true }`, the reply of every delete. */
  const Success: Obj := map["success" := Bool(true)]

  /** `auth.login(credentials)`: only the built-in administrator gets in. */
  function Login(credentials: Obj): (r: Result<Obj>)
    ensures r.Ok? <==> Get(credentials, "email") == Str("admin@example.com") && Get(credentials, "password") == Str("admin123")
    ensures r.Err? ==> r.error == "Invalid credentials"
    ensures r.Ok? ==> Get(r.value, "email") == Get(credentials, "email") && Get(r.value, "role") == Str("admin")
  {
    if Get(credentials, "email") == Str("admin@example.com") && Get(credentials, "password") == Str("admin123")
    then Ok(map["id" := Num(1), "email" := Get(credentials, "email"), "name" := Str("Admin User"), "role" := Str("admin")])
    else Err("Invalid credentials")
  }

  function SeedDeal(id: int, name: string, value: int, company: string, stage: string, priority: string, now: Value): Obj {
    map["id" := Num(id), "name" := Str(name), "value" := Num(value), "company" := Str(company),
        "stage" := Str(stage), "priority" := Str(priority), "createdAt" := now]
  }

  /** The shared seed board: four stages with one or two deals each. */
  function SeedDeals(now: Value): (b: Board)
    ensures WellFormed(b)
  {
    Board(["Lead", "Meeting Scheduled", "Proposal Sent", "Negotiation"], map[
      "Lead" := [SeedDeal(1, "Software License Deal", 15000, "Tech Corp", "Lead", "high", now),
                 SeedDeal(2, "Consulting Project", 8000, "Innovation Inc", "Lead", "medium", now)],
      "Meeting Scheduled" := [SeedDeal(3, "Enterprise Package", 45000, "Big Corp", "Meeting Scheduled", "high", now)],
      "Proposal Sent" := [SeedDeal(4, "Annual Contract", 28000, "Growth Ltd", "Proposal Sent", "medium", now)],
      "Negotiation" := [SeedDeal(5, "Custom Development", 60000, "Major Inc", "Negotiation", "high", now)]])
  }

  const SeedContacts: seq<Obj> := [map["id" := Num(1), "name" := Str("John Doe"), "email" := Str("john.doe@example.com"),
    "phone" := Str("+1 234 567 890"), "company" := Str("Tech Corp"), "status" := Str("Active"), "type" := Str("Customer")]]

  function SeedCampaigns(now: Value): seq<Obj> {
    [map["id" := Num(1), "name" := Str("Summer Sale Newsletter"), "status" := Str("Active"), "progress" := Num(75),
      "sent" := Num(1500), "opened" := Num(720), "clicked" := Num(250), "scheduledFor" := now]]
  }

  /** `{ id: max + 1, ...data, createdAt: new Date() }` for `deals.create`. */
  function CreatedDeal(b: Board, data: Obj, now: Value): (d: Obj)
    requires WellFormed(b) && |Flat(b)| > 0 && NumericIds(Flat(b))
    ensures Get(d, "createdAt") == now
  {
    WithId(NextId(Flat(b)), data)["createdAt" := now]
  }

  /** A created deal whose data carries no id has an id new to the board, so
      pushing it keeps ids unique and adds exactly one deal. */
  lemma CreatedDealFresh(b: Board, data: Obj, now: Value)
    requires WellFormed(b) && |Flat(b)| > 0 && NumericIds(Flat(b)) && UniqueIds(b) && "id" !in data
    requires PropertyKey(Get(data, "stage")) in b.lists
    ensures var d := CreatedDeal(b, data, now);
      var r := Assign(b, PropertyKey(Get(data, "stage")), b.lists[PropertyKey(Get(data, "stage"))] + [d]);
      !ListHas(Flat(b), Get(d, "id")) && |Flat(r)| == |Flat(b)| + 1 && UniqueIds(r)
  {
    var d := CreatedDeal(b, data, now);
    WithNextIdFresh(Flat(b), data);
    assert Get(d, "id") == Get(WithId(NextId(Flat(b)), data), "id");
    AppendFreshDeal(b, PropertyKey(Get(data, "stage")), d);
  }

  /** The campaign figures `campaigns.getStats` reports. */
  function Stats(c: Obj): (r: Obj)
    ensures r.Keys == {"sent", "opened", "clicked"}
    ensures forall k :: k in r ==> r[k] == Get(c, k)
  {
    map["sent" := Get(c, "sent"), "opened" := Get(c, "opened"), "clicked" := Get(c, "clicked")]
  }

  /** The stage-by-stage filtering loop of `deals.delete`. */
  method FilterStages(b: Board, id: Value) returns (r: Board)
    requires WellFormed(b)
    ensures r == RemoveEverywhere(b, id)
  {
    var keys, lists := b.order, b.lists;
    var i := 0;
    while i < |keys|
      invariant i <= |keys| && lists.Keys == b.lists.Keys
      invariant forall j :: 0 <= j < |keys| ==>
        lists[keys[j]] == if j < i then RemoveId(b.lists[keys[j]], id) else b.lists[keys[j]]
    {
      var stage := keys[i];
      assert forall j :: 0 <= j < |keys| && j != i ==> keys[j] != stage;
      lists := lists[stage := RemoveId(lists[stage], id)];
      i := i + 1;
    }
    EveryStageRemoved(b, lists, id);
    r := Board(keys, lists);
  }

  class MockStore {
    var deals: Board
    var contacts: seq<Obj>
    var campaigns: seq<Obj>

    predicate Valid()
      reads this`deals
    {
      WellFormed(deals)
    }

    /** The store as the module loads it; `now` is the load time. */
    constructor (now: Value)
      ensures Valid() && deals == SeedDeals(now) && contacts == SeedContacts && campaigns == SeedCampaigns(now)
    {
      deals := SeedDeals(now);
      contacts := SeedContacts;
      campaigns := SeedCampaigns(now);
    }

    /** `deals.getById(id)`: the first deal with the id over all stages in key order. */
    method GetDealById(id: Value) returns (r: Result<Obj>)
      requires Valid()
      ensures r == FindOrFail(Flat(deals), id, "Deal not found")
    {
      r := FindOrFail(Flat(deals), id, "Deal not found");
    }

    /** `deals.create(data)`: a deal with the next id pushed onto the stage its
        data names; a stage without a key throws. `Math.max()` of no ids is
        `-Infinity`, which is not an integer, so the board must hold a deal. */
    method CreateDeal(data: Obj, now: Value) returns (r: Result<Obj>)
      requires Valid() && |Flat(deals)| > 0 && NumericIds(Flat(deals))
      modifies this
      ensures Valid()
      ensures var key := PropertyKey(Get(data, "stage"));
        (r.Ok? <==> key in old(deals).lists) &&
        (r.Ok? ==> r.value == CreatedDeal(old(deals), data, now) &&
                   deals == Assign(old(deals), key, old(deals).lists[key] + [r.value])) &&
        (r.Err? ==> r.error == Access.TypeError && deals == old(deals))
      ensures contacts == old(contacts) && campaigns == old(campaigns)
    {
      var newDeal := CreatedDeal(deals, data, now);
      var key := PropertyKey(Get(data, "stage"));
      if key !in deals.lists {
        return Err(Access.TypeError);
      }
      deals := Assign(deals, key, deals.lists[key] + [newDeal]);
      r := Ok(newDeal);
    }

    /** `deals.update(id, data)`: `Object.assign` on the first deal with the id,
        which is updated where it sits on the board. */
    method UpdateDeal(id: Value, data: Obj) returns (r: Result<Obj>)
      requires Valid()
      modifies this
      ensures Valid()
      ensures r.Ok? <==> ListHas(Flat(old(deals)), id)
      ensures r.Err? ==> r.error == "Deal not found" && deals == old(deals)
      ensures r.Ok? ==>
        FirstStageWith(old(deals).order, old(deals).lists, id).Some? &&
        deals == MergeDeal(old(deals), id, data) && r.value == Spread(Find(Flat(old(deals)), id).value, data)
      ensures contacts == old(contacts) && campaigns == old(campaigns)
    {
      FindInFlat(deals.order, deals.lists, id);
      var f := FirstStageWith(deals.order, deals.lists, id);
      if f.None? {
        AbsentFromFlat(deals.order, deals.lists, id);
        CountIdPositive(Flat(deals), id);
        return Err("Deal not found");
      }
      var k := f.value;
      var i := FindIndex(deals.lists[k], id).value;
      deals := Assign(deals, k, MergeAt(deals.lists[k], i, data));
      r := Ok(deals.lists[k][i]);
    }

    /** `deals.delete(id)`: every stage filtered in turn; it reports success
        whether or not the id was there. */
    method DeleteDeal(id: Value) returns (r: Obj)
      requires Valid()
      modifies this`deals
      ensures Valid()
      ensures deals == RemoveEverywhere(old(deals), id) && r == Success
      ensures contacts == old(contacts) && campaigns == old(campaigns)
    {
      deals := FilterStages(deals, id);
      r := Success;
    }

    /** `contacts.getById(id)`. */
    method GetContactById(id: Value) returns (r: Result<Obj>)
      ensures r == FindOrFail(contacts, id, "Contact not found")
    {
      r := FindOrFail(contacts, id, "Contact not found");
    }

    /** `contacts.create(data)`: the contact with the next id goes at the end.
        `Math.max()` of no ids is `-Infinity`, which is not an integer,
        so there must be a contact. */
    method CreateContact(data: Obj) returns (r: Obj)
      requires |contacts| > 0 && NumericIds(contacts)
      modifies this
      ensures r == WithId(NextId(old(contacts)), data) && contacts == old(contacts) + [r]
      ensures deals == old(deals) && campaigns == old(campaigns)
    {
      r := WithId(NextId(contacts), data);
      contacts := contacts + [r];
    }

    /** `contacts.update(id, data)`: the data merged into the first contact with the id. */
    method UpdateContact(id: Value, data: Obj) returns (r: Result<Obj>)
      modifies this
      ensures r.Ok? <==> ListHas(old(contacts), id)
      ensures r.Err? ==> r.error == "Contact not found" && contacts == old(contacts)
      ensures r.Ok? ==> var i := FindIndex(old(contacts), id).value;
        contacts == MergeAt(old(contacts), i, data) && r.value == contacts[i]
      ensures deals == old(deals) && campaigns == old(campaigns)
    {
      var index := FindIndex(contacts, id);
      if index.None? {
        return Err("Contact not found");
      }
      contacts := contacts[index.value := Spread(contacts[index.value], data)];
      r := Ok(contacts[index.value]);
    }

    /** `contacts.delete(id)`: every contact with the id filtered out; always a success. */
    method DeleteContact(id: Value) returns (r: Obj)
      modifies this
      ensures contacts == RemoveId(old(contacts), id) && r == Success
      ensures deals == old(deals) && campaigns == old(campaigns)
    {
      contacts := RemoveId(contacts, id);
      r := Success;
    }

    /** `campaigns.getById(id)`. */
    method GetCampaignById(id: Value) returns (r: Result<Obj>)
      ensures r == FindOrFail(campaigns, id, "Campaign not found")
    {
      r := FindOrFail(campaigns, id, "Campaign not found");
    }

    /** `campaigns.create(data)`, as for contacts. */
    method CreateCampaign(data: Obj) returns (r: Obj)
      requires |campaigns| > 0 && NumericIds(campaigns)
      modifies this
      ensures r == WithId(NextId(old(campaigns)), data) && campaigns == old(campaigns) + [r]
      ensures deals == old(deals) && contacts == old(contacts)
    {
      r := WithId(NextId(campaigns), data);
      campaigns := campaigns + [r];
    }

    /** `campaigns.update(id, data)`. */
    method UpdateCampaign(id: Value, data: Obj) returns (r: Result<Obj>)
      modifies this
      ensures r.Ok? <==> ListHas(old(campaigns), id)
      ensures r.Err? ==> r.error == "Campaign not found" && campaigns == old(campaigns)
      ensures r.Ok? ==> var i := FindIndex(old(campaigns), id).value;
        campaigns == MergeAt(old(campaigns), i, data) && r.value == campaigns[i]
      ensures deals == old(deals) && contacts == old(contacts)
    {
      var index := FindIndex(campaigns, id);
      if index.None? {
        return Err("Campaign not found");
      }
      campaigns := campaigns[index.value := Spread(campaigns[index.value], data)];
      r := Ok(campaigns[index.value]);
    }

    /** `campaigns.delete(id)`. */
    method DeleteCampaign(id: Value) returns (r: Obj)
      modifies this
      ensures campaigns == RemoveId(old(campaigns), id) && r == Success
      ensures deals == old(deals) && contacts == old(contacts)
    {
      campaigns := RemoveId(campaigns, id);
      r := Success;
    }

    /** `campaigns.getStats(id)`: the sent, opened and clicked figures of the
        first campaign with the id. */
    method GetCampaignStats(id: Value) returns (r: Result<Obj>)
      ensures r.Ok? <==> ListHas(campaigns, id)
      ensures r.Err? ==> r.error == "Campaign not found"
      ensures r.Ok? ==> r.value == Stats(Find(campaigns, id).value)
    {
      var campaign := Find(campaigns, id);
      if campaign.None? {
        return Err("Campaign not found");
      }
      r := Ok(Stats(campaign.value));
    }
  }

  /** Deleting a deal leaves the board's deals minus every deal with the id, in order. */
  lemma DeleteDealFlat(b: Board, id: Value)
    requires WellFormed(b)
    ensures Flat(RemoveEverywhere(b, id)) == RemoveId(Flat(b), id)
    ensures !ListHas(Flat(RemoveEverywhere(b, id)), id)
  {
    var r := RemoveEverywhere(b, id);
    RemoveEverywhereFlat(b.order, b.lists, r.lists, id);
    RemoveIdCount(Flat(b), id, id);
    CountIdPositive(Flat(r), id);
  }

  /** An update whose data has no `id` keeps the set of ids on the board. */
  lemma UpdateDealKeepsIds(b: Board, id: Value, data: Obj, x: Value)
    requires WellFormed(b) && FirstStageWith(b.order, b.lists, id).Some? && "id" !in data
    ensures CountId(Flat(MergeDeal(b, id, data)), x) == CountId(Flat(b), x)
  {
    MergeDealFlat(b, id, data);
    MergeAtKeepsIds(Flat(b), FindIndex(Flat(b), id).value, data, x);
  }
}

=== FILE: opportunity_form.dfy ===
/** The opportunity dialog's validation schema and blank form. The date
    test of the schema library is a parameter `isDate`. */
module OpportunityForm {
  import opened Json
  import opened Yup

  const OpportunityFields: set<string> := {"name", "company", "value", "stage", "probability", "nextAction", "nextActionDate"}

  /** Whether `field` of an opportunity passes the schema. */
  predicate FieldOk(isDate: string -> bool, field: string, v: Value) {
    match field
    case "value" => NumberAtLeast(v, 0)
    case "probability" => NumberBetween(v, 0, 100)
    case "nextActionDate" => RequiredText(v) && isDate(v.s)
    case _ => RequiredText(v)
  }

  /** The fields the schema rejects: name, company, stage and next action
      must be non-empty text, value a number of at least 0, probability a
      number from 0 to 100, and the next action date a date. */
  function OpportunityErrors(o: Obj, isDate: string -> bool): (r: set<string>)
    ensures forall f :: f in {"name", "company", "stage", "nextAction"} ==> (f in r <==> !RequiredText(Get(o, f)))
    ensures "value" in r <==> !(Get(o, "value").Num? && Get(o, "value").n >= 0)
    ensures "probability" in r <==> !(Get(o, "probability").Num? && 0 <= Get(o, "probability").n <= 100)
    ensures "nextActionDate" in r <==> !(RequiredText(Get(o, "nextActionDate")) && isDate(Get(o, "nextActionDate").s))
    ensures r <= OpportunityFields
  {
    Failing(o, OpportunityFields, (f, v) => FieldOk(isDate, f, v))
  }

  /** The form opened without an opportunity; `today` is the current date as 'YYYY-MM-DD'. */
  function DefaultOpportunity(today: string): Obj {
    map["name" := Str(""), "company" := Str(""), "value" := Str(""), "stage" := Str("new"),
        "probability" := Num(0), "nextAction" := Str(""), "nextActionDate" := Str(today), "description" := Str("")]
  }

  /** Untouched, the form fails on name, company, value and next action; its
      stage 'new' and probability 0 pass. */
  lemma DefaultOpportunityErrors(today: string, isDate: string -> bool)
    requires today != "" && isDate(today)
    ensures OpportunityErrors(DefaultOpportunity(today), isDate) == {"name", "company", "value", "nextAction"}
  {
  }

  /** Both ends of the probability range pass and nothing beyond them does;
      any non-empty stage passes, whether or not the menu offers it. */
  lemma OpportunityRules(o: Obj, p: int, stage: string, isDate: string -> bool)
    requires stage != ""
    ensures "probability" in OpportunityErrors(o["probability" := Num(p)], isDate) <==> p < 0 || p > 100
    ensures "stage" !in OpportunityErrors(o["stage" := Str(stage)], isDate)
  {
  }
}

=== FILE: opportunity_management.dfy ===
/** The opportunity page: logging an activity against an opportunity and the
    health label computed from the time since its first listed activity.
    Dates are milliseconds since the epoch; the current time is a parameter. */
module OpportunityManagement {
  import opened Json

  datatype Activity = Activity(kind: string, description: string, date: int)

  /** An opportunity: its id, its activity list, and its other properties. */
  datatype Opportunity = Opportunity(id: Value, details: Obj, activities: seq<Activity>)

  /** Milliseconds in a day, `1000 * 60 * 60 * 24`. */
  const DayMs := 86400000

  /** The opportunity the page opens with; dates are UTC midnights. */
  const InitialOpportunities: seq<Opportunity> := [
    Opportunity(Num(1),
      map["name" := Str("Enterprise Software Deal"), "company" := Str("Tech Corp"), "value" := Num(50000),
          "stage" := Str("Negotiation"), "probability" := Num(75), "expectedCloseDate" := Num(1710460800000),
          "nextAction" := Str("Follow-up meeting"), "nextActionDate" := Num(1706745600000)],
      [Activity("email", "Sent proposal", 1705276800000), Activity("call", "Discovery call", 1704844800000)])]

  /** `handleAddActivity(oppId, activity)`: the activity goes at the end of
      every opportunity with that id; everything else is unchanged. */
  function AddActivity(opps: seq<Opportunity>, oppId: Value, activity: Activity): (r: seq<Opportunity>)
    ensures |r| == |opps|
    ensures forall i :: 0 <= i < |opps| && opps[i].id != oppId ==> r[i] == opps[i]
    ensures forall i :: 0 <= i < |opps| && opps[i].id == oppId ==>
      r[i].id == oppId && r[i].details == opps[i].details &&
      |r[i].activities| == |opps[i].activities| + 1 &&
      r[i].activities[..|opps[i].activities|] == opps[i].activities &&
      r[i].activities[|opps[i].activities|] == activity
  {
    seq(|opps|, i requires 0 <= i < |opps| =>
      if opps[i].id == oppId then opps[i].(activities := opps[i].activities + [activity]) else opps[i])
  }

  /** `Math.floor(ms / (1000 * 60 * 60 * 24))`: whole days, rounded down also for a negative span. */
  function WholeDays(ms: int): (r: int)
    ensures r * DayMs <= ms < (r + 1) * DayMs
  {
    ms / DayMs
  }

  datatype Health = Healthy | Warning | AtRisk

  /** How bad a label is, for comparing labels. */
  function Severity(h: Health): nat {
    match h
    case Healthy => 0
    case Warning => 1
    case AtRisk => 2
  }

  /** The thresholds of `calculateHealth` on a day count. */
  function HealthOfDays(days: int): (r: Health)
    ensures r == AtRisk <==> days > 14
    ensures r == Warning <==> 7 < days <= 14
    ensures r == Healthy <==> days <= 7
  {
    if days > 14 then AtRisk else if days > 7 then Warning else Healthy
  }

  /** `calculateHealth(opp)` at time `today`. The days are counted from
      `activities[0]`; with no activity that date is invalid, the day count is
      `NaN`, both comparisons fail, and the label is 'healthy'. */
  function CalculateHealth(opp: Opportunity, today: int): (r: Health)
    ensures opp.activities == [] ==> r == Healthy
    ensures opp.activities != [] ==>
      (r == AtRisk <==> today - opp.activities[0].date >= 15 * DayMs) &&
      (r == Healthy <==> today - opp.activities[0].date < 8 * DayMs)
  {
    if opp.activities == [] then Healthy
    else HealthOfDays(WholeDays(today - opp.activities[0].date))
  }

  /** More days never give a better label. */
  lemma HealthMonotone(d1: int, d2: int)
    requires d1 <= d2
    ensures Severity(HealthOfDays(d1)) <= Severity(HealthOfDays(d2))
  {
  }

  /** Rounding down keeps the order of spans. */
  lemma WholeDaysMonotone(a: int, b: int)
    requires a <= b
    ensures WholeDays(a) <= WholeDays(b)
  {
  }

  /** As time passes an opportunity's label never improves. */
  lemma HealthWorsensOverTime(opp: Opportunity, t1: int, t2: int)
    requires t1 <= t2
    ensures Severity(CalculateHealth(opp, t1)) <= Severity(CalculateHealth(opp, t2))
  {
    if opp.activities != [] {
      WholeDaysMonotone(t1 - opp.activities[0].date, t2 - opp.activities[0].date);
      HealthMonotone(WholeDays(t1 - opp.activities[0].date), WholeDays(t2 - opp.activities[0].date));
    }
  }

  /** An activity logged on an opportunity that already has one leaves its
      label as it was, however recent the new activity is: the label reads the
      first activity and the new one goes last. */
  lemma AddActivityKeepsHealth(opps: seq<Opportunity>, oppId: Value, activity: Activity, today: int)
    ensures forall i :: 0 <= i < |opps| && opps[i].activities != [] ==>
      CalculateHealth(AddActivity(opps, oppId, activity)[i], today) == CalculateHealth(opps[i], today)
  {
    var r := AddActivity(opps, oppId, activity);
    forall i | 0 <= i < |opps| && opps[i].activities != []
      ensures CalculateHealth(r[i], today) == CalculateHealth(opps[i], today)
    {
      if opps[i].id == oppId {
        assert r[i].activities[0] == r[i].activities[..|opps[i].activities|][0];
      }
    }
  }
}

=== FILE: pipeline_board.dfy ===
/** The pipeline board's local state updates: the optimistic move of a dragged
    deal to a position in a stage, the value of a stage and the share of all
    deals a stage holds. The remote call that follows the move, and the reload
    when it fails, are not part of this model. */
module PipelineBoard {
  import opened Json
  import opened Wrappers
  import opened Records
  import opened DealBoard
  import Access
  import StageColumn


  /** `[...l.slice(0, pos), d, ...l.slice(pos)]`: `slice` clamps `pos` to the length. */
  function InsertAt(l: seq<Obj>, pos: nat, d: Obj): (r: seq<Obj>)
    ensures |r| == |l| + 1
    ensures var p := if pos < |l| then pos else |l|;
      r[p] == d && (forall i :: 0 <= i < p ==> r[i] == l[i]) && (forall i :: p < i < |r| ==> r[i] == l[i - 1])
  {
    var p := if pos < |l| then pos else |l|;
    l[..p] + [d] + l[p..]
  }

  lemma InsertAtCount(l: seq<Obj>, pos: nat, d: Obj, x: Value)
    ensures CountId(InsertAt(l, pos, d), x) == CountId(l, x) + CountId([d], x)
  {
    var p := if pos < |l| then pos else |l|;
    CountIdAppend(l[..p] + [d], l[p..], x);
    CountIdAppend(l[..p], [d], x);
    CountIdAppend(l[..p], l[p..], x);
    assert l[..p] + l[p..] == l;
  }

  /** `handleDragEnd(result)`, its local part: no destination changes nothing;
      otherwise the deal is filtered out of the source stage and inserted into
      the (already filtered, when it is the same) destination stage at the drop
      index. A destination without a key throws. The drag library reports only
      drags of a card rendered in the source column, so the deal is there. */
  function HandleDragEnd(b: Board, dealId: Value, source: string, dest: Option<(string, nat)>): (r: Result<Board>)
    requires WellFormed(b) && source in b.lists && ListHas(b.lists[source], dealId)
    ensures dest.None? ==> r == Ok(b)
    ensures dest.Some? ==> (r.Ok? <==> dest.value.0 in b.lists)
    ensures r.Ok? ==> WellFormed(r.value) && r.value.order == b.order
  {
    if dest.None? then Ok(b)
    else
      var deal := Find(b.lists[source], dealId).value;
      var b1 := Assign(b, source, RemoveId(b.lists[source], dealId));
      var (k, pos) := dest.value;
      if k !in b1.lists then Err(Access.TypeError)
      else Ok(Assign(b1, k, InsertAt(b1.lists[k], pos, deal)))
  }

  /** After a drop the deal sits at the clamped drop index of the destination;
      the source keeps none of its deals with that id unless it is the
      destination; a move within one stage is a reorder that keeps the length
      when the id occurs once there; no other stage changes. */
  lemma DragEndSpec(b: Board, dealId: Value, source: string, k: string, pos: nat)
    requires WellFormed(b) && source in b.lists && ListHas(b.lists[source], dealId) && k in b.lists
    ensures var r := HandleDragEnd(b, dealId, source, Some((k, pos))).value;
      var deal := Find(b.lists[source], dealId).value;
      var before := if k == source then RemoveId(b.lists[source], dealId) else b.lists[k];
      var p := if pos < |before| then pos else |before|;
      r.lists[k] == InsertAt(before, pos, deal) && r.lists[k][p] == deal && HasId(deal, dealId) &&
      (k != source ==> !ListHas(r.lists[source], dealId)) &&
      (k == source && CountId(b.lists[k], dealId) == 1 ==> |r.lists[k]| == |b.lists[k]|) &&
      forall j :: j in b.lists && j != k && j != source ==> r.lists[j] == b.lists[j]
  {
    var r := HandleDragEnd(b, dealId, source, Some((k, pos))).value;
    if k != source {
      CountIdPositive(r.lists[source], dealId);
      RemoveIdCount(b.lists[source], dealId, dealId);
    }
  }

  /** With unique ids, a drop keeps the number of deals on the board and the
      uniqueness of ids, and the deal ends up in the destination only. */
  lemma DragEndKeepsCount(b: Board, dealId: Value, source: string, k: string, pos: nat)
    requires WellFormed(b) && UniqueIds(b) && source in b.lists && ListHas(b.lists[source], dealId) && k in b.lists
    ensures var r := HandleDragEnd(b, dealId, source, Some((k, pos))).value;
      |Flat(r)| == |Flat(b)| && UniqueIds(r) && CountId(Flat(r), dealId) == 1 && ListHas(r.lists[k], dealId)
  {
    var r := HandleDragEnd(b, dealId, source, Some((k, pos))).value;
    var deal := Find(b.lists[source], dealId).value;
    var b1 := Assign(b, source, RemoveId(b.lists[source], dealId));
    CountIdPositive(b.lists[source], dealId);
    StageWithinFlat(b.order, b.lists, source, dealId);
    assert [deal][1..] == [];
    forall x ensures CountId(Flat(r), x) == if x == dealId then 1 else CountId(Flat(b), x) {
      FlatAssignExisting(b, source, RemoveId(b.lists[source], dealId), x);
      RemoveIdCount(b.lists[source], dealId, x);
      FlatAssignExisting(b1, k, InsertAt(b1.lists[k], pos, deal), x);
      InsertAtCount(b1.lists[k], pos, deal, x);
    }
    FlatAssignExisting(b, source, RemoveId(b.lists[source], dealId), dealId);
    FlatAssignExisting(b1, k, InsertAt(b1.lists[k], pos, deal), dealId);
    InsertAtCount(b1.lists[k], pos, deal, dealId);
    CountIdPositive(r.lists[k], dealId);
  }

  /** `calculateStageValue(deals)`: `reduce((sum, d) => sum + d.value, 0)`;
      `None` once some value makes the sum NaN or text. */
  function StageValue(deals: seq<Obj>): (r: Option<int>)
    ensures deals == [] ==> r == Some(0)
  {
    if deals == [] then Some(0)
    else
      match (StageValue(deals[..|deals| - 1]), Addend(Get(deals[|deals| - 1], "value")))
      case (Some(s), Some(v)) => Some(s + v)
      case _ => None
  }

  /** With every value a number, a stage is worth the sum of its deals' values. */
  lemma {:induction false} StageValueNumeric(deals: seq<Obj>)
    requires forall i :: 0 <= i < |deals| ==> Get(deals[i], "value").Num?
    ensures StageValue(deals) == Some(StageColumn.SumNumbers(deals))
  {
    if deals != [] {
      var front := deals[..|deals| - 1];
      assert forall i :: 0 <= i < |front| ==> front[i] == deals[i];
      StageValueNumeric(front);
    }
  }

  /** One missing or text value makes the sum NaN or text, and the stage has no number. */
  lemma {:induction false} StageValueUnreadable(deals: seq<Obj>, i: nat)
    requires i < |deals|
    requires Get(deals[i], "value").Undefined? || Get(deals[i], "value").Str?
    ensures StageValue(deals).None?
  {
    if i < |deals| - 1 {
      var front := deals[..|deals| - 1];
      assert front[i] == deals[i];
      StageValueUnreadable(front, i);
    }
  }

  /** The value of two lists together is the sum of their values. */
  lemma {:induction false} StageValueAppend(a: seq<Obj>, b: seq<Obj>)
    ensures StageValue(a + b) ==
      if StageValue(a).Some? && StageValue(b).Some? then Some(StageValue(a).value + StageValue(b).value) else None
  {
    if b == [] {
      assert a + b == a;
    } else {
      var b' := b[..|b| - 1];
      assert (a + b)[..|a + b| - 1] == a + b';
      assert (a + b)[|a + b| - 1] == b[|b| - 1];
      StageValueAppend(a, b');
    }
  }

  /** `getStageProgress(stageId)`: the stage's share of all deals in percent,
      with a missing stage counted as empty and 0 when there are no deals. */
  function StageProgress(b: Board, stageId: string): (r: real)
    requires WellFormed(b)
    ensures |Flat(b)| == 0 ==> r == 0.0
  {
    var stageDeals := if stageId in b.lists then b.lists[stageId] else [];
    var total := |Flat(b)|;
    if total != 0 then (|stageDeals| as real / total as real) * 100.0 else 0.0
  }

  /** A stage's share lies between 0 and 100 percent. */
  lemma StageProgressBounds(b: Board, stageId: string)
    requires WellFormed(b)
    ensures 0.0 <= StageProgress(b, stageId) <= 100.0
  {
    if stageId in b.lists {
      StageWithinFlat(b.order, b.lists, stageId, Undefined);
    }
    var n := if stageId in b.lists then |b.lists[stageId]| else 0;
    if |Flat(b)| != 0 {
      PercentBounds(n, |Flat(b)|);
    }
  }

  lemma PercentBounds(n: nat, t: nat)
    requires 0 < t && n <= t
    ensures 0.0 <= (n as real / t as real) * 100.0 <= 100.0
  {
    var q := n as real / t as real;
    assert q * t as real == n as real;
  }
}

=== FILE: rbac.dfy ===
/** The role table of the route guard and its permission check. */
module Rbac {
  import opened Json
  import opened Wrappers
  import opened Access

  /** `roles` */
  const Roles: Table := map[
    "admin" := ["read", "write", "delete", "manage_users"],
    "manager" := ["read", "write"],
    "user" := ["read"]]

  /** `checkPermission(userRole, requiredPermission)`: a falsy role, or one
      the table does not hold, has no permission; a role the table holds has
      exactly the permissions listed for it. A role naming a property every
      object inherits reaches a function without `includes`, and the call throws. */
  function CheckPermission(role: Value, permission: Value): (r: Result<bool>)
    ensures !Truthy(role) ==> r == Ok(false)
    ensures Truthy(role) && PropertyKey(role) in Roles ==> r == Ok(Includes(Roles[PropertyKey(role)], permission))
    ensures PropertyKey(role) !in Roles && PropertyKey(role) !in InheritedNames ==> r == Ok(false)
    ensures r.Err? <==> Truthy(role) && PropertyKey(role) !in Roles && PropertyKey(role) in InheritedNames
  {
    if !Truthy(role) then Ok(false) else Granted(Roles, role, permission)
  }

  /** What each role may do: admin reads, writes, deletes and manages users;
      manager only reads and writes; user only reads; 'guest' is no role here. */
  lemma RoleTable(permission: string)
    ensures CheckPermission(Str("admin"), Str(permission)) == Ok(permission in {"read", "write", "delete", "manage_users"})
    ensures CheckPermission(Str("manager"), Str(permission)) == Ok(permission in {"read", "write"})
    ensures CheckPermission(Str("user"), Str(permission)) == Ok(permission == "read")
    ensures CheckPermission(Str("guest"), Str(permission)) == Ok(false)
  {
  }

  /** Every permission of a lower role is one of the higher role's: user within manager within admin. */
  lemma RolesNested(permission: Value)
    ensures CheckPermission(Str("user"), permission) == Ok(true) ==> CheckPermission(Str("manager"), permission) == Ok(true)
    ensures CheckPermission(Str("manager"), permission) == Ok(true) ==> CheckPermission(Str("admin"), permission) == Ok(true)
  {
  }

  /** `'constructor'` names no role, yet the check throws instead of denying. */
  lemma InheritedRoleThrows(permission: Value)
    ensures CheckPermission(Str("constructor"), permission).Err?
  {
  }
}

=== FILE: records.dfy ===
/** Lists of records keyed by an `id` property, and the array operations the
    stores apply to them: `find`/`findIndex` by id, `filter` by id, index
    assignment, `splice`, and id allocation by `Math.max(...ids) + 1`. */
module Records {
  import opened Json
  import opened Wrappers

  /** `d.id === id` */
  predicate HasId(d: Obj, id: Value) {
    Get(d, "id") == id
  }

  /** `s.some(d => d.id === id)` */
  predicate ListHas(s: seq<Obj>, id: Value) {
    exists i :: 0 <= i < |s| && HasId(s[i], id)
  }

  /** How many records of `s` carry the id. */
  function CountId(s: seq<Obj>, id: Value): nat {
    if s == [] then 0 else (if HasId(s[0], id) then 1 else 0) + CountId(s[1..], id)
  }

  lemma {:induction false} CountIdAppend(a: seq<Obj>, b: seq<Obj>, id: Value)
    ensures CountId(a + b, id) == CountId(a, id) + CountId(b, id)
  {
    if a == [] {
      assert a + b == b;
    } else {
      CountIdAppend(a[1..], b, id);
      assert (a + b)[1..] == a[1..] + b;
    }
  }

  /** The id occurs in the list exactly when it is counted at least once. */
  lemma {:induction false} CountIdPositive(s: seq<Obj>, id: Value)
    ensures ListHas(s, id) <==> CountId(s, id) > 0
  {
    if s != [] {
      CountIdPositive(s[1..], id);
      if ListHas(s[1..], id) {
        var i :| 0 <= i < |s[1..]| && HasId(s[1..][i], id);
        assert HasId(s[i + 1], id);
      }
      if ListHas(s, id) && !HasId(s[0], id) {
        var i :| 0 <= i < |s| && HasId(s[i], id);
        assert HasId(s[1..][i - 1], id);
      }
    }
  }

  /** `s.filter(d => d.id !== id)`: the records without the id, in their order. */
  function RemoveId(s: seq<Obj>, id: Value): (r: seq<Obj>)
    ensures |r| == |s| - CountId(s, id)
    ensures forall i :: 0 <= i < |r| ==> !HasId(r[i], id)
  {
    if s == [] then []
    else if HasId(s[0], id) then RemoveId(s[1..], id)
    else [s[0]] + RemoveId(s[1..], id)
  }

  /** Filtering by one id leaves the count of every other id as it was. */
  lemma {:induction false} RemoveIdCount(s: seq<Obj>, id: Value, x: Value)
    ensures CountId(RemoveId(s, id), x) == if x == id then 0 else CountId(s, x)
  {
    if s != [] {
      RemoveIdCount(s[1..], id, x);
      if !HasId(s[0], id) {
        assert ([s[0]] + RemoveId(s[1..], id))[1..] == RemoveId(s[1..], id);
      }
    }
  }

  /** Filtering distributes over concatenation, so the kept records stay in order. */
  lemma {:induction false} RemoveIdAppend(a: seq<Obj>, b: seq<Obj>, id: Value)
    ensures RemoveId(a + b, id) == RemoveId(a, id) + RemoveId(b, id)
  {
    if a == [] {
      assert a + b == b;
    } else {
      var ab := a + b;
      assert ab[0] == a[0] && ab[1..] == a[1..] + b;
      RemoveIdAppend(a[1..], b, id);
      var ra, rb := RemoveId(a[1..], id), RemoveId(b, id);
      if !HasId(a[0], id) {
        assert RemoveId(ab, id) == [a[0]] + (ra + rb);
        assert [a[0]] + (ra + rb) == ([a[0]] + ra) + rb;
      }
    }
  }

  /** Filtering keeps exactly the records without the id. */
  lemma {:induction false} RemoveIdMembers(s: seq<Obj>, id: Value, d: Obj)
    ensures d in RemoveId(s, id) <==> d in s && !HasId(d, id)
  {
    if s != [] {
      RemoveIdMembers(s[1..], id, d);
      assert d in s <==> d == s[0] || d in s[1..];
    }
  }

  /** A list without the id is left as it is. */
  lemma {:induction false} RemoveIdAbsent(s: seq<Obj>, id: Value)
    requires !ListHas(s, id)
    ensures RemoveId(s, id) == s
  {
    if s != [] {
      assert !ListHas(s[1..], id) by {
        forall i | 0 <= i < |s[1..]| ensures !HasId(s[1..][i], id) {
          assert s[1..][i] == s[i + 1];
        }
      }
      RemoveIdAbsent(s[1..], id);
      assert [s[0]] + s[1..] == s;
    }
  }

  /** `s.findIndex(d => d.id === id)`, with `None` for `-1`. */
  function FindIndex(s: seq<Obj>, id: Value): (r: Option<nat>)
    ensures r.Some? ==> r.value < |s| && HasId(s[r.value], id)
    ensures r.Some? ==> forall j :: 0 <= j < r.value ==> !HasId(s[j], id)
    ensures r.None? <==> !ListHas(s, id)
  {
    if s == [] then None
    else if HasId(s[0], id) then Some(0)
    else
      var r := FindIndex(s[1..], id);
      assert forall j :: 1 <= j < |s| ==> s[j] == s[1..][j - 1];
      if r.Some? then Some(r.value + 1) else None
  }

  /** `s.find(d => d.id === id)`, with `None` for `undefined`. */
  function Find(s: seq<Obj>, id: Value): (r: Option<Obj>)
    ensures r.None? <==> !ListHas(s, id)
    ensures r.Some? ==> r.value in s && HasId(r.value, id)
  {
    match FindIndex(s, id)
    case None => None
    case Some(i) => Some(s[i])
  }

  /** Searching a concatenation finds the match in the first part if there is one. */
  lemma FindAppend(a: seq<Obj>, b: seq<Obj>, id: Value)
    ensures Find(a + b, id) == if ListHas(a, id) then Find(a, id) else Find(b, id)
  {
    var f := FindIndex(a + b, id);
    if ListHas(a, id) {
      var i := FindIndex(a, id).value;
      assert (a + b)[i] == a[i];
      assert forall j :: 0 <= j < i ==> (a + b)[j] == a[j];
      assert f.Some? && f.value <= i;
      assert f.value == i;
    } else if ListHas(b, id) {
      var i := FindIndex(b, id).value;
      assert (a + b)[|a| + i] == b[i];
      assert forall j :: 0 <= j < |a| ==> (a + b)[j] == a[j];
      assert forall j :: |a| <= j < |a| + i ==> (a + b)[j] == b[j - |a|];
      assert f.Some? && |a| <= f.value <= |a| + i;
      assert f.value == |a| + i;
    } else {
      assert forall j :: 0 <= j < |a + b| ==> (a + b)[j] == if j < |a| then a[j] else b[j - |a|];
    }
  }

  /** `i = s.findIndex(d => d.id === v.id); if (i !== -1) s[i] = v`. */
  function ReplaceFirst(s: seq<Obj>, v: Obj): (r: seq<Obj>)
    ensures |r| == |s|
  {
    match FindIndex(s, Get(v, "id"))
    case None => s
    case Some(i) => s[i := v]
  }

  /** The first record with `v`'s id, and only that one, becomes `v`; without one the list is unchanged. */
  lemma ReplaceFirstSpec(s: seq<Obj>, v: Obj)
    ensures !ListHas(s, Get(v, "id")) ==> ReplaceFirst(s, v) == s
    ensures ListHas(s, Get(v, "id")) ==>
      exists i :: 0 <= i < |s| && HasId(s[i], Get(v, "id")) &&
        (forall j :: 0 <= j < i ==> !HasId(s[j], Get(v, "id"))) &&
        ReplaceFirst(s, v) == s[i := v]
  {
    var f := FindIndex(s, Get(v, "id"));
    if f.Some? {
      assert ReplaceFirst(s, v) == s[f.value := v];
    }
  }

  /** `s[i] = { ...s[i], ...data }`. */
  function MergeAt(s: seq<Obj>, i: nat, data: Obj): (r: seq<Obj>)
    requires i < |s|
    ensures |r| == |s| && r[i] == Spread(s[i], data)
    ensures forall j :: 0 <= j < |s| && j != i ==> r[j] == s[j]
  {
    s[i := Spread(s[i], data)]
  }

  /** `s.splice(i, 1)`. */
  function RemoveAt(s: seq<Obj>, i: nat): (r: seq<Obj>)
    requires i < |s|
    ensures |r| == |s| - 1
    ensures forall j :: 0 <= j < i ==> r[j] == s[j]
    ensures forall j :: i <= j < |r| ==> r[j] == s[j + 1]
  {
    s[..i] + s[i + 1..]
  }

  /** Every record carries a numeric id, so that `Math.max` over them is a number. */
  predicate NumericIds(s: seq<Obj>) {
    forall i :: 0 <= i < |s| ==> Get(s[i], "id").Num?
  }

  /** `Math.max(m, ...s.map(d => d.id))`. */
  function MaxId(s: seq<Obj>, m: int): (r: int)
    requires NumericIds(s)
    ensures r >= m
    ensures forall i :: 0 <= i < |s| ==> Get(s[i], "id").n <= r
    ensures r == m || exists i :: 0 <= i < |s| && Get(s[i], "id").n == r
  {
    if s == [] then m
    else
      var r := MaxId(s[1..], if Get(s[0], "id").n > m then Get(s[0], "id").n else m);
      assert forall i :: 1 <= i < |s| ==> s[i] == s[1..][i - 1];
      r
  }

  /** `Math.max(...s.map(d => d.id)) + 1` on a non-empty list: larger than every id present. */
  function NextId(s: seq<Obj>): (r: int)
    requires |s| > 0 && NumericIds(s)
    ensures forall i :: 0 <= i < |s| ==> Get(s[i], "id").n < r
    ensures exists i :: 0 <= i < |s| && Get(s[i], "id").n == r - 1
  {
    MaxId(s[1..], Get(s[0], "id").n) + 1
  }

  /** No id is carried by two records of the list. */
  ghost predicate UniqueList(s: seq<Obj>) {
    forall id :: CountId(s, id) <= 1
  }

  /** Appending a record whose id the list does not hold keeps ids unique. */
  lemma AppendFreshUnique(s: seq<Obj>, d: Obj)
    requires UniqueList(s) && !ListHas(s, Get(d, "id"))
    ensures UniqueList(s + [d])
    ensures CountId(s + [d], Get(d, "id")) == 1
  {
    CountIdPositive(s, Get(d, "id"));
    assert [d][1..] == [];
    forall x ensures CountId(s + [d], x) <= 1 {
      CountIdAppend(s, [d], x);
    }
    CountIdAppend(s, [d], Get(d, "id"));
  }

  /** `{ id, ...data }`: an `id` in the data wins over the allocated one. */
  function WithId(id: int, data: Obj): (r: Obj)
    ensures Get(r, "id") == if "id" in data then data["id"] else Num(id)
    ensures r.Keys == data.Keys + {"id"}
    ensures forall k :: k in data ==> r[k] == data[k]
  {
    Spread(map["id" := Num(id)], data)
  }

  /** A record built by `WithId` around an id beyond every id of a list is new to that list. */
  lemma WithNextIdFresh(s: seq<Obj>, data: Obj)
    requires |s| > 0 && NumericIds(s) && "id" !in data
    ensures !ListHas(s, Get(WithId(NextId(s), data), "id"))
  {
    var d := WithId(NextId(s), data);
    forall i | 0 <= i < |s| ensures !HasId(s[i], Get(d, "id")) {
      assert Get(s[i], "id").n < NextId(s);
    }
  }

  /** The `getById` pattern: the first record with the id, or the error `message`. */
  function FindOrFail(s: seq<Obj>, id: Value, message: string): (r: Result<Obj>)
    ensures r.Ok? <==> ListHas(s, id)
    ensures r.Ok? ==> r.value == s[FindIndex(s, id).value] && HasId(r.value, id)
    ensures r.Err? ==> r.error == message
  {
    match FindIndex(s, id)
    case None => Err(message)
    case Some(i) => Ok(s[i])
  }

  /** Searching a concatenation whose first part lacks the id finds the first
      match of the second part, shifted by the first part's length. */
  lemma FindIndexShift(a: seq<Obj>, b: seq<Obj>, id: Value)
    requires forall j :: 0 <= j < |a| ==> !HasId(a[j], id)
    requires ListHas(b, id)
    ensures FindIndex(a + b, id).Some? && FindIndex(a + b, id).value == |a| + FindIndex(b, id).value
  {
    var ab := a + b;
    var i := FindIndex(b, id).value;
    assert ab[|a| + i] == b[i];
    assert ListHas(ab, id);
  }




  /** A match in the first part of a concatenation is found at the same index. */
  lemma FindIndexAppendFirst(a: seq<Obj>, b: seq<Obj>, id: Value)
    requires ListHas(a, id)
    ensures FindIndex(a + b, id).Some? && FindIndex(a + b, id).value == FindIndex(a, id).value
  {
    var i := FindIndex(a, id).value;
    assert (a + b)[i] == a[i];
    assert forall j :: 0 <= j < i ==> (a + b)[j] == a[j];
  }

  /** Merging into a record of the middle part of a concatenation. */
  lemma MergeAtShift(p: seq<Obj>, l: seq<Obj>, q: seq<Obj>, i: nat, data: Obj)
    requires i < |l|
    ensures MergeAt(p + l + q, |p| + i, data) == p + MergeAt(l, i, data) + q
  {
    var lhs, rhs := MergeAt(p + l + q, |p| + i, data), p + MergeAt(l, i, data) + q;
    assert |lhs| == |rhs|;
    forall m | 0 <= m < |lhs| ensures lhs[m] == rhs[m] {
      if m < |p| {
      } else if m < |p| + |l| {
        assert rhs[m] == MergeAt(l, i, data)[m - |p|];
      }
    }
  }

  /** The count of an id around position `i`. */
  lemma CountIdSplit(s: seq<Obj>, i: nat, x: Value)
    requires i < |s|
    ensures CountId(s, x) == CountId(s[..i], x) + (if HasId(s[i], x) then 1 else 0) + CountId(s[i + 1..], x)
  {
    assert s == s[..i] + [s[i]] + s[i + 1..];
    CountIdAppend(s[..i] + [s[i]], s[i + 1..], x);
    CountIdAppend(s[..i], [s[i]], x);
    assert [s[i]][1..] == [];
  }

  /** Replacing one record changes the count of an id by what the two records carry. */
  lemma CountIdUpdate(s: seq<Obj>, i: nat, v: Obj, x: Value)
    requires i < |s|
    ensures CountId(s[i := v], x) == CountId(s, x) - (if HasId(s[i], x) then 1 else 0) + (if HasId(v, x) then 1 else 0)
  {
    var t := s[i := v];
    assert t[..i] == s[..i] && t[i + 1..] == s[i + 1..];
    CountIdSplit(s, i, x);
    CountIdSplit(t, i, x);
  }

  /** A merge whose data has no `id` leaves the ids of the list as they were. */
  lemma MergeAtKeepsIds(s: seq<Obj>, i: nat, data: Obj, x: Value)
    requires i < |s| && "id" !in data
    ensures CountId(MergeAt(s, i, data), x) == CountId(s, x)
  {
    CountIdUpdate(s, i, Spread(s[i], data), x);
  }

  /** `splice(i, 1)` drops one occurrence of the id the record at `i` carries. */
  lemma RemoveAtCount(s: seq<Obj>, i: nat, x: Value)
    requires i < |s|
    ensures CountId(RemoveAt(s, i), x) == CountId(s, x) - (if HasId(s[i], x) then 1 else 0)
  {
    CountIdSplit(s, i, x);
    CountIdAppend(s[..i], s[i + 1..], x);
  }

  /** Filtering an id out twice is filtering it out once. */
  lemma RemoveIdIdempotent(s: seq<Obj>, id: Value)
    ensures RemoveId(RemoveId(s, id), id) == RemoveId(s, id)
  {
    var r := RemoveId(s, id);
    assert !ListHas(r, id);
    RemoveIdAbsent(r, id);
  }
}

=== FILE: sales_page.dfy ===
/** The state updates of the sales page: deals kept in component state as a
    board from stage name to list, moved by drag and drop, added from the deal
    form and deleted after confirmation. Each update returns the next board;
    `Err(Access.TypeError)` stands for the TypeError thrown when a stage key is
    missing and `undefined` is indexed or spread. */
module SalesPage {
  import opened Json
  import opened Wrappers
  import opened Records
  import opened DealBoard
  import Access

  /** The stage columns the page renders. */
  const Stages: seq<string> := ["Lead", "Meeting Scheduled", "Proposal Sent", "Negotiation", "Closed Won"]


  function SeedDeal(id: int, name: string, value: int, company: string, stage: string, now: Value): Obj {
    map["id" := Num(id), "name" := Str(name), "value" := Num(value), "company" := Str(company),
        "stage" := Str(stage), "updatedAt" := now]
  }

  /** `initialDeals`: only the first two stages have a key; `now` is the page's load time. */
  function InitialDeals(now: Value): (b: Board)
    ensures WellFormed(b)
    ensures forall s :: s in Stages[2..] ==> s !in b.lists
  {
    Board(["Lead", "Meeting Scheduled"], map[
      "Lead" := [SeedDeal(1, "Software License Deal", 15000, "Tech Corp", "Lead", now),
                 SeedDeal(2, "Consulting Project", 8000, "Innovation Inc", "Lead", now)],
      "Meeting Scheduled" := [SeedDeal(3, "Enterprise Package", 45000, "Big Corp", "Meeting Scheduled", now)]])
  }

  /** What `findDeal(id)` returns: the first deal with the id in the first stage
      (in key order) holding it, with `stage` overwritten by that stage's key. */
  function FoundDeal(b: Board, id: Value): (r: Option<Obj>)
    requires WellFormed(b)
    ensures r.Some? ==> HasId(r.value, id)
  {
    match FirstStageWith(b.order, b.lists, id)
    case None => None
    case Some(k) => Some(Find(b.lists[k], id).value["stage" := Str(k)])
  }

  /** `findDeal` finds a deal exactly when the board holds the id, and then it
      is the first such deal of the concatenated stages, relabelled. */
  lemma FoundDealInFlat(b: Board, id: Value)
    requires WellFormed(b)
    ensures FoundDeal(b, id).None? <==> !ListHas(Flat(b), id)
    ensures FoundDeal(b, id).Some? ==>
      FoundDeal(b, id).value == Find(Flat(b), id).value["stage" := Str(FirstStageWith(b.order, b.lists, id).value)]
  {
    FindInFlat(b.order, b.lists, id);
  }

  /** `findDeal`: a scan of the stages in key order with an early return. */
  method FindDeal(b: Board, id: Value) returns (r: Option<Obj>)
    requires WellFormed(b)
    ensures r == FoundDeal(b, id)
  {
    var i := 0;
    while i < |b.order|
      invariant i <= |b.order|
      invariant forall j :: 0 <= j < i ==> !ListHas(b.lists[b.order[j]], id)
    {
      var stage := b.order[i];
      var deal := Find(b.lists[stage], id);
      if deal.Some? {
        FirstStageAt(b.order, b.lists, id, i);
        return Some(deal.value["stage" := Str(stage)]);
      }
      i := i + 1;
    }
    return None;
  }

  /** The stage at `i` is the first holding the id when none before it does. */
  lemma {:induction false} FirstStageAt(order: seq<string>, lists: map<string, seq<Obj>>, id: Value, i: nat)
    requires forall k :: k in order ==> k in lists
    requires i < |order| && ListHas(lists[order[i]], id)
    requires forall j :: 0 <= j < i ==> !ListHas(lists[order[j]], id)
    ensures FirstStageWith(order, lists, id) == Some(order[i])
  {
    if i > 0 {
      assert forall j :: 0 <= j < i - 1 ==> order[1..][j] == order[j + 1];
      FirstStageAt(order[1..], lists, id, i - 1);
    }
  }

  /** `{ ...deal, stage: toStage, updatedAt: new Date() }`, where a missing deal spreads nothing. */
  function Moved(deal: Option<Obj>, to: string, now: Value): Obj {
    (if deal.Some? then deal.value else map[])["stage" := Str(to)]["updatedAt" := now]
  }

  /** `moveDealToStage(dealId, fromStage, toStage)`: the source list filtered,
      the target list (as it was before the filter) with the moved deal at its
      end; a missing source or target key throws. */
  function MoveDealToStage(b: Board, dealId: Value, from: string, to: string, now: Value): (r: Result<Board>)
    requires WellFormed(b)
    ensures r.Ok? <==> from in b.lists && to in b.lists
    ensures r.Ok? ==> WellFormed(r.value) && r.value.order == b.order
  {
    if from !in b.lists then Err(Access.TypeError)
    else
      var updated := Moved(Find(b.lists[from], dealId), to, now);
      if to !in b.lists then Err(Access.TypeError)
      else Ok(Board(b.order, b.lists[from := RemoveId(b.lists[from], dealId)][to := b.lists[to] + [updated]]))
  }

  /** Filter the id out of one stage, then append `d` to another (or the same) stage. */
  function Relocate(b: Board, from: string, to: string, id: Value, d: Obj): (r: Board)
    requires WellFormed(b) && from in b.lists && to in b.lists
    ensures WellFormed(r) && r.order == b.order
  {
    var b1 := Assign(b, from, RemoveId(b.lists[from], id));
    Assign(b1, to, b1.lists[to] + [d])
  }

  /** With unique ids, relocating a deal that sits in the source stage under
      its own id keeps the number of deals and the uniqueness of ids, and the
      deal ends up in the target stage only. */
  lemma RelocateUnique(b: Board, from: string, to: string, id: Value, d: Obj)
    requires WellFormed(b) && UniqueIds(b) && from in b.lists && to in b.lists
    requires ListHas(b.lists[from], id) && HasId(d, id)
    ensures var r := Relocate(b, from, to, id, d);
      |Flat(r)| == |Flat(b)| && UniqueIds(r) && CountId(Flat(r), id) == 1 && ListHas(r.lists[to], id)
  {
    var r := Relocate(b, from, to, id, d);
    var b1 := Assign(b, from, RemoveId(b.lists[from], id));
    CountIdPositive(b.lists[from], id);
    StageWithinFlat(b.order, b.lists, from, id);
    forall x ensures CountId(Flat(r), x) == if x == id then 1 else CountId(Flat(b), x) {
      FlatAssignExisting(b, from, RemoveId(b.lists[from], id), x);
      RemoveIdCount(b.lists[from], id, x);
      FlatAssignExisting(b1, to, b1.lists[to] + [d], x);
      CountIdAppend(b1.lists[to], [d], x);
      assert [d][1..] == [];
    }
    FlatAssignExisting(b, from, RemoveId(b.lists[from], id), id);
    FlatAssignExisting(b1, to, b1.lists[to] + [d], id);
    CountIdAppend(b1.lists[to], [d], id);
    assert [d][1..] == [];
    CountIdPositive(r.lists[to], id);
  }

  /** Between two different existing stages, `moveDealToStage` removes the deal
      from the source, appends it relabelled to the target, and touches no
      other stage. */
  lemma MoveDealSpec(b: Board, id: Value, from: string, to: string, now: Value)
    requires WellFormed(b) && from in b.lists && to in b.lists && from != to
    ensures var r := MoveDealToStage(b, id, from, to, now).value;
      var m := Moved(Find(b.lists[from], id), to, now);
      r == Relocate(b, from, to, id, m) &&
      r.lists[from] == RemoveId(b.lists[from], id) && r.lists[to] == b.lists[to] + [m] &&
      Get(m, "stage") == Str(to) &&
      (ListHas(b.lists[from], id) ==> HasId(m, id)) &&
      forall k :: k in b.lists && k != from && k != to ==> r.lists[k] == b.lists[k]
  {
  }

  /** With unique ids, a move between two different stages keeps the number of
      deals, keeps ids unique, and leaves the deal in the target stage. */
  lemma MoveDealKeepsCount(b: Board, id: Value, from: string, to: string, now: Value)
    requires WellFormed(b) && UniqueIds(b) && from in b.lists && to in b.lists && from != to
    requires ListHas(b.lists[from], id)
    ensures var r := MoveDealToStage(b, id, from, to, now).value;
      |Flat(r)| == |Flat(b)| && UniqueIds(r) && ListHas(r.lists[to], id) && !ListHas(r.lists[from], id)
  {
    var m := Moved(Find(b.lists[from], id), to, now);
    MoveDealSpec(b, id, from, to, now);
    RelocateUnique(b, from, to, id, m);
    var r := MoveDealToStage(b, id, from, to, now).value;
    CountIdPositive(r.lists[from], id);
    RemoveIdCount(b.lists[from], id, id);
  }

  /** Moving a deal onto its own stage appends a second copy: the target list
      is taken from before the filter. */
  lemma MoveDealSameStage(b: Board, id: Value, s: string, now: Value)
    requires WellFormed(b) && s in b.lists && ListHas(b.lists[s], id)
    ensures var r := MoveDealToStage(b, id, s, s, now).value;
      CountId(r.lists[s], id) == CountId(b.lists[s], id) + 1 && |Flat(r)| == |Flat(b)| + 1
  {
    var m := Moved(Find(b.lists[s], id), s, now);
    var r := MoveDealToStage(b, id, s, s, now).value;
    assert r == Assign(b, s, b.lists[s] + [m]);
    FlatAssignExisting(b, s, b.lists[s] + [m], id);
    CountIdAppend(b.lists[s], [m], id);
    assert [m][1..] == [];
  }

  /** `handleDragEnd`: no drop target changes nothing; otherwise the dragged
      deal (which must be on the board) moves to the stage named by the drop
      target unless its stage already equals the target's id. */
  function HandleDragEnd(b: Board, activeId: Value, over: Option<Value>, now: Value): (r: Result<Board>)
    requires WellFormed(b)
    ensures over.None? ==> r == Ok(b)
    ensures over.Some? && FoundDeal(b, activeId).None? ==> r.Err?
    ensures over.Some? && FoundDeal(b, activeId).Some? && Get(FoundDeal(b, activeId).value, "stage") == over.value ==> r == Ok(b)
  {
    if over.None? then Ok(b)
    else match FoundDeal(b, activeId)
      case None => Err(Access.TypeError)
      case Some(deal) =>
        if Get(deal, "stage") != over.value
        then MoveDealToStage(b, activeId, PropertyKey(Get(deal, "stage")), PropertyKey(over.value), now)
        else Ok(b)
  }

  /** Dropping a deal of a board with unique ids on another existing stage
      moves it there and keeps both the number of deals and unique ids. */
  lemma DragEndMoves(b: Board, id: Value, target: string, now: Value)
    requires WellFormed(b) && UniqueIds(b) && ListHas(Flat(b), id) && target in b.lists
    requires FirstStageWith(b.order, b.lists, id) != Some(target)
    ensures var r := HandleDragEnd(b, id, Some(Str(target)), now);
      r.Ok? && |Flat(r.value)| == |Flat(b)| && UniqueIds(r.value) && ListHas(r.value.lists[target], id)
  {
    var from := DragEndIsMove(b, id, target, now);
    MoveDealKeepsCount(b, id, from, target, now);
  }

  /** A drop on another stage is a move from the stage where the deal was found. */
  lemma DragEndIsMove(b: Board, id: Value, target: string, now: Value) returns (from: string)
    requires WellFormed(b) && ListHas(Flat(b), id) && target in b.lists
    requires FirstStageWith(b.order, b.lists, id) != Some(target)
    ensures FirstStageWith(b.order, b.lists, id) == Some(from) && from != target
    ensures from in b.lists && ListHas(b.lists[from], id)
    ensures HandleDragEnd(b, id, Some(Str(target)), now) == MoveDealToStage(b, id, from, target, now)
  {
    FoundDealInFlat(b, id);
    from := FirstStageWith(b.order, b.lists, id).value;
    var deal := FoundDeal(b, id).value;
    assert Get(deal, "stage") == Str(from) != Str(target);
  }

  /** `Math.max(0, ...ids) + 1` over every deal on the board. */
  function NextDealId(b: Board): (r: int)
    requires WellFormed(b) && NumericIds(Flat(b))
    ensures r >= 1
    ensures forall i :: 0 <= i < |Flat(b)| ==> Get(Flat(b)[i], "id").n < r
  {
    MaxId(Flat(b), 0) + 1
  }

  /** `{ id, ...values, updatedAt: new Date() }`: an `id` in the values wins. */
  function NewDeal(id: int, values: Obj, now: Value): (d: Obj)
    ensures Get(d, "id") == if "id" in values then values["id"] else Num(id)
    ensures Get(d, "updatedAt") == now
    ensures forall k :: k in values && k != "updatedAt" ==> k in d && d[k] == values[k]
  {
    WithId(id, values)["updatedAt" := now]
  }

  /** `handleAddDeal(values)`: the new deal goes at the end of the stage its
      values name; a stage without a key throws. */
  function HandleAddDeal(b: Board, values: Obj, now: Value): (r: Result<Board>)
    requires WellFormed(b) && NumericIds(Flat(b))
    ensures r.Ok? <==> PropertyKey(Get(values, "stage")) in b.lists
    ensures r.Ok? ==> WellFormed(r.value) && r.value.order == b.order
  {
    var key := PropertyKey(Get(values, "stage"));
    if key !in b.lists then Err(Access.TypeError)
    else Ok(Board(b.order, b.lists[key := b.lists[key] + [NewDeal(NextDealId(b), values, now)]]))
  }

  /** Adding a deal whose values carry no id appends one deal with a fresh id
      to its stage only, so the board grows by one and ids stay unique. */
  lemma AddDealFresh(b: Board, values: Obj, now: Value)
    requires WellFormed(b) && NumericIds(Flat(b)) && UniqueIds(b)
    requires PropertyKey(Get(values, "stage")) in b.lists && "id" !in values
    ensures var r := HandleAddDeal(b, values, now).value;
      var key := PropertyKey(Get(values, "stage"));
      var d := NewDeal(NextDealId(b), values, now);
      r.lists[key] == b.lists[key] + [d] &&
      (forall k :: k in b.lists && k != key ==> r.lists[k] == b.lists[k]) &&
      !ListHas(Flat(b), Get(d, "id")) &&
      |Flat(r)| == |Flat(b)| + 1 && UniqueIds(r)
  {
    var key := PropertyKey(Get(values, "stage"));
    var d := NewDeal(NextDealId(b), values, now);
    var fb := Flat(b);
    assert !ListHas(fb, Get(d, "id")) by {
      forall i | 0 <= i < |fb| ensures !HasId(fb[i], Get(d, "id")) {
        assert Get(fb[i], "id").n < NextDealId(b);
      }
    }
    AppendFreshDeal(b, key, d);
  }

  /** `handleDeleteDeal(deal)`: after confirmation, every deal with the id is
      filtered out of the stage the deal names; a stage without a key throws. */
  function HandleDeleteDeal(b: Board, deal: Obj, confirmed: bool): (r: Result<Board>)
    requires WellFormed(b)
    ensures !confirmed ==> r == Ok(b)
    ensures confirmed ==> (r.Ok? <==> PropertyKey(Get(deal, "stage")) in b.lists)
    ensures r.Ok? ==> WellFormed(r.value) && r.value.order == b.order
  {
    var key := PropertyKey(Get(deal, "stage"));
    if !confirmed then Ok(b)
    else if key !in b.lists then Err(Access.TypeError)
    else Ok(Board(b.order, b.lists[key := RemoveId(b.lists[key], Get(deal, "id"))]))
  }

  /** A confirmed delete removes the id from the deal's own stage only; with
      unique ids the board loses exactly that one deal. */
  lemma DeleteDealSpec(b: Board, deal: Obj)
    requires WellFormed(b) && UniqueIds(b)
    requires PropertyKey(Get(deal, "stage")) in b.lists
    requires ListHas(b.lists[PropertyKey(Get(deal, "stage"))], Get(deal, "id"))
    ensures var r := HandleDeleteDeal(b, deal, true).value;
      var key := PropertyKey(Get(deal, "stage"));
      !ListHas(r.lists[key], Get(deal, "id")) &&
      (forall k :: k in b.lists && k != key ==> r.lists[k] == b.lists[k]) &&
      |Flat(r)| == |Flat(b)| - 1 && !ListHas(Flat(r), Get(deal, "id")) && UniqueIds(r)
  {
    var r := HandleDeleteDeal(b, deal, true).value;
    var key := PropertyKey(Get(deal, "stage"));
    var id := Get(deal, "id");
    assert r == Assign(b, key, RemoveId(b.lists[key], id));
    CountIdPositive(b.lists[key], id);
    StageWithinFlat(b.order, b.lists, key, id);
    forall x ensures CountId(Flat(r), x) == if x == id then 0 else CountId(Flat(b), x) {
      FlatAssignExisting(b, key, RemoveId(b.lists[key], id), x);
      RemoveIdCount(b.lists[key], id, x);
    }
    FlatAssignExisting(b, key, RemoveId(b.lists[key], id), id);
    CountIdPositive(Flat(r), id);
    CountIdPositive(r.lists[key], id);
    RemoveIdCount(b.lists[key], id, id);
  }

  /** The seeded board has no key for the last three stages, so moving a deal
      or adding one there throws. */
  lemma InitialDealsMissingStages(now: Value, values: Obj, s: string)
    requires s in Stages[2..] && Get(values, "stage") == Str(s)
    ensures MoveDealToStage(InitialDeals(now), Num(1), "Lead", s, now).Err?
    ensures NumericIds(Flat(InitialDeals(now))) && HandleAddDeal(InitialDeals(now), values, now).Err?
  {
    InitialDealsNumeric(now);
  }

  /** The initial deals have numeric ids. */
  lemma InitialDealsNumeric(now: Value)
    ensures NumericIds(Flat(InitialDeals(now)))
  {
    var b := InitialDeals(now);
    assert b.order[1..] == ["Meeting Scheduled"] && b.order[1..][1..] == [];
    assert FlatOf(b.order[1..][1..], b.lists) == [];
    assert FlatOf(b.order[1..], b.lists) == b.lists["Meeting Scheduled"] + [];
    assert Flat(b) == b.lists["Lead"] + FlatOf(b.order[1..], b.lists);
  }
}

=== FILE: security_config.dfy ===
/** The security configuration: its role table and permission check, input
    sanitising, and the password strength rule. */
module SecurityConfig {
  import opened Json
  import opened Wrappers
  import opened Strings
  import opened Access
  import Rbac

  /** `permissions` */
  const Permissions: Table := map[
    "admin" := ["read", "write", "delete", "manage_users", "manage_settings"],
    "manager" := ["read", "write", "delete"],
    "user" := ["read", "write"],
    "guest" := ["read"]]

  /** `checkPermission(userRole, requiredPermission)`: as the route guard's
      check, over this table. */
  function CheckPermission(role: Value, permission: Value): (r: Result<bool>)
    ensures !Truthy(role) ==> r == Ok(false)
    ensures Truthy(role) && PropertyKey(role) in Permissions ==> r == Ok(Includes(Permissions[PropertyKey(role)], permission))
    ensures PropertyKey(role) !in Permissions && PropertyKey(role) !in InheritedNames ==> r == Ok(false)
    ensures r.Err? <==> Truthy(role) && PropertyKey(role) !in Permissions && PropertyKey(role) in InheritedNames
  {
    if !Truthy(role) then Ok(false) else Granted(Permissions, role, permission)
  }

  /** guest within user within manager within admin. */
  lemma RolesNested(permission: Value)
    ensures CheckPermission(Str("guest"), permission) == Ok(true) ==> CheckPermission(Str("user"), permission) == Ok(true)
    ensures CheckPermission(Str("user"), permission) == Ok(true) ==> CheckPermission(Str("manager"), permission) == Ok(true)
    ensures CheckPermission(Str("manager"), permission) == Ok(true) ==> CheckPermission(Str("admin"), permission) == Ok(true)
  {
  }

  /** The two tables disagree: this one lets a manager delete and knows a
      guest, the route guard's does neither. */
  lemma TablesDisagree()
    ensures CheckPermission(Str("manager"), Str("delete")) == Ok(true)
    ensures Rbac.CheckPermission(Str("manager"), Str("delete")) == Ok(false)
    ensures CheckPermission(Str("guest"), Str("read")) == Ok(true)
    ensures Rbac.CheckPermission(Str("guest"), Str("read")) == Ok(false)
  {
  }

  const Tags: set<char> := {'<', '>'}

  /** `sanitizeInput(input)`: text loses every '<' and '>' and then its white
      space at both ends; anything that is not text is returned as it is. The
      text with the brackets removed keeps every other character, each copy, in
      order, and the result is that text cut down to the slice between its
      leading and its trailing white space. So the result holds no angle
      bracket and no white space at its ends, keeps the inner white space, and
      text that is already clean comes back unchanged. */
  function SanitizeInput(input: Value): (r: Value)
    ensures !input.Str? ==> r == input
    ensures input.Str? ==> r.Str? && IsTrimOf(r.s, RemoveChars(input.s, Tags))
    ensures input.Str? ==> r.Str? && '<' !in r.s && '>' !in r.s && IsTrimmed(r.s)
    ensures input.Str? ==> forall c :: c in r.s ==> c in input.s
    ensures input.Str? ==> forall c :: c in input.s && c !in Tags && !IsSpace(c) ==> c in r.s
    ensures input.Str? && '<' !in input.s && '>' !in input.s && IsTrimmed(input.s) ==> r == input
  {
    if input.Str? then
      var t := RemoveChars(input.s, Tags);
      TrimSpec(t);
      TrimKeepsInner(t);
      TrimIsTrimOf(t);
      SanitizeClean(input.s);
      Str(Trim(t))
    else input
  }

  /** Text with no angle bracket and no white space at its ends is its own sanitised form. */
  lemma SanitizeClean(s: string)
    ensures '<' !in s && '>' !in s && IsTrimmed(s) ==> Trim(RemoveChars(s, Tags)) == s
  {
    if '<' !in s && '>' !in s && IsTrimmed(s) {
      RemoveCharsAbsent(s, Tags);
      TrimOfTrimmed(s);
    }
  }

  /** Sanitising twice is sanitising once. */
  lemma SanitizeIdempotent(input: Value)
    ensures SanitizeInput(SanitizeInput(input)) == SanitizeInput(input)
  {
  }

  predicate IsUpper(c: char) { 'A' <= c <= 'Z' }
  predicate IsLower(c: char) { 'a' <= c <= 'z' }
  predicate IsDigit(c: char) { '0' <= c <= '9' }

  /** The characters `[!@#$%^&*(),.?":{}|<>]` accepts. */
  const SpecialChars: set<char> := {'!', '@', '#', '$', '%', '^', '&', '*', '(', ')', ',', '.', '?', '"', ':', '{', '}', '|', '<', '>'}

  /** `/[...]/.test(s)`: some character of `s` is in the class `p`. */
  predicate Any(s: string, p: char -> bool) {
    s != [] && (p(s[0]) || Any(s[1..], p))
  }

  /** `Any` holds exactly when some position of the text is in the class. */
  lemma {:induction false} AnyIff(s: string, p: char -> bool)
    ensures Any(s, p) <==> exists i :: 0 <= i < |s| && p(s[i])
  {
    if s != [] {
      AnyIff(s[1..], p);
      if exists i :: 0 <= i < |s| && p(s[i]) {
        var i :| 0 <= i < |s| && p(s[i]);
        if i > 0 {
          assert p(s[1..][i - 1]);
        }
      }
      if Any(s[1..], p) {
        var i :| 0 <= i < |s[1..]| && p(s[1..][i]);
        assert p(s[i + 1]);
      }
    }
  }

  predicate IsSpecial(c: char) { c in SpecialChars }

  /** `validatePassword(password)`: at least 8 UTF-16 code units, with an upper-case
      letter, a lower-case letter, a digit, and one of the listed symbols. */
  predicate ValidatePassword(password: string) {
    Utf16Length(password) >= 8 && Any(password, IsUpper) && Any(password, IsLower) && Any(password, IsDigit)
    && Any(password, IsSpecial)
  }

  /** The rule, position by position. */
  lemma ValidatePasswordIff(password: string)
    ensures ValidatePassword(password) <==>
      Utf16Length(password) >= 8
      && (exists i :: 0 <= i < |password| && IsUpper(password[i]))
      && (exists i :: 0 <= i < |password| && IsLower(password[i]))
      && (exists i :: 0 <= i < |password| && IsDigit(password[i]))
      && (exists i :: 0 <= i < |password| && password[i] in SpecialChars)
  {
    AnyIff(password, IsUpper);
    AnyIff(password, IsLower);
    AnyIff(password, IsDigit);
    AnyIff(password, IsSpecial);
  }

  /** An underscore or a hyphen is no symbol to this rule: a password made of
      letters, digits, underscores and hyphens fails, however long it is. */
  lemma UnlistedSymbolRejected(password: string)
    requires forall i :: 0 <= i < |password| ==>
      IsUpper(password[i]) || IsLower(password[i]) || IsDigit(password[i]) || password[i] == '_' || password[i] == '-'
    ensures !ValidatePassword(password)
  {
    AnyIff(password, IsSpecial);
  }

  /** The length rule counts UTF-16 code units: three characters beyond U+FFFF
      count two each, so this password of 7 characters passes. */
  lemma AstralPasswordPasses()
    ensures var p := "Aa1!\U{1F600}\U{1F600}\U{1F600}";
      |p| == 7 && ValidatePassword(p)
  {
    var p := "Aa1!\U{1F600}\U{1F600}\U{1F600}";
    assert IsUpper(p[0]) && IsLower(p[1]) && IsDigit(p[2]) && IsSpecial(p[3]);
    AnyIff(p, IsUpper);
    AnyIff(p, IsLower);
    AnyIff(p, IsDigit);
    AnyIff(p, IsSpecial);
  }

  /** 'Password1!' passes and 'Password1_' does not. */
  lemma PasswordExamples()
    ensures ValidatePassword("Password1!") && !ValidatePassword("Password1_")
  {
    GoodExample();
    UnderscoreExample();
  }

  lemma GoodExample()
    ensures ValidatePassword("Password1!")
  {
    var good := "Password1!";
    assert IsUpper(good[0]) && IsLower(good[1]) && IsDigit(good[8]) && IsSpecial(good[9]);
    ValidatePasswordIff(good);
  }

  lemma UnderscoreExample()
    ensures !ValidatePassword("Password1_")
  {
    var bad := "Password1_";
    forall i | 0 <= i < |bad| ensures !IsSpecial(bad[i]) {
      assert bad[i] in "Password1_";
      PlainNotSpecial(bad[i]);
    }
    NoSymbolFails(bad);
  }

  /** A password without a listed symbol fails, whatever its length. */
  lemma NoSymbolFails(p: string)
    requires forall i :: 0 <= i < |p| ==> !IsSpecial(p[i])
    ensures !ValidatePassword(p)
  {
    AnyIff(p, IsSpecial);
  }

  /** Letters, digits and the underscore are none of the listed symbols. */
  lemma PlainNotSpecial(c: char)
    requires IsUpper(c) || IsLower(c) || IsDigit(c) || c == '_'
    ensures !IsSpecial(c)
  {
  }
}

=== FILE: security_service.dfy ===
/** The security service's access control and data protection: its role
    names and table, the permission check, input sanitising, and masking of
    sensitive properties. */
module SecurityService {
  import opened Json
  import opened Wrappers
  import opened Access
  import SecurityConfig

  /** `accessControl.roles` */
  const RoleNames: map<string, string> := map["ADMIN" := "admin", "MANAGER" := "manager", "USER" := "user", "GUEST" := "guest"]

  /** `accessControl.permissions` */
  const Permissions: Table := map[
    "admin" := ["read", "write", "delete", "manage_users", "manage_settings"],
    "manager" := ["read", "write", "delete"],
    "user" := ["read", "write"],
    "guest" := ["read"]]

  /** `accessControl.checkPermission(userRole, requiredPermission)`: the
      listed permissions of a role in the table, none for any other role.
      There is no separate test for a falsy role. */
  function CheckPermission(role: Value, permission: Value): (r: Result<bool>)
    ensures PropertyKey(role) in Permissions ==> r == Ok(Includes(Permissions[PropertyKey(role)], permission))
    ensures PropertyKey(role) !in Permissions && PropertyKey(role) !in InheritedNames ==> r == Ok(false)
    ensures r.Err? <==> PropertyKey(role) !in Permissions && PropertyKey(role) in InheritedNames
  {
    Granted(Permissions, role, permission)
  }

  /** Every role constant names a role of the table, and they name four different roles. */
  lemma RoleNamesKnown()
    ensures forall k :: k in RoleNames ==> RoleNames[k] in Permissions
    ensures RoleNames["ADMIN"] == "admin" && RoleNames["MANAGER"] == "manager"
    ensures RoleNames["USER"] == "user" && RoleNames["GUEST"] == "guest"
    ensures forall a, b :: a in RoleNames && b in RoleNames && a != b ==> RoleNames[a] != RoleNames[b]
  {
  }

  /** guest within user within manager within admin. */
  lemma RolesNested(permission: Value)
    ensures CheckPermission(Str("guest"), permission) == Ok(true) ==> CheckPermission(Str("user"), permission) == Ok(true)
    ensures CheckPermission(Str("user"), permission) == Ok(true) ==> CheckPermission(Str("manager"), permission) == Ok(true)
    ensures CheckPermission(Str("manager"), permission) == Ok(true) ==> CheckPermission(Str("admin"), permission) == Ok(true)
  {
  }

  /** Without the falsy test the check still answers as the security
      configuration's does, for every role and permission: no falsy value
      names a role of the table. */
  lemma SameAsConfig(role: Value, permission: Value)
    ensures CheckPermission(role, permission) == SecurityConfig.CheckPermission(role, permission)
  {
    assert Permissions == SecurityConfig.Permissions;
    if !Truthy(role) {
      assert PropertyKey(role) in {"undefined", "null", "false", "0", ""};
    }
  }

  /** The inherited properties `maskSensitiveData` adds when they are listed:
      reading one gives a function, which is truthy, and assigning to it
      creates an own property. The `__proto__` setter ignores text, so that
      one is never added. */
  function Added(data: Obj, fields: seq<string>): set<string> {
    set f | f in fields && f !in data && f in InheritedNames && f != "__proto__"
  }

  /** What `maskSensitiveData(data, fields)` returns: every listed property
      whose value is truthy reads '****', and so does every listed inherited
      name; every other property is as in `data`. */
  function Masked(data: Obj, fields: seq<string>): (r: Obj)
    ensures r.Keys == data.Keys + Added(data, fields)
    ensures forall k :: k in data ==> r[k] == if k in fields && Truthy(data[k]) then Str("****") else data[k]
    ensures forall k :: k in r && k !in data ==> r[k] == Str("****")
  {
    map k | k in data.Keys + Added(data, fields) ::
      if k in data && !(k in fields && Truthy(data[k])) then data[k] else Str("****")
  }

  /** `maskedData[field]` read for truth: an own property by its value, an
      inherited one always truthy. */
  predicate ReadsTruthy(o: Obj, field: string) {
    if field in o then Truthy(o[field]) else field in InheritedNames
  }

  /** `maskSensitiveData(data, fields)`: a copy of the object, then each
      listed field, in turn, set to '****' when it reads truthy in the copy. */
  method MaskSensitiveData(data: Obj, fields: seq<string>) returns (masked: Obj)
    ensures masked == Masked(data, fields)
  {
    masked := data;
    var i := 0;
    while i < |fields|
      invariant i <= |fields|
      invariant masked == Masked(data, fields[..i])
    {
      var field := fields[i];
      MaskedStep(data, fields[..i], field);
      if ReadsTruthy(masked, field) && (field in masked || field != "__proto__") {
        masked := masked[field := Str("****")];
      }
      assert fields[..i + 1] == fields[..i] + [field];
      i := i + 1;
    }
    assert fields[..i] == fields;
  }

  /** One more listed field masks what it reads as truthy in the object masked so far. */
  lemma MaskedStep(data: Obj, prefix: seq<string>, field: string)
    ensures var m := Masked(data, prefix);
      Masked(data, prefix + [field]) ==
        if ReadsTruthy(m, field) && (field in m || field != "__proto__") then m[field := Str("****")] else m
  {
    var m, r := Masked(data, prefix), Masked(data, prefix + [field]);
    assert forall f :: f in prefix + [field] <==> f in prefix || f == field;
    assert Added(data, prefix + [field]) == Added(data, prefix) + (if field in Added(data, [field]) then {field} else {});
  }

  /** Listing an inherited name such as `toString` gives the copy a new
      '****' property; listing `__proto__` adds nothing. */
  lemma MaskInheritedNames(data: Obj)
    requires "toString" !in data && "__proto__" !in data
    ensures Masked(data, ["toString"]).Keys == data.Keys + {"toString"}
    ensures Masked(data, ["toString"])["toString"] == Str("****")
    ensures Masked(data, ["__proto__"]) == data
  {
    assert Added(data, ["toString"]) == {"toString"};
    assert Added(data, ["__proto__"]) == {};
  }

  /** Masking a masked object changes nothing. */
  lemma MaskIdempotent(data: Obj, fields: seq<string>)
    ensures Masked(Masked(data, fields), fields) == Masked(data, fields)
  {
  }
}

=== FILE: sequences.dfy ===
/** Sequence relations shared by the list operations of the model. */
module Sequences {
  /** `a` is `b` with some elements left out and the rest in their order (what `filter` yields). */
  predicate Subsequence<T(==)>(a: seq<T>, b: seq<T>)
    decreases |b|
  {
    a == [] || (b != [] && ((a[0] == b[0] && Subsequence(a[1..], b[1..])) || Subsequence(a, b[1..])))
  }
}

=== FILE: stage_column.dfy ===
/** The figures a sales stage column shows above its deal cards. */
module StageColumn {
  import opened Json
  import opened Wrappers
  import opened Records
  import Strings

  /** `deal.value || 0`: a falsy value counts as 0. */
  function ValueOrZero(d: Obj): Value {
    var v := Get(d, "value");
    if Truthy(v) then v else Num(0)
  }

  /** `totalValue`: `reduce((sum, d) => sum + (d.value || 0), 0)`; `None` once
      some value turns the sum into text. */
  function TotalValue(deals: seq<Obj>): (r: Option<int>)
    ensures deals == [] ==> r == Some(0)
  {
    if deals == [] then Some(0)
    else
      match (TotalValue(deals[..|deals| - 1]), Addend(ValueOrZero(deals[|deals| - 1])))
      case (Some(s), Some(v)) => Some(s + v)
      case _ => None
  }

  /** A column whose deals all have numeric or missing values totals to a
      number, and deals without a value add nothing. */
  lemma {:induction false} TotalValueNumeric(deals: seq<Obj>)
    requires forall i :: 0 <= i < |deals| ==> Get(deals[i], "value").Num? || !Truthy(Get(deals[i], "value"))
    ensures TotalValue(deals).Some?
    ensures TotalValue(deals).value == SumNumbers(deals)
  {
    if deals != [] {
      var front := deals[..|deals| - 1];
      assert forall i :: 0 <= i < |front| ==> front[i] == deals[i];
      TotalValueNumeric(front);
    }
  }

  /** The sum of the numeric values, each missing or falsy one read as 0. */
  function SumNumbers(deals: seq<Obj>): int {
    if deals == [] then 0
    else
      var v := Get(deals[|deals| - 1], "value");
      SumNumbers(deals[..|deals| - 1]) + (if v.Num? then v.n else 0)
  }

  /** `avgDealSize`: 0 for an empty column, otherwise the total over the count. */
  function AvgDealSize(deals: seq<Obj>): (r: Option<real>)
    ensures deals == [] ==> r == Some(0.0)
    ensures deals != [] && TotalValue(deals).Some? ==> r.Some? && r.value * |deals| as real == TotalValue(deals).value as real
  {
    if |deals| == 0 then Some(0.0)
    else match TotalValue(deals)
      case Some(t) => Some(t as real / |deals| as real)
      case None => None
  }

  /** The `{deals.length} deals` caption: decimal digits that read back as
      the number of deals, then " deals". */
  function CountCaption(deals: seq<Obj>): (r: string)
    ensures |r| > 6 && r[|r| - 6..] == " deals"
    ensures forall i :: 0 <= i < |r| - 6 ==> '0' <= r[i] <= '9'
    ensures Strings.DecimalValue(r[..|r| - 6]) == |deals|
  {
    var digits := Strings.NatToString(|deals|);
    var r := digits + " deals";
    assert r[..|r| - 6] == digits;
    Strings.NatToStringValue(|deals|);
    r
  }

  /** The sortable item ids: the deal ids in list order. */
  function SortableIds(deals: seq<Obj>): (r: seq<Value>)
    ensures |r| == |deals|
    ensures forall i :: 0 <= i < |deals| ==> HasId(deals[i], r[i])
  {
    seq(|deals|, i requires 0 <= i < |deals| => Get(deals[i], "id"))
  }
}

=== FILE: strings.dfy ===
/** The string operations of the JavaScript runtime that the dashboard's code
    calls: `trim`, `toLowerCase`, `includes`, `split`, `join`, `replace` with a
    global character class, `indexOf` and number-to-text conversion. */
module Strings {
  import opened Wrappers
  import opened Sequences

  /** JavaScript's WhiteSpace and LineTerminator characters, the ones `trim` removes. */
  predicate IsSpace(c: char) {
    || c == ' ' || c == '\t' || c == '\n' || c == '\r'
    || c == '\U{000B}' || c == '\U{000C}' || c == '\U{00A0}' || c == '\U{1680}'
    || ('\U{2000}' <= c <= '\U{200A}')
    || c == '\U{2028}' || c == '\U{2029}' || c == '\U{202F}' || c == '\U{205F}'
    || c == '\U{3000}' || c == '\U{FEFF}'
  }

  /** Neither end of `s` is white space. */
  predicate IsTrimmed(s: string) {
    s == [] || (!IsSpace(s[0]) && !IsSpace(s[|s| - 1]))
  }

  /** `s.trimStart()`: drops the leading white space. */
  function TrimStart(s: string): (r: string)
    ensures |r| <= |s|
  {
    if |s| > 0 && IsSpace(s[0]) then TrimStart(s[1..]) else s
  }

  /** `trimStart` keeps a suffix that does not start with white space, and drops nothing else. */
  lemma {:induction false} TrimStartSpec(s: string)
    ensures var r := TrimStart(s);
      r == s[|s| - |r|..] && (r == [] || !IsSpace(r[0])) &&
      forall i :: 0 <= i < |s| - |r| ==> IsSpace(s[i])
  {
    if |s| > 0 && IsSpace(s[0]) {
      TrimStartSpec(s[1..]);
      assert forall i :: 1 <= i < |s| ==> s[1..][i - 1] == s[i];
    }
  }

  /** `s.trimEnd()`: drops the trailing white space. */
  function TrimEnd(s: string): (r: string)
    ensures |r| <= |s|
  {
    if |s| > 0 && IsSpace(s[|s| - 1]) then TrimEnd(s[..|s| - 1]) else s
  }

  /** `trimEnd` keeps a prefix that does not end with white space, and drops nothing else. */
  lemma {:induction false} TrimEndSpec(s: string)
    ensures var r := TrimEnd(s);
      r == s[..|r|] && (r == [] || !IsSpace(r[|r| - 1])) &&
      forall i :: |r| <= i < |s| ==> IsSpace(s[i])
  {
    if |s| > 0 && IsSpace(s[|s| - 1]) {
      TrimEndSpec(s[..|s| - 1]);
    }
  }

  /** `s.trim()`: `trimStart` then `trimEnd`. */
  function Trim(s: string): string {
    TrimEnd(TrimStart(s))
  }

  /** No white space is left at either end of a trim, and nothing but characters of `s` is kept. */
  lemma TrimSpec(s: string)
    ensures IsTrimmed(Trim(s))
    ensures forall c :: c in Trim(s) ==> c in s
  {
    var t := TrimStart(s);
    var r := TrimEnd(t);
    TrimStartSpec(s);
    TrimEndSpec(t);
    if r != [] {
      assert r[0] == t[0];
    }
    forall c | c in r ensures c in s {
      var i :| 0 <= i < |r| && r[i] == c;
      assert t[i] == c;
      assert s[|s| - |t| + i] == c;
    }
  }

  /** `r` is `t` with the white space at its ends removed and nothing else:
      a slice of `t` with only white space outside it and none at its own ends. */
  ghost predicate IsTrimOf(r: string, t: string) {
    IsTrimmed(r) &&
    exists i, j :: 0 <= i <= j <= |t| && r == t[i..j] &&
      (forall k :: 0 <= k < i ==> IsSpace(t[k])) && (forall k :: j <= k < |t| ==> IsSpace(t[k]))
  }

  /** `trim` is such a slice. */
  lemma TrimIsTrimOf(s: string)
    ensures IsTrimOf(Trim(s), s)
  {
    var i, j := TrimBounds(s);
    TrimOfAt(Trim(s), s, i, j);
  }

  /** The positions in `s` between which `Trim(s)` lies. */
  lemma TrimBounds(s: string) returns (i: nat, j: nat)
    ensures i <= j <= |s| && Trim(s) == s[i..j]
    ensures IsTrimmed(Trim(s))
    ensures forall k :: 0 <= k < i ==> IsSpace(s[k])
    ensures forall k :: j <= k < |s| ==> IsSpace(s[k])
  {
    var t := TrimStart(s);
    var r := TrimEnd(t);
    TrimStartSpec(s);
    TrimEndSpec(t);
    if r != [] {
      assert r[0] == t[0];
    }
    i := |s| - |t|;
    j := i + |r|;
    SuffixSpaces(s, i, |r|);
    assert r == s[i..j] by {
      assert r == t[..|r|];
    }
  }

  /** White space past position `n` of the suffix `s[i..]` is white space past `i + n` in `s`. */
  lemma SuffixSpaces(s: string, i: nat, n: nat)
    requires i + n <= |s|
    requires forall k :: n <= k < |s[i..]| ==> IsSpace(s[i..][k])
    ensures forall k :: i + n <= k < |s| ==> IsSpace(s[k])
  {
    forall k | i + n <= k < |s| ensures IsSpace(s[k]) {
      assert s[k] == s[i..][k - i];
    }
  }

  /** A slice with only white space outside it and none at its ends is a trim of the text. */
  lemma TrimOfAt(r: string, t: string, i: nat, j: nat)
    requires i <= j <= |t| && r == t[i..j] && IsTrimmed(r)
    requires forall k :: 0 <= k < i ==> IsSpace(t[k])
    requires forall k :: j <= k < |t| ==> IsSpace(t[k])
    ensures IsTrimOf(r, t)
  {
  }

  /** There is only one such slice, so the description fixes the text. */
  lemma TrimOfUnique(r: string, t: string)
    requires IsTrimOf(r, t)
    ensures r == Trim(t)
  {
    var i, j :| 0 <= i <= j <= |t| && r == t[i..j] &&
      (forall k :: 0 <= k < i ==> IsSpace(t[k])) && (forall k :: j <= k < |t| ==> IsSpace(t[k]));
    var i2, j2 := TrimBounds(t);
    TrimSliceUnique(t, i, j, i2, j2);
  }

  /** Two slices of `t`, each trimmed with only white space outside it, are equal. */
  lemma TrimSliceUnique(t: string, i: nat, j: nat, i2: nat, j2: nat)
    requires i <= j <= |t| && i2 <= j2 <= |t|
    requires IsTrimmed(t[i..j]) && IsTrimmed(t[i2..j2])
    requires forall k :: 0 <= k < i ==> IsSpace(t[k])
    requires forall k :: j <= k < |t| ==> IsSpace(t[k])
    requires forall k :: 0 <= k < i2 ==> IsSpace(t[k])
    requires forall k :: j2 <= k < |t| ==> IsSpace(t[k])
    ensures t[i..j] == t[i2..j2]
  {
    assert i < j ==> !IsSpace(t[i]) && !IsSpace(t[j - 1]) by {
      if i < j {
        assert t[i..j][0] == t[i] && t[i..j][j - i - 1] == t[j - 1];
      }
    }
    assert i2 < j2 ==> !IsSpace(t[i2]) && !IsSpace(t[j2 - 1]) by {
      if i2 < j2 {
        assert t[i2..j2][0] == t[i2] && t[i2..j2][j2 - i2 - 1] == t[j2 - 1];
      }
    }
    assert (i < j) == (i2 < j2);
    if i < j {
      assert i == i2 && j == j2;
    }
  }

  /** `trim` drops white space only: every other character of `s` is kept. */
  lemma TrimKeepsInner(s: string)
    ensures forall c :: c in s && !IsSpace(c) ==> c in Trim(s)
  {
    var t := TrimStart(s);
    var r := TrimEnd(t);
    TrimStartSpec(s);
    TrimEndSpec(t);
    forall c | c in s && !IsSpace(c) ensures c in r {
      var i :| 0 <= i < |s| && s[i] == c;
      var j := i - (|s| - |t|);
      assert 0 <= j < |t| && t[j] == c;
      assert j < |r| && r[j] == c;
    }
  }

  /** A string with no white space at its ends is its own trim. */
  lemma TrimOfTrimmed(s: string)
    requires IsTrimmed(s)
    ensures Trim(s) == s
  {
    assert TrimStart(s) == s;
    assert TrimEnd(s) == s;
  }

  /** `trim` is idempotent. */
  lemma TrimIdempotent(s: string)
    ensures Trim(Trim(s)) == Trim(s)
  {
    TrimSpec(s);
    TrimOfTrimmed(Trim(s));
  }

  /** A text trims to nothing exactly when it is all white space. */
  lemma TrimBlank(s: string)
    ensures Trim(s) == [] <==> forall i :: 0 <= i < |s| ==> IsSpace(s[i])
  {
    if Trim(s) == [] {
      TrimStartSpec(s);
      TrimEndSpec(TrimStart(s));
      assert TrimStart(s) == [];
    }
    if forall i :: 0 <= i < |s| ==> IsSpace(s[i]) {
      TrimStartBlank(s);
    }
  }

  /** White space alone trims to nothing from the start. */
  lemma {:induction false} TrimStartBlank(s: string)
    requires forall i :: 0 <= i < |s| ==> IsSpace(s[i])
    ensures TrimStart(s) == []
  {
    if |s| > 0 {
      assert forall i :: 0 <= i < |s[1..]| ==> s[1..][i] == s[i + 1];
      TrimStartBlank(s[1..]);
    }
  }

  /** `c.toLowerCase()` on the ASCII letters. */
  function LowerChar(c: char): (r: char)
    ensures 'A' <= c <= 'Z' ==> r as int == c as int + 32
    ensures !('A' <= c <= 'Z') ==> r == c
  {
    if 'A' <= c <= 'Z' then (c as int + 32) as char else c
  }

  /** `s.toLowerCase()`, one character at a time. */
  function Lower(s: string): (r: string)
    ensures |r| == |s|
    ensures forall i :: 0 <= i < |s| ==> r[i] == LowerChar(s[i])
  {
    if s == [] then [] else [LowerChar(s[0])] + Lower(s[1..])
  }

  /** `s.includes(sub)`: `sub` occurs in `s` at some position. */
  predicate Contains(s: string, sub: string)
    decreases |s|
  {
    sub <= s || (s != [] && Contains(s[1..], sub))
  }

  /** `s.split(c)` for a one-character separator: the pieces between the separators, at least one. */
  function Split(s: string, c: char): (r: seq<string>)
    ensures |r| >= 1
  {
    if s == [] then [""]
    else if s[0] == c then [""] + Split(s[1..], c)
    else
      var rest := Split(s[1..], c);
      [[s[0]] + rest[0]] + rest[1..]
  }

  /** No piece of a split holds the separator. */
  lemma {:induction false} SplitExcludes(s: string, c: char)
    ensures forall i :: 0 <= i < |Split(s, c)| ==> c !in Split(s, c)[i]
  {
    if s != [] {
      SplitExcludes(s[1..], c);
    }
  }

  /** The last piece of a split (`s.split(c).pop()`). */
  function LastPiece(s: string, c: char): string {
    var parts := Split(s, c);
    parts[|parts| - 1]
  }

  /** Text after the last separator is the last piece, and there are at least two pieces. */
  lemma {:induction false} SplitLast(s: string, c: char, t: string)
    requires c !in t
    ensures |Split(s + [c] + t, c)| >= 2 && LastPiece(s + [c] + t, c) == t
  {
    SplitNoSeparator(t, c);
    if s == [] {
      assert s + [c] + t == [c] + t;
      assert ([c] + t)[1..] == t;
    } else {
      SplitLast(s[1..], c, t);
      assert (s + [c] + t)[1..] == s[1..] + [c] + t;
    }
  }

  /** `parts.join(sep)`. */
  function Join(parts: seq<string>, sep: string): string {
    if parts == [] then ""
    else if |parts| == 1 then parts[0]
    else parts[0] + sep + Join(parts[1..], sep)
  }

  /** A piece without the separator splits to itself. */
  lemma {:induction false} SplitNoSeparator(p: string, c: char)
    requires c !in p
    ensures Split(p, c) == [p]
  {
    if p != [] {
      SplitNoSeparator(p[1..], c);
      assert [p[0]] + p[1..] == p;
    }
  }

  /** Splitting `p + c + rest` yields `p` followed by the pieces of `rest`. */
  lemma {:induction false} SplitPrefix(p: string, c: char, rest: string)
    requires c !in p
    ensures Split(p + [c] + rest, c) == [p] + Split(rest, c)
  {
    if p == [] {
      assert p + [c] + rest == [c] + rest;
      assert ([c] + rest)[1..] == rest;
    } else {
      SplitPrefix(p[1..], c, rest);
      assert (p + [c] + rest)[1..] == p[1..] + [c] + rest;
      assert [p[0]] + p[1..] == p;
    }
  }

  /** Splitting undoes joining when no piece holds the separator. */
  lemma {:induction false} SplitJoin(parts: seq<string>, c: char)
    requires |parts| >= 1
    requires forall i :: 0 <= i < |parts| ==> c !in parts[i]
    ensures Split(Join(parts, [c]), c) == parts
  {
    if |parts| == 1 {
      SplitNoSeparator(parts[0], c);
    } else {
      SplitJoin(parts[1..], c);
      SplitPrefix(parts[0], c, Join(parts[1..], [c]));
      assert [parts[0]] + parts[1..] == parts;
    }
  }

  /** A character in neither the pieces nor the separator is not in their join. */
  lemma {:induction false} JoinExcludes(parts: seq<string>, sep: string, c: char)
    requires c !in sep
    requires forall i :: 0 <= i < |parts| ==> c !in parts[i]
    ensures c !in Join(parts, sep)
  {
    if |parts| > 1 {
      JoinExcludes(parts[1..], sep, c);
    }
  }

  /** A trailing separator adds one empty piece at the end. */
  lemma {:induction false} SplitTrailing(s: string, c: char)
    ensures Split(s + [c], c) == Split(s, c) + [""]
  {
    if s == [] {
      assert s + [c] == [c];
      assert [c][1..] == [];
    } else {
      SplitTrailing(s[1..], c);
      assert (s + [c])[1..] == s[1..] + [c];
    }
  }

  /** `s.replace(/[x]/g, '')` for each character `x` of `cs`: every such
      character removed, every other one kept, each copy of it, in order. */
  function RemoveChars(s: string, cs: set<char>): (r: string)
    ensures forall c :: c in r ==> c in s && c !in cs
    ensures forall c :: c in s && c !in cs ==> c in r
    ensures Subsequence(r, s)
    ensures forall c :: multiset(r)[c] == if c in cs then 0 else multiset(s)[c]
  {
    if s == [] then []
    else
      assert s == [s[0]] + s[1..];
      if s[0] in cs then RemoveChars(s[1..], cs)
      else
        var rest := RemoveChars(s[1..], cs);
        assert ([s[0]] + rest)[1..] == rest;
        [s[0]] + rest
  }

  /** Removing characters a text does not hold leaves it as it is. */
  lemma {:induction false} RemoveCharsAbsent(s: string, cs: set<char>)
    requires forall c :: c in s ==> c !in cs
    ensures RemoveChars(s, cs) == s
  {
    if s != [] {
      assert s[0] in s;
      assert forall c :: c in s[1..] ==> c in s;
      RemoveCharsAbsent(s[1..], cs);
      assert [s[0]] + s[1..] == s;
    }
  }

  /** The first position at which `pat` occurs in `s`, as `s.indexOf(pat)` finds it. */
  function IndexOf(s: string, pat: string): (r: Option<nat>)
    ensures r.Some? ==> r.value <= |s| && pat <= s[r.value..]
    ensures r.Some? ==> forall j :: 0 <= j < r.value ==> !(pat <= s[j..])
    ensures r.None? ==> forall j :: 0 <= j <= |s| ==> !(pat <= s[j..])
  {
    if pat <= s then Some(0)
    else if s == [] then None
    else
      var r := IndexOf(s[1..], pat);
      assert forall j :: 1 <= j <= |s| ==> s[j..] == s[1..][j - 1..];
      if r.Some? then Some(r.value + 1) else None
  }

  /** The decimal digit for `d`. */
  function DigitChar(d: nat): (r: char)
    requires d < 10
    ensures '0' <= r <= '9' && r as int - '0' as int == d
  {
    ('0' as int + d) as char
  }

  /** The decimal text of a natural number, as `String(n)` writes it. */
  function NatToString(n: nat): (r: string)
    ensures |r| >= 1
    ensures forall i :: 0 <= i < |r| ==> '0' <= r[i] <= '9'
  {
    if n < 10 then [DigitChar(n)] else NatToString(n / 10) + [DigitChar(n % 10)]
  }

  /** The number a text of decimal digits denotes. */
  function DecimalValue(ds: string): nat
    requires forall i :: 0 <= i < |ds| ==> '0' <= ds[i] <= '9'
  {
    if ds == [] then 0 else DecimalValue(ds[..|ds| - 1]) * 10 + (ds[|ds| - 1] as int - '0' as int)
  }

  /** Reading back the decimal text of `n` gives `n`. */
  lemma {:induction false} NatToStringValue(n: nat)
    ensures DecimalValue(NatToString(n)) == n
  {
    if n >= 10 {
      NatToStringValue(n / 10);
      var ds := NatToString(n);
      assert ds[..|ds| - 1] == NatToString(n / 10);
    }
  }

  /** The decimal text of an integer, as `String(i)` writes it. */
  function IntToString(i: int): string {
    if i < 0 then "-" + NatToString(-i) else NatToString(i)
  }

  /** How many UTF-16 code units encode `c`: two (a surrogate pair) for a
      character beyond U+FFFF, one otherwise. */
  function Utf16Units(c: char): nat {
    if c as int >= 0x1_0000 then 2 else 1
  }

  /** `s.length`: the number of UTF-16 code units of `s`, which is the number
      of its characters plus one for each character beyond U+FFFF. */
  function Utf16Length(s: string): (r: nat)
    ensures |s| <= r <= 2 * |s|
  {
    if s == [] then 0 else Utf16Units(s[0]) + Utf16Length(s[1..])
  }

  /** A text of characters up to U+FFFF has as many code units as characters. */
  lemma {:induction false} Utf16LengthBasic(s: string)
    requires forall i :: 0 <= i < |s| ==> s[i] as int < 0x1_0000
    ensures Utf16Length(s) == |s|
  {
    if s != [] {
      assert forall i :: 0 <= i < |s[1..]| ==> s[1..][i] == s[i + 1];
      Utf16LengthBasic(s[1..]);
    }
  }

  /** Only characters beyond U+FFFF make the two counts differ. */
  lemma {:induction false} Utf16LengthAstral(s: string)
    requires Utf16Length(s) > |s|
    ensures exists i :: 0 <= i < |s| && s[i] as int >= 0x1_0000
  {
    if s != [] && s[0] as int < 0x1_0000 {
      Utf16LengthAstral(s[1..]);
      var i :| 0 <= i < |s[1..]| && s[1..][i] as int >= 0x1_0000;
      assert s[i + 1] == s[1..][i];
    }
  }
}

=== FILE: validation_schemas.dfy ===
/** The contact schema, as a check of a contact record. The email format
    test of the schema library is a parameter `isEmail`. */
module ValidationSchemas {
  import opened Json
  import opened Yup
  import opened Strings
  import ApiService

  /** The characters `/^[0-9+\-() ]+$/` accepts. */
  predicate PhoneChar(c: char) {
    '0' <= c <= '9' || c == '+' || c == '-' || c == '(' || c == ')' || c == ' '
  }

  /** The phone rule: a missing phone passes; one that is present is text of
      at least 10 characters (as many code units, all of them being ASCII), every one a digit, '+', '-', '(', ')' or space. */
  predicate PhoneOk(v: Value) {
    v.Undefined? || (v.Str? && |v.s| >= 10 && forall i :: 0 <= i < |v.s| ==> PhoneChar(v.s[i]))
  }

  const ContactTypes: set<string> := {"lead", "customer", "partner"}

  const ContactFields: set<string> := {"name", "email", "phone", "company", "type"}

  /** Whether `field` of a contact passes `contactSchema`. */
  predicate ContactFieldOk(isEmail: string -> bool, field: string, v: Value) {
    match field
    case "name" => RequiredTextMin(v, 2)
    case "email" => RequiredText(v) && isEmail(v.s)
    case "phone" => PhoneOk(v)
    case "company" => RequiredText(v)
    case "type" => RequiredText(v) && v.s in ContactTypes
    case _ => true
  }

  /** The fields of a contact that `contactSchema` rejects. */
  function ContactErrors(c: Obj, isEmail: string -> bool): (r: set<string>)
    ensures "name" in r <==> !(Get(c, "name").Str? && Utf16Length(Get(c, "name").s) >= 2)
    ensures "email" in r <==> !(RequiredText(Get(c, "email")) && isEmail(Get(c, "email").s))
    ensures "phone" in r <==> !PhoneOk(Get(c, "phone"))
    ensures "company" in r <==> !RequiredText(Get(c, "company"))
    ensures "type" in r <==> !(Get(c, "type").Str? && Get(c, "type").s in ContactTypes)
    ensures r <= ContactFields
  {
    Failing(c, ContactFields, (f, v) => ContactFieldOk(isEmail, f, v))
  }

  /** The type test is exact: the seeded contacts of the service layer, typed
      'Customer' and 'Lead', fail it. */
  lemma SeedContactsMistyped(isEmail: string -> bool)
    ensures forall i :: 0 <= i < |ApiService.SeedContacts| ==>
      "type" in ContactErrors(ApiService.SeedContacts[i], isEmail)
  {
    forall i | 0 <= i < |ApiService.SeedContacts|
      ensures "type" in ContactErrors(ApiService.SeedContacts[i], isEmail)
    {
      CapitalisedTypeFails(ApiService.SeedContacts[i], isEmail);
    }
  }

  /** 'Customer' and 'Lead', capitalised, are not among the schema's types. */
  lemma CapitalisedTypeFails(c: Obj, isEmail: string -> bool)
    requires Get(c, "type") == Str("Customer") || Get(c, "type") == Str("Lead")
    ensures "type" in ContactErrors(c, isEmail)
  {
  }

  /** A contact without a phone is not held back by the phone rule; an empty
      phone is present and fails it. */
  lemma PhoneOptional(c: Obj, isEmail: string -> bool)
    ensures "phone" !in c ==> "phone" !in ContactErrors(c, isEmail)
    ensures Get(c, "phone") == Str("") ==> "phone" in ContactErrors(c, isEmail)
  {
  }
}

=== FILE: wrappers.dfy ===
/** Optional values and results with an error message, the model's stand-ins
    for `undefined` and for a thrown `Error`. */
module Wrappers {

  datatype Option<+T> = None | Some(value: T)

  /** `Err(message)` stands for an exception whose message is `message`. */
  datatype Result<+T> = Ok(value: T) | Err(error: string)
}

=== FILE: yup.dfy ===
/** The schema rules the forms declare, read as predicates on a field's value.
    A text rule holds only for text and a number rule only for a number; the
    conversions the schema library applies before testing are not modelled. */
module Yup {
  import opened Json
  import opened Strings

  /** `string().required()`: text that is not empty. */
  predicate RequiredText(v: Value) {
    v.Str? && v.s != ""
  }

  /** `string().required().min(n)`: text of at least `n` UTF-16 code units. */
  predicate RequiredTextMin(v: Value, n: nat) {
    RequiredText(v) && Utf16Length(v.s) >= n
  }

  /** `number().required().min(lo)`. */
  predicate NumberAtLeast(v: Value, lo: int) {
    v.Num? && v.n >= lo
  }

  /** `number().required().min(lo).max(hi)`: both ends allowed. */
  predicate NumberBetween(v: Value, lo: int, hi: int) {
    v.Num? && lo <= v.n <= hi
  }

  /** The fields of `fields` whose value in `o` fails `ok`. */
  function Failing(o: Obj, fields: set<string>, ok: (string, Value) -> bool): (r: set<string>)
    ensures forall f :: f in r <==> f in fields && !ok(f, Get(o, f))
  {
    set f | f in fields && !ok(f, Get(o, f))
  }
}
